=== FILE: README.md ===
# GoalForge, modelled in Dafny

GoalForge is a habit tracker on an EVM chain. Users are onboarded once with 100 GOAL tokens. They
stake GOAL on a habit goal (Coding, DSA, Gym, Yoga, Running) and check in day by day, spending a
"life" on each miss. A goal ends in one of two ways:

- Completed: the stake comes back with a 10% minted bonus and an achievement token.
- Failed: the stake is burned.

Three HTTP routes decide whether a day's task was done, and an orchestrating route chains them:

- a GitHub route counts the day's public events;
- a Google Fit route sums allow-listed activity sessions;
- an LLM route asks a model to judge free-form proof.

The dashboard lists recent activity and shows a check-in calendar. The deploy script writes the new
contract addresses into `.env.local`. The Hardhat configuration normalises the deployer's private
key.

The project models these parts, module by module:

| module | models |
|---|---|
| `Wrappers` | `Option` and `Result` |
| `Chain` | addresses, timestamps and the length of a day |
| `Text` | the JavaScript string operations the sources use (`trim`, one-character `split`, `join`, decimal printing) |
| `JsValues` | JSON values, truthiness, `||` and template-literal printing |
| `HabitCatalog` | the habit enumeration, the client tables of `src/lib/verification.js` and the goal titles |
| `AchievementMinter` | the `GoalForgeNFT` contract, as a class whose methods update its fields |
| `GoalLedger` | the `GoalForge` contract, as a class over its storage, with the ledger invariant (the books agree and the ledger's own balance covers every active stake) proved preserved by each operation |
| `GitHubCheck`, `FitnessCheck`, `LlmJudge`, `TaskPipeline` | the four verification routes; each upstream reply is an input, and each route returns its response together with the upstream calls it made |
| `RecentActivity`, `CheckInCalendar` | the two dashboard components' computations |
| `EnvFile` | `updateEnvLocal` of `scripts/deploy.js` |
| `PrivateKey` | `normalizePrivateKey` and the account list of `hardhat.config.js` |

The Solidity sources of `GoalForge` and `GoalForgeNFT` are not part of this model. The two contracts
are modelled from the behaviour their test suites state: error strings, amounts, events and state
after each call. Where those tests leave a behaviour open, the model makes it explicit:

- A streak on a missed check-in is a parameter of the ledger (`resetStreakOnMiss`).
- A check-in on an already settled goal is excluded by a precondition.
- `userStakes` of a user is the sum of the stakes of that user's active goals.
- A goal's end date lies `totalDays` days after its start; no test reads either date.
- `getTokenMetadata` is read only for minted ids (a precondition); no test reads an unminted id.
- `createHabit` checks its four refusals in the order days, lives, stake, balance. Each test
  breaks one condition only, so the tests fix the error string of each but not their order.

`.env.local` lines ending in `\r` are modelled as the code treats them. The pattern's `.` does not
match `\r`, so such a line is kept as it is, and the variable it names is appended again.

## Model

| member | source | states |
|---|---|---|
| HabitCatalog.FromCode | src/lib/verification.js:3-9 | exactly the codes 0..4 name a habit, and decoding gives back the code |
| HabitCatalog.CodeRoundTrip | src/lib/verification.js:3-9 | every habit's code decodes to that habit |
| HabitCatalog.HabitName | src/lib/verification.js:27-29 | the table name for codes 0..4, and "Unknown" exactly for every other value |
| HabitCatalog.ProofHint | src/lib/verification.js:31-33 | the table hint for codes 0..4, and the generic hint exactly otherwise |
| HabitCatalog.ProofPlaceholder | src/lib/verification.js:35-37 | the table placeholder for codes 0..4, and the generic one exactly otherwise |
| HabitCatalog.AutoAndFitnessDisjoint | src/lib/verification.js:39-45 | no habit is both auto-verifiable and fitness-tracked; either kind is a known habit |
| HabitCatalog.VerificationKinds | src/lib/verification.js:39-45 | auto-verifiable is exactly Coding; fitness-tracked is exactly Gym, Yoga or Running |
| HabitCatalog.GoogleFitAuthUrl | src/lib/verification.js:98-100 | the URL is the fixed route followed by the wallet |
| HabitCatalog.AuthUrlInjective | src/lib/verification.js:98-100 | distinct wallets give distinct URLs |
| HabitCatalog.Title | test/GoalForge.test.js:88-101 | every goal title is non-empty |
| HabitCatalog.TitleInjective | test/GoalForge.test.js:88-101 | the five titles tell the habits apart |
| AchievementMinter.GoalForgeNFT.constructor | test/GoalForgeNFT.test.js:20-22 | the deployer owns a minter with nothing minted |
| AchievementMinter.GoalForgeNFT.OwnerOf | test/GoalForgeNFT.test.js:26-30 | a minted id has its non-zero recipient, the one logged for it; an unminted id is ERC721NonexistentToken |
| AchievementMinter.GoalForgeNFT.TokenMetadata | test/GoalForgeNFT.test.js:32-38 | the metadata carries a positive mint time and the logged habit |
| AchievementMinter.GoalForgeNFT.Mint | test/GoalForgeNFT.test.js:25-65 | only the owner mints; the token takes the next id, belongs to the recipient, stores habit, days and time, and is logged as NFTMinted(to, id, habit); a refused call changes nothing |
| AchievementMinter.GoalForgeNFT.TransferOwnership | test/GoalForge.test.js:23-24 | only the owner hands the contract to a non-zero account |
| AchievementMinter.LogNumbersTokens | test/GoalForgeNFT.test.js:40-45 | the i-th mint carries id i, and no two mints share an id |
| AchievementMinter.DeployAndHandOver | test/GoalForge.test.js:15-24 | after deployment and hand-over the ledger owns a fresh minter |
| GoalLedger.Bonus | test/GoalForge.test.js:195-206 | the bonus is a tenth of the stake rounded down |
| GoalLedger.NewGoal | test/GoalForge.test.js:73-82 | a new goal is active, with the requested habit, days, lives, stake and username, the habit's title and no progress; (a modelling choice the tests leave open) it starts at the call's time and ends `totalDays` days later |
| GoalLedger.AfterCheckIn | test/GoalForge.test.js:153-170 | a check-in keeps the goal well formed and leaves its identity, stake, length and dates alone |
| GoalLedger.SuccessAdvances | test/GoalForge.test.js:153-158 | a success raises progress and streak by one, spends no life, and completes the goal exactly on its last day |
| GoalLedger.MissSpendsLife | test/GoalForge.test.js:166-170 | a miss with a life left spends exactly one and keeps the goal active |
| GoalLedger.MissWithoutLifeFails | test/GoalForge.test.js:258-264 | a miss with no life left fails the goal: verified, not completed |
| GoalLedger.SuccessesComplete | test/GoalForge.test.js:185-193 | `totalDays` successes complete a new goal and none earlier does |
| GoalLedger.ActiveStakeCovers | test/GoalForge.test.js:111-114 | a user's recorded stake covers each of that user's active goals |
| GoalLedger.NoActiveNoStake | test/GoalForge.test.js:243-249 | a user without active goals has a recorded stake of 0 |
| GoalLedger.TotalEscrowCovers | test/GoalForge.test.js:266-274 | each user's stake is part of the ledger's escrow |
| GoalLedger.Tagged | test/GoalForge.test.js:299-313 | each entry is the goal at the same position, tagged with its user |
| GoalLedger.AllGoalsMembership | test/GoalForge.test.js:294-313 | an entry is listed exactly when its goal belongs to its registered user |
| GoalLedger.AllGoalsLength | test/GoalForge.test.js:294-313 | one entry per goal of every registered user |
| GoalLedger.SetKeepsSound | test/GoalForge.test.js:104-114 | replacing one user's goals, with that user's stake record and the reserve following, keeps the ledger invariant |
| GoalLedger.StakeInEscrow | test/GoalForge.test.js:266-274 | an active goal's stake is within its user's stake, which is within the escrow |
| GoalLedger.GrantKeepsSound | test/GoalForge.test.js:44-47 | the onboarding grant keeps the ledger invariant |
| GoalLedger.MoveKeepsSound | test/GoalForge.test.js:86 | a transfer moves the amount from sender to receiver, touches no other balance, and keeps the invariant |
| GoalLedger.OpenKeepsSound | test/GoalForge.test.js:104-114 | opening a goal keeps the ledger invariant |
| GoalLedger.OpenEscrowsStake | test/GoalForge.test.js:104-114 | opening a goal moves exactly its stake from the user to the ledger and adds it to the user's stake record |
| GoalLedger.SoundIsPayable | test/GoalForge.test.js:195-206 | in a sound ledger every active goal's stake is both recorded and held, so it can be paid out |
| GoalLedger.SettleKeepsSound | test/GoalForge.test.js:185-285 | settling an active goal, with one token minted when it completes, keeps the ledger invariant |
| GoalLedger.SettlePays | test/GoalForge.test.js:195-219 | completion pays stake plus bonus to the user out of the ledger; failure burns the stake from the ledger; an active goal moves no tokens |
| GoalLedger.GoalForge.AllGoals | test/GoalForge.test.js:294-313 | `getAllGoals()` lists exactly the registered users' goals, one entry per goal |
| GoalLedger.GoalForge.constructor | test/GoalForge.test.js:33-40 | the initial supply goes to the deployer; no user, goal or stake exists |
| GoalLedger.GoalForge.Onboard | test/GoalForge.test.js:43-64 | a first call grants 100 GOAL and marks the user; a second is "User has already onboarded" and changes nothing |
| GoalLedger.GoalForge.Transfer | test/GoalForge.test.js:86 | an ERC-20 transfer succeeds exactly for a non-zero receiver and a covered amount |
| GoalLedger.GoalForge.CreateHabit | test/GoalForge.test.js:73-144 | the four refusals, each with its own error string and changing nothing, checked in the order chosen above; otherwise the new goal is appended at the next index and its stake is escrowed |
| GoalLedger.GoalForge.CheckInHabit | test/GoalForge.test.js:147-285 | an invalid index is refused; otherwise the goal advances, completion mints the token first and pays stake plus bonus, failure burns the stake, and the ledger invariant is kept |
| GitHubCheck.OnDay | src/app/api/verify/github/route.js:42-45 | exactly the events of the target day, in feed order |
| GitHubCheck.Count | src/app/api/verify/github/route.js:48-60 | the count is zero exactly when no event is of the counted kinds |
| GitHubCheck.Commits | src/app/api/verify/github/route.js:62-64 | the count is positive exactly when some push event carries commits |
| GitHubCheck.CommitsAppend | src/app/api/verify/github/route.js:62-64 | the commits of two stretches of the feed add up |
| GitHubCheck.Contributions | src/app/api/verify/github/route.js:66-73 | the total is zero exactly when no event is a push with commits, a pull request, an issue interaction, a creation or a review |
| GitHubCheck.GraphCount | src/app/api/verify/github/route.js:98-100 | the graph's count is that of the first entry for the day, and there is one exactly when such an entry exists |
| GitHubCheck.Reconciled | src/app/api/verify/github/route.js:90-107 | the count is the larger of the events' own count and the graph's count for the day, when the graph has one |
| GitHubCheck.RepoNames | src/app/api/verify/github/route.js:135-137 | exactly the non-empty repository names of the events |
| GitHubCheck.Dedup | src/app/api/verify/github/route.js:133-139 | the same names, each once |
| GitHubCheck.DedupOrder | src/app/api/verify/github/route.js:133-139 | names appear in the order of their first occurrence |
| GitHubCheck.RecentRepos | src/app/api/verify/github/route.js:133-139 | at most five names, all taken from the events (which five: RecentReposFirstSeen) |
| GitHubCheck.RecentReposSpec | src/app/api/verify/github/route.js:133-139 | at most five distinct present names, in first-seen order; fewer than five means all of them |
| GitHubCheck.RecentReposFirstSeen | src/app/api/verify/github/route.js:133-139 | all the distinct names when there are at most five, otherwise exactly five; any name first seen before a listed one is listed, so these are the first five seen |
| GitHubCheck.FoundIsNotNothing | src/app/api/verify/github/route.js:111-119 | a "Found" summary never reads as "No contributions found" |
| GitHubCheck.CountDay | src/app/api/verify/github/route.js:42-126 | the reply reports the day's classified counts, takes the larger of its count and the graph's, and is verified exactly when that is positive |
| GitHubCheck.Verify | src/app/api/verify/github/route.js:4-148 | no username is 400 with no call; a 404 feed is "GitHub user not found"; other feed failures are 500; otherwise the reply of `CountDay` |
| FitnessCheck.PolicyFor | src/app/api/verify/fitness/route.js:130-180 | exactly Gym, Yoga and Running have a policy, named as the habit is |
| FitnessCheck.Status | src/app/api/verify/fitness/route.js:103-110 | the status is 200 exactly for a measured reply and 401 exactly for an expired token |
| FitnessCheck.Relevant | src/app/api/verify/fitness/route.js:236-239 | exactly the allow-listed sessions, in reply order |
| FitnessCheck.DurationIgnoresOthers | src/app/api/verify/fitness/route.js:236-245 | a session off the allow-list adds nothing to the duration |
| FitnessCheck.RoundMinutes | src/app/api/verify/fitness/route.js:279 | the whole minute nearest to the duration, halves rounded up |
| FitnessCheck.ValueOf | src/app/api/verify/fitness/route.js:257 | a truthy integer value wins; otherwise the floating value or 0 |
| FitnessCheck.LastFeederWins | src/app/api/verify/fitness/route.js:253-264 | the last dataset feeding a metric sets its value |
| FitnessCheck.NoFeederZero | src/app/api/verify/fitness/route.js:248-251 | a metric nothing feeds stays 0 |
| FitnessCheck.ReadMetrics | src/app/api/verify/fitness/route.js:253-264 | the loop leaves each metric at the value of its last feeding dataset |
| FitnessCheck.VerdictSpec | src/app/api/verify/fitness/route.js:241-268 | verified exactly when the session minutes, as a fraction, reach the threshold, or a Running habit has 3000 steps |
| FitnessCheck.VerifiedSummary | src/app/api/verify/fitness/route.js:288-290 | for a habit of the policy table, a success summary never reads as an "Insufficient" one |
| FitnessCheck.Summary | src/app/api/verify/fitness/route.js:288-290 | the summary reads as "Insufficient" exactly when the habit was not verified |
| FitnessCheck.CheckWithGoogleFit | src/app/api/verify/fitness/route.js:183-291 | a 401 asks for re-authorisation; other failures are 500; otherwise minutes or Running steps decide |
| FitnessCheck.Verify | src/app/api/verify/fitness/route.js:83-118 | no token is the manual-proof 400 with no call; an untracked habit is unsupported before any call |
| LlmJudge.PresentBelowGrows | src/app/api/verify/llm/route.js:98-120 | a later present kind of evidence sits at a later position |
| LlmJudge.PartsBelowSpec | src/app/api/verify/llm/route.js:98-120 | one part per present kind, in the order github, fitness, text, image |
| LlmJudge.BuildParts | src/app/api/verify/llm/route.js:98-120 | the pushes build exactly that bundle |
| LlmJudge.NoPartsNoEvidence | src/app/api/verify/llm/route.js:122-127 | the bundle is empty exactly when no evidence is present |
| LlmJudge.IndexOf | src/app/api/verify/llm/route.js:179 | the first position of a character, present exactly when it occurs |
| LlmJudge.LastIndexOf | src/app/api/verify/llm/route.js:179 | the last position of a character, present exactly when it occurs |
| LlmJudge.Extract | src/app/api/verify/llm/route.js:179-184 | the match runs from the first `{` to the last `}`, and there is none exactly when no `{` is followed by a `}` |
| LlmJudge.Normalise | src/app/api/verify/llm/route.js:187-190 | verified only for a literal `true`; a truthy confidence is kept and any other becomes 0; a truthy reason is kept and any other becomes "No reason provided" |
| LlmJudge.ReadVerdict | src/app/api/verify/llm/route.js:172-190 | a reply that parses whole is taken as is; otherwise the text from the first `{` to the last `}` is parsed and becomes the verdict, and an extracted text that does not parse gives the parser's own error; the parse-failure message comes exactly when the reply does not parse and holds no `{...}` match; every verdict read has a reason |
| LlmJudge.Judge | src/app/api/verify/llm/route.js:77-203 | no key is 501 and no habit is 400, both without a call; no evidence is 400; otherwise one provider call, and every failure is 500 |
| JsValues.Or | src/app/api/verify/llm/route.js:189-190 | a truthy value itself, otherwise the fallback; truthy whenever the fallback is |
| JsValues.ToJsString | src/app/api/verify/task/route.js:120 | a string prints as itself, an empty array as nothing, a one-element array as its element, and every other non-array value as a non-empty text |
| JsValues.ElementString | src/app/api/verify/task/route.js:120 | inside an array `null` and `undefined` print as nothing, any other element as itself |
| JsValues.ArrayJoin | src/app/api/verify/task/route.js:120 | an array prints as its elements' strings joined with commas |
| TaskPipeline.RunLength | src/app/api/verify/task/route.js:56-58 | the run of non-`;` characters from a position stops at a `;` or at the end |
| TaskPipeline.TokenFrom | src/app/api/verify/task/route.js:56-58 | the token is the run after the first key occurrence followed by a non-`;` character, and none exactly when there is no such occurrence |
| TaskPipeline.StagesExclusive | src/app/api/verify/task/route.js:20-53 | the GitHub and Google Fit stages never both run |
| TaskPipeline.TrailExtend | src/app/api/verify/task/route.js:31-35 | recording a later stage keeps one step per call, in stage order |
| TaskPipeline.GitHubStage | src/app/api/verify/task/route.js:20-51 | the stage runs for Coding and DSA with a username, and returns early exactly for a Coding habit that GitHub verified |
| TaskPipeline.AutomaticStages | src/app/api/verify/task/route.js:20-92 | at most one automatic stage runs; the route returns early exactly when GitHub accepts a Coding habit or Google Fit accepts a fitness habit, with that stage's method and summary; otherwise nothing is accepted yet and each stage's reply is kept for the judge |
| TaskPipeline.FitStage | src/app/api/verify/task/route.js:53-92 | the stage runs for fitness habits with a cookie token, and returns early exactly when Google Fit verified |
| TaskPipeline.JudgeStage | src/app/api/verify/task/route.js:94-135 | the judge runs exactly when there is evidence; it accepts at confidence 60 or more; otherwise the reply says no proof was submitted |
| TaskPipeline.Post | src/app/api/verify/task/route.js:5-137 | `finalVerified` holds exactly at the three acceptance points; steps follow the calls in stage order |
| RecentActivity.TransactionType | src/components/dashboard/RecentTransactions.jsx:11-16 | each of the four types holds exactly under its own condition |
| RecentActivity.TypeFollowsStatus | src/components/dashboard/RecentTransactions.jsx:11-16 | on ledger goals the type follows the ledger's status |
| RecentActivity.Label | src/components/dashboard/RecentTransactions.jsx:28-36 | "Transaction" exactly for unknown type names |
| RecentActivity.LabelsDistinct | src/components/dashboard/RecentTransactions.jsx:28-36 | different types get different labels |
| RecentActivity.Entries | src/components/dashboard/RecentTransactions.jsx:52-66 | one entry per goal, its id the goal's position |
| RecentActivity.Insert | src/components/dashboard/RecentTransactions.jsx:67 | insertion adds exactly one entry |
| RecentActivity.SortByDate | src/components/dashboard/RecentTransactions.jsx:67 | the sort is a permutation |
| RecentActivity.InsertOrdered | src/components/dashboard/RecentTransactions.jsx:67 | inserting a later-positioned entry keeps the list ordered |
| RecentActivity.SortOrdered | src/components/dashboard/RecentTransactions.jsx:67 | the sort orders most recent first, keeping equal dates in input order |
| RecentActivity.TransactionsSpec | src/components/dashboard/RecentTransactions.jsx:48-68 | the list holds exactly one entry per goal, most recent first, ties by position |
| CheckInCalendar.DaysFromSpec | src/components/dashboard/Calendar.jsx:25-29 | the n days from a start are exactly start .. start+n-1 |
| CheckInCalendar.WindowSpec | src/components/dashboard/Calendar.jsx:19-29 | a goal marks min(progress, totalDays) consecutive days from its start day |
| CheckInCalendar.MarkedMember | src/components/dashboard/Calendar.jsx:15-32 | a day is marked exactly when it lies in some goal's window |
| CheckInCalendar.BuildCheckInMap | src/components/dashboard/Calendar.jsx:15-32 | the nested loops mark exactly those days |
| CheckInCalendar.MarkedAtMostCheckIns | src/components/dashboard/Calendar.jsx:15-43 | no more days are marked than there are check-ins |
| CheckInCalendar.TotalCheckIns | src/components/dashboard/Calendar.jsx:40-43 | the total is at least each goal's progress, and zero exactly when no goal has any |
| CheckInCalendar.BestStreak | src/components/dashboard/Calendar.jsx:35-38 | the largest current streak, and 0 without goals |
| CheckInCalendar.ActiveCount | src/components/dashboard/Calendar.jsx:89 | at most one per goal, and zero exactly when every goal is completed or verified |
| CheckInCalendar.ActiveCountIsRunning | src/components/dashboard/Calendar.jsx:89 | on ledger goals, the active count is the number of goals still running |
| Text.TrimSpec | hardhat.config.js:8 | the trimmed string is the slice of the original that neither starts nor ends with whitespace |
| Text.TrimUntouched | scripts/deploy.js:19 | trimming a string without surrounding whitespace gives it back |
| Text.Split | scripts/deploy.js:14 | at least one piece, and no piece holds the separator |
| Text.JoinSplit | scripts/deploy.js:14 | joining the pieces with the separator gives the string back |
| Text.NatToString | src/app/api/verify/github/route.js:77-87 | a non-empty run of decimal digits |
| Text.NatToStringValue | src/app/api/verify/github/route.js:77-87 | the digits read back as the number printed |
| Text.NatToStringInjective | src/app/api/verify/github/route.js:77-87 | different numbers print differently |
| EnvFile.KeyOfSpec | scripts/deploy.js:17-19 | a line names a key exactly when the pattern splits it at its first `=`, and the key is the trimmed part before it |
| EnvFile.KeyIndex | scripts/deploy.js:7-10 | a key is found exactly when it is one of the two address variables |
| EnvFile.EntryDistinct | scripts/deploy.js:7-10 | the two written lines differ whatever the addresses |
| EnvFile.KeyOfEntry | scripts/deploy.js:17-21 | a written line names its own variable |
| EnvFile.SeenInSpec | scripts/deploy.js:15-25 | a variable is seen exactly when some line names it |
| EnvFile.AppendedOnlyMissing | scripts/deploy.js:27-31 | every appended line is the entry of a variable that was not seen |
| EnvFile.AppendedHas | scripts/deploy.js:27-31 | a variable's line is appended exactly when it was not seen |
| EnvFile.AppendedInOrder | scripts/deploy.js:27-31 | appended lines follow the declaration order |
| EnvFile.RewriteLine | scripts/deploy.js:17-22 | a line naming a managed variable becomes that variable's `KEY=value` line; any other line is kept |
| EnvFile.Updated | scripts/deploy.js:14-32 | the text written is never empty and ends in a newline |
| EnvFile.Render | scripts/deploy.js:32 | no lines give the empty file; otherwise the file ends in a newline |
| EnvFile.RewriteInPlace | scripts/deploy.js:15-25 | the loop rewrites exactly the managed lines and collects exactly the seen variables |
| EnvFile.AppendMissing | scripts/deploy.js:27-31 | the pushes append exactly the missing entries, in order |
| EnvFile.UpdateEnvLocal | scripts/deploy.js:5-34 | the text written is the rewritten lines of the existing file plus the missing entries, rendered |
| EnvFile.FinalLinesKeep | scripts/deploy.js:13-31 | managed lines are replaced by their entry, other lines are kept in place, and only missing entries follow |
| EnvFile.EveryKeyWritten | scripts/deploy.js:13-31 | afterwards each variable has its `KEY=value` line |
| EnvFile.NothingAppendedWhenPresent | scripts/deploy.js:27-31 | when every variable already had a line, nothing is appended |
| EnvFile.FinalLinesNonEmpty | scripts/deploy.js:27-31 | even with no file, both lines are written |
| EnvFile.SplitRender | scripts/deploy.js:14-32 | splitting a written file gives its lines followed by one empty piece |
| EnvFile.LinesSettled | scripts/deploy.js:15-31 | every line of a rewritten file rewrites to itself |
| EnvFile.SettledUnchanged | scripts/deploy.js:15-31 | settled lines naming every variable come back unchanged |
| EnvFile.RewriteTwice | scripts/deploy.js:15-31 | rewriting rewritten lines again, even with an empty line after them, changes nothing |
| EnvFile.RerunAddsNewline | scripts/deploy.js:14-32 | a rerun with the same addresses adds one newline at the end |
| EnvFile.UpdatedCorrectedIdempotent | scripts/deploy.js:14-32 | with the final newline dropped before splitting, a rerun writes the same file |
| PrivateKey.NormalizeSpec | hardhat.config.js:4-12 | a value is accepted as k exactly when it is set, is not the placeholder, and once trimmed is k itself or k without its `0x` |
| PrivateKey.AcceptedIsKey | hardhat.config.js:10-11 | an accepted key is `0x` followed by 64 hex digits |
| PrivateKey.NormalizeIdempotent | hardhat.config.js:4-12 | an accepted key normalises to itself |
| PrivateKey.PrefixOptional | hardhat.config.js:9 | hex digits normalise the same with and without `0x` |
| PrivateKey.AccountsSpec | hardhat.config.js:20 | an account exists exactly when the key was accepted, and it is that key |
| PrivateKey.WarnsSpec | hardhat.config.js:15-19 | a warning is given exactly for a set, non-placeholder value that yields no account |

## Left out

- EnvFile.KeyIndex: `addrVars[key] !== undefined` also finds the names `Object.prototype` carries (`toString`, `constructor`, `__proto__`, ...). A line naming one of those would be rewritten to `toString=function ...`. The model recognises only the two address variables.
- File I/O in `scripts/deploy.js`: `existsSync`, `readFileSync` and `writeFileSync` become an `Option<string>` input and the returned text. The console message is left out. So is the `main()` deploy flow, which only deploys and calls `updateEnvLocal`.
- The console warning of `hardhat.config.js` is the predicate `Warns`; nothing is printed. The rest of the configuration (networks, compiler settings) is static data.
- The ERC-20 `name`, `symbol` and `totalSupply` views of the ledger, `hasUserOnboarded` as a view, and the ERC-721 `name` and `symbol` are left out. The ledger logs its own events (onboarding, creation, progress, completion, failure) but not the ERC-20 `Transfer` events.
- GoalLedger.GoalForge.CheckInHabit: a check-in on a goal that has already completed or failed is excluded by a precondition, because the tests do not fix that behaviour.
- A missed check-in either resets the streak or keeps it, as the ledger's `resetStreakOnMiss` parameter chooses; the tests leave that open.
- Clocks: "now", today's date and day boundaries are parameters. Dates are whole-day indices or `YYYY-MM-DD` strings. Time zones and `setHours` are not modelled.
- Fitness values are integers: floating point `fpVal`, `parseInt` and the kilometre rounding of `distanceKm` are left out. `Math.round` of the session minutes is modelled.
- FitnessCheck.Verify: `habitType` is an integer in the model. A habit sent as a string (`"2"`), which JavaScript would find in the policy table by its key, is not modelled.
- `JSON.parse` is an oracle parameter of `LlmJudge.Judge`. `JSON.stringify` of the evidence is an input string. The system prompts, the model name and the request options are constant text the model does not reproduce.
- TaskPipeline.Post: the `confidence >= 60` comparison is taken on whole numbers only. A fractional confidence (59.5, 60.5) cannot be expressed, and a numeric string, which JavaScript would coerce, does not pass.
- JsValues.ToJsString: numbers are whole, so JavaScript's printing of fractions and exponents (`59.5`, `1e+21`) is not modelled. Arrays print as `join` does; objects print as `[object Object]`, and a custom `toString` is not modelled.
- HabitCatalog.NeedsFitnessTracker: habit codes are integers. JavaScript would also answer for fractions (`needsFitnessTracker(2.5)` is true) and for strings (`"2"` passes the range test, while `isAutoVerifiable("0")` is false); those inputs are not modelled.
- The routes' `try`/`catch` around `request.json()` (a 500 for an unreadable body) is not modelled: requests arrive already parsed.
- The network is an input in every route: each reply is a parameter, and the routes return the calls they made. The composition of the task route with the real answers of the other routes is not modelled.
- The GET handlers of the fitness route (status, OAuth redirect) and the OAuth callback route are left out. So is the client-side `fetch` wrapper code of `src/lib/verification.js`.
- The calendar's month grid rendering and the transaction icons and colours are presentation only. Wei-to-GOAL conversion of the stake (`/ 1e18`) is left out: the stake stays in wei.

## Findings

| source | as written | input that shows it | evidently intended | confidence | as-written member | corrected member |
|---|---|---|---|---|---|---|
| scripts/deploy.js:14-32 | the file is split on every `\n`, so its final newline leaves an empty last line, and the join appends another newline: each run adds one more blank line at the end | existing file `NEXT_PUBLIC_GOALFORGE_ADDRESS=a\nNEXT_PUBLIC_GOALFORGE_NFT_ADDRESS=b\n`, same addresses: the output ends `b\n\n` | a rerun with the same addresses leaves the file unchanged | medium, not executed | EnvFile.RerunAddsNewline | EnvFile.UpdatedCorrectedIdempotent |

=== FILE: AchievementMinter.dfy ===
/**
 * GoalForgeNFT: the achievement collectible. An owner-gated counter assigns token ids
 * 0, 1, 2, ... and records the recipient and the achievement metadata of each token.
 * Authorisation follows OpenZeppelin's Ownable (the deployer owns the contract until it
 * transfers ownership), as the error name OwnableUnauthorizedAccount in the tests shows.
 */
module AchievementMinter {
  import opened Wrappers
  import opened Chain
  import opened HabitCatalog

  datatype Metadata = Metadata(habitType: Habit, daysCompleted: nat, mintedAt: Timestamp)

  /** The contract's event log entry: `NFTMinted(to, tokenId, habitType)`. */
  datatype MintEvent = NFTMinted(to: Address, tokenId: nat, habitType: Habit)

  datatype MinterError =
    | OwnableUnauthorizedAccount(account: Address)
    | OwnableInvalidOwner(owner: Address)
    | ERC721InvalidReceiver(receiver: Address)
    | ERC721NonexistentToken(tokenId: nat)

  class GoalForgeNFT {
    var owner: Address
    var nextTokenId: nat
    var owners: map<nat, Address>
    var metadata: map<nat, Metadata>
    var log: seq<MintEvent>

    /** Exactly the ids below the counter are minted, each to a real account, each logged once in order. */
    ghost predicate Valid()
      reads this
    {
      && (forall id: nat :: id in owners <==> id < nextTokenId)
      && (forall id: nat :: id in metadata <==> id < nextTokenId)
      && (forall id :: id in owners ==> owners[id] != ZeroAddress)
      && |log| == nextTokenId
      && (forall id :: 0 <= id < |log| ==>
            log[id] == NFTMinted(owners[id], id, metadata[id].habitType))
    }

    /** Deployment: the deployer becomes the owner and nothing is minted yet. */
    constructor (deployer: Address)
      ensures Valid()
      ensures owner == deployer && nextTokenId == 0
      ensures owners == map[] && metadata == map[] && log == []
    {
      owner := deployer;
      nextTokenId := 0;
      owners := map[];
      metadata := map[];
      log := [];
    }

    /** `ownerOf(id)`: the recipient of a minted token; unminted ids revert. */
    function OwnerOf(id: nat): (r: Result<Address, MinterError>)
      reads this
      requires Valid()
      ensures r.Ok? <==> id < nextTokenId
      ensures r.Ok? ==> r.value != ZeroAddress && log[id].to == r.value
      ensures r.Err? ==> r.error == ERC721NonexistentToken(id)
    {
      if id in owners then Ok(owners[id]) else Err(ERC721NonexistentToken(id))
    }

    /** `getTokenMetadata(id)` for a minted token. */
    function TokenMetadata(id: nat): (m: Metadata)
      reads this
      requires Valid() && id < nextTokenId
      ensures m.mintedAt > 0
      ensures log[id].habitType == m.habitType
    {
      metadata[id]
    }

    /**
     * `mint(to, habitType, daysCompleted)`: only the owner may mint; the new token gets the
     * next id, belongs to `to`, stores the metadata with the block time and is logged.
     */
    method Mint(caller: Address, to: Address, habitType: Habit, daysCompleted: nat, now: Timestamp)
      returns (r: Result<nat, MinterError>)
      requires Valid()
      modifies this
      ensures Valid()
      ensures owner == old(owner)
      ensures caller != old(owner) ==> r == Err(OwnableUnauthorizedAccount(caller))
      ensures caller == old(owner) && to == ZeroAddress ==> r == Err(ERC721InvalidReceiver(to))
      ensures r.Err? ==> unchanged(this)
      ensures r.Ok? <==> caller == old(owner) && to != ZeroAddress
      ensures r.Ok? ==>
        && r.value == old(nextTokenId)
        && nextTokenId == old(nextTokenId) + 1
        && owners == old(owners)[r.value := to]
        && metadata == old(metadata)[r.value := Metadata(habitType, daysCompleted, now)]
        && log == old(log) + [NFTMinted(to, r.value, habitType)]
    {
      if caller != owner {
        return Err(OwnableUnauthorizedAccount(caller));
      }
      if to == ZeroAddress {
        return Err(ERC721InvalidReceiver(to));
      }
      var id := nextTokenId;
      owners := owners[id := to];
      metadata := metadata[id := Metadata(habitType, daysCompleted, now)];
      log := log + [NFTMinted(to, id, habitType)];
      nextTokenId := id + 1;
      r := Ok(id);
    }

    /** `transferOwnership(newOwner)`: only the owner may hand the contract to another non-zero account. */
    method TransferOwnership(caller: Address, newOwner: Address) returns (r: Result<(), MinterError>)
      requires Valid()
      modifies this`owner
      ensures Valid()
      ensures caller != old(owner) ==> r == Err(OwnableUnauthorizedAccount(caller))
      ensures caller == old(owner) && newOwner == ZeroAddress ==> r == Err(OwnableInvalidOwner(newOwner))
      ensures r.Ok? <==> caller == old(owner) && newOwner != ZeroAddress
      ensures owner == if r.Ok? then newOwner else old(owner)
    {
      if caller != owner {
        return Err(OwnableUnauthorizedAccount(caller));
      }
      if newOwner == ZeroAddress {
        return Err(OwnableInvalidOwner(newOwner));
      }
      owner := newOwner;
      r := Ok(());
    }
  }

  /**
   * Minting `k` tokens in a row from a fresh contract gives ids 0..k-1: the log of a valid
   * contract numbers its tokens by position, so the i-th mint ever made carries id i.
   */
  lemma {:induction false} LogNumbersTokens(log: seq<MintEvent>, owners: map<nat, Address>, metadata: map<nat, Metadata>, i: nat)
    requires i < |log|
    requires forall id :: 0 <= id < |log| ==> id in owners && id in metadata
    requires forall id :: 0 <= id < |log| ==>
               log[id] == NFTMinted(owners[id], id, metadata[id].habitType)
    ensures log[i].tokenId == i
    ensures forall j :: 0 <= j < |log| && log[j].tokenId == log[i].tokenId ==> j == i
  {
    forall j | 0 <= j < |log| && log[j].tokenId == log[i].tokenId
      ensures j == i
    {
      assert log[j].tokenId == j;
    }
  }

  /**
   * The deployment the test suites perform: the deployer owns a fresh minter, hands it to the
   * ledger's address, and from then on only that address can mint.
   */
  method DeployAndHandOver(deployer: Address, ledgerAddress: Address) returns (nft: GoalForgeNFT)
    requires deployer != ZeroAddress && ledgerAddress != ZeroAddress
    ensures fresh(nft) && nft.Valid()
    ensures nft.owner == ledgerAddress && nft.nextTokenId == 0
  {
    nft := new GoalForgeNFT(deployer);
    assert nft.owner == deployer;
    var r := nft.TransferOwnership(deployer, ledgerAddress);
    assert r.Ok?;
  }
}

=== FILE: Chain.dfy ===
/** Identities and clock values of the ledger's execution environment. */
module Chain {

  /** An account or contract address; 0 is the zero address. */
  type Address = nat

  const ZeroAddress: Address := 0

  /** A block timestamp in seconds; every block has a positive one. */
  type Timestamp = t: int | t > 0 witness 1

  /** One day in seconds. */
  const SecondsPerDay: nat := 86400
}

=== FILE: CheckInCalendar.dfy ===
/**
 * The dashboard calendar: which days are marked as checked in, and the three figures above it
 * (best streak, total check-ins, active goals). Days are whole-day indices counted from the epoch,
 * so a goal starting at second `s` starts on day `s / 86400`.
 */
module CheckInCalendar {
  import opened Chain
  import opened GoalLedger

  function Min(a: nat, b: nat): nat
  {
    if a < b then a else b
  }

  /** The day a goal starts on. */
  function StartDay(g: Goal): int
  {
    g.startDate / SecondsPerDay
  }

  /** The `n` consecutive days from `start`. */
  function DaysFrom(start: int, n: nat): set<int>
  {
    if n == 0 then {} else DaysFrom(start, n - 1) + {start + n - 1}
  }

  /** `DaysFrom(start, n)` holds exactly the days `start .. start + n - 1`, so `n` of them. */
  lemma {:induction false} DaysFromSpec(start: int, n: nat)
    ensures forall d :: d in DaysFrom(start, n) <==> start <= d < start + n
    ensures |DaysFrom(start, n)| == n
  {
    if n > 0 {
      DaysFromSpec(start, n - 1);
      assert start + n - 1 !in DaysFrom(start, n - 1);
    }
  }

  /** Day `d` is one of the first `min(progress, totalDays)` days of the goal. */
  predicate InWindow(g: Goal, d: int)
  {
    StartDay(g) <= d < StartDay(g) + Min(g.progress, g.totalDays)
  }

  /** The days a goal marks. */
  function Window(g: Goal): set<int>
  {
    DaysFrom(StartDay(g), Min(g.progress, g.totalDays))
  }

  /** A goal marks `min(progress, totalDays)` consecutive days from its start day. */
  lemma WindowSpec(g: Goal)
    ensures |Window(g)| == Min(g.progress, g.totalDays)
    ensures forall d :: d in Window(g) <==> InWindow(g, d)
  {
    DaysFromSpec(StartDay(g), Min(g.progress, g.totalDays));
  }

  /** The days marked by any of the goals. */
  function Marked(gs: seq<Goal>): set<int>
  {
    if gs == [] then {} else Marked(gs[..|gs| - 1]) + Window(gs[|gs| - 1])
  }

  /** A day is marked exactly when it lies in some goal's window. */
  lemma {:induction false} MarkedMember(gs: seq<Goal>, d: int)
    ensures d in Marked(gs) <==> exists k :: 0 <= k < |gs| && InWindow(gs[k], d)
  {
    if gs != [] {
      var init := gs[..|gs| - 1];
      MarkedMember(init, d);
      WindowSpec(gs[|gs| - 1]);
      if exists k :: 0 <= k < |init| && InWindow(init[k], d) {
        var k :| 0 <= k < |init| && InWindow(init[k], d);
        assert gs[k] == init[k];
      }
      if exists k :: 0 <= k < |gs| && InWindow(gs[k], d) {
        var k :| 0 <= k < |gs| && InWindow(gs[k], d);
        if k < |init| {
          assert init[k] == gs[k];
        }
      }
    }
  }

  /**
   * The `checkInMap` builder: for each goal, mark the day of each of its first
   * `min(progress, totalDays)` days. A day marked by several goals is marked once.
   */
  method BuildCheckInMap(gs: seq<Goal>) returns (marked: set<int>)
    ensures marked == Marked(gs)
  {
    marked := {};
    var h := 0;
    while h < |gs|
      invariant h <= |gs|
      invariant marked == Marked(gs[..h])
    {
      var g := gs[h];
      var start := StartDay(g);
      var i := 0;
      while i < g.progress && i < g.totalDays
        invariant i <= Min(g.progress, g.totalDays)
        invariant marked == Marked(gs[..h]) + DaysFrom(start, i)
      {
        marked := marked + {start + i};
        i := i + 1;
      }
      assert gs[..h + 1][..h] == gs[..h];
      h := h + 1;
    }
    assert gs[..h] == gs;
  }

  /** `totalCheckIns`: the sum of the goals' progress. */
  function TotalCheckIns(gs: seq<Goal>): (n: nat)
    ensures forall k :: 0 <= k < |gs| ==> gs[k].progress <= n
    ensures n == 0 <==> forall k :: 0 <= k < |gs| ==> gs[k].progress == 0
  {
    if gs == [] then 0 else TotalCheckIns(gs[..|gs| - 1]) + gs[|gs| - 1].progress
  }

  /** The calendar never shows more marked days than there are check-ins. */
  lemma {:induction false} MarkedAtMostCheckIns(gs: seq<Goal>)
    ensures |Marked(gs)| <= TotalCheckIns(gs)
  {
    if gs != [] {
      var init := gs[..|gs| - 1];
      MarkedAtMostCheckIns(init);
      var a := Marked(init);
      var b := Window(gs[|gs| - 1]);
      WindowSpec(gs[|gs| - 1]);
      assert |a + b| <= |a| + |b| by {
        assert a + b == a + (b - a);
        assert |b - a| <= |b|;
      }
    }
  }

  /** `bestStreak`: the largest current streak, 0 without goals. */
  function BestStreak(gs: seq<Goal>): (best: nat)
    ensures forall k :: 0 <= k < |gs| ==> gs[k].currentStreak <= best
    ensures best == 0 || exists k :: 0 <= k < |gs| && gs[k].currentStreak == best
  {
    if gs == [] then 0
    else
      var init := gs[..|gs| - 1];
      assert forall k :: 0 <= k < |init| ==> init[k] == gs[k];
      var rest := BestStreak(init);
      if gs[|gs| - 1].currentStreak > rest then gs[|gs| - 1].currentStreak else rest
  }

  /** The active-goal count: goals neither completed nor verified. */
  function ActiveCount(gs: seq<Goal>): (n: nat)
    ensures n <= |gs|
    ensures n == 0 <==> forall k :: 0 <= k < |gs| ==> gs[k].completed || gs[k].verified
  {
    if gs == [] then 0
    else ActiveCount(gs[..|gs| - 1]) + (if !gs[|gs| - 1].completed && !gs[|gs| - 1].verified then 1 else 0)
  }

  /** The number of goals the ledger reports as still running. */
  function RunningCount(gs: seq<Goal>): nat
  {
    if gs == [] then 0 else RunningCount(gs[..|gs| - 1]) + (if StatusOf(gs[|gs| - 1]) == Active then 1 else 0)
  }

  /** On goals the ledger can hold, the active count is the number of goals still running. */
  lemma {:induction false} ActiveCountIsRunning(gs: seq<Goal>)
    requires forall k :: 0 <= k < |gs| ==> GoalOk(gs[k])
    ensures ActiveCount(gs) == RunningCount(gs)
  {
    if gs != [] {
      var init := gs[..|gs| - 1];
      assert forall k :: 0 <= k < |init| ==> init[k] == gs[k];
      ActiveCountIsRunning(init);
    }
  }
}

=== FILE: EnvFile.dfy ===
/**
 * The deploy script's `.env.local` rewriter: after deployment it points the front end at the new
 * contracts by rewriting the two address variables in place and appending any that are missing.
 * Reading and writing the file are left to the caller: the existing content comes in as an
 * `Option` (None when the file does not exist) and the content to write comes back.
 */
module EnvFile {
  import opened Wrappers
  import opened Text

  const GoalForgeKey: string := "NEXT_PUBLIC_GOALFORGE_ADDRESS"
  const NftKey: string := "NEXT_PUBLIC_GOALFORGE_NFT_ADDRESS"

  /** The managed variables, in the order `addrVars` declares them. */
  const Keys: seq<string> := [GoalForgeKey, NftKey]

  /** The characters a regular expression's `.` does not match. */
  predicate IsLineTerminator(c: char)
  {
    c == '\n' || c == '\r' || c == '\U{2028}' || c == '\U{2029}'
  }

  predicate NoTerminators(s: string)
  {
    forall i :: 0 <= i < |s| ==> !IsLineTerminator(s[i])
  }

  predicate NoNewline(s: string)
  {
    forall i :: 0 <= i < |s| ==> s[i] != '\n'
  }

  /** Position of the first `c` in `s`, or `|s|`. */
  function IndexOfChar(s: string, c: char): (i: nat)
    ensures i <= |s|
    ensures forall k :: 0 <= k < i ==> s[k] != c
    ensures i < |s| ==> s[i] == c
  {
    if |s| == 0 || s[0] == c then 0 else 1 + IndexOfChar(s[1..], c)
  }

  /**
   * `^([^#=]+)=(.*)$` matches `line` with its first group ending at `p`: a non-empty run free of
   * `#` and `=`, then `=`, then a rest the dot can match.
   */
  predicate Splits(line: string, p: int)
  {
    0 < p < |line| && line[p] == '=' &&
    (forall k :: 0 <= k < p ==> line[k] != '=' && line[k] != '#') &&
    (forall k :: p < k < |line| ==> !IsLineTerminator(line[k]))
  }

  /** The trimmed first group of `line.match(/^([^#=]+)=(.*)$/)`, or None when the line does not match. */
  function KeyOf(line: string): Option<string>
  {
    var p := IndexOfChar(line, '=');
    if 0 < p < |line| && IndexOfChar(line, '#') > p && NoTerminators(line[p + 1..]) then
      Some(Trim(line[..p]))
    else
      None
  }

  /** The line matches exactly when it splits as the pattern says, and the key is the trimmed first group. */
  lemma KeyOfSpec(line: string)
    ensures KeyOf(line).Some? ==> exists p :: Splits(line, p) && KeyOf(line).value == Trim(line[..p])
    ensures forall p :: Splits(line, p) ==> KeyOf(line) == Some(Trim(line[..p]))
  {
    var p := IndexOfChar(line, '=');
    if 0 < p < |line| && IndexOfChar(line, '#') > p && NoTerminators(line[p + 1..]) {
      forall k | p < k < |line|
        ensures !IsLineTerminator(line[k])
      {
        assert line[k] == line[p + 1..][k - p - 1];
      }
      assert Splits(line, p);
    } else {
      forall q | Splits(line, q)
        ensures false
      {
      }
    }
  }

  /** `addrVars[key] !== undefined`, for the variables `addrVars` itself declares. */
  function KeyIndex(key: string): (j: Option<nat>)
    ensures j.Some? ==> j.value < |Keys| && Keys[j.value] == key
    ensures j.None? ==> key !in Keys
  {
    if key == Keys[0] then Some(0) else if key == Keys[1] then Some(1) else None
  }

  /** A line that names a managed variable. */
  predicate Managed(line: string)
  {
    KeyOf(line).Some? && KeyOf(line).value in Keys
  }


  /** The line written for the `j`-th managed variable. */
  function Entry(j: nat, values: seq<string>): string
    requires j < |Keys| == |values|
  {
    Keys[j] + "=" + values[j]
  }

  /** The two entries differ whatever the addresses. */
  lemma EntryDistinct(j1: nat, j2: nat, values: seq<string>)
    requires j1 < |Keys| == |values| && j2 < |Keys| && j1 != j2
    ensures Entry(j1, values) != Entry(j2, values)
  {
    assert Entry(j1, values)[22] != Entry(j2, values)[22];
  }

  /** The variable names are upper-case words joined by underscores. */
  lemma KeysPlain(j: nat)
    requires j < |Keys|
    ensures |Keys[j]| > 0
    ensures forall k :: 0 <= k < |Keys[j]| ==> Keys[j][k] == '_' || 'A' <= Keys[j][k] <= 'Z'
  {
  }

  /** An entry splits after its variable name. */
  lemma EntrySplits(j: nat, values: seq<string>)
    requires j < |Keys| == |values|
    requires NoTerminators(values[j])
    ensures Splits(Entry(j, values), |Keys[j]|)
    ensures Entry(j, values)[..|Keys[j]|] == Keys[j]
  {
    var key := Keys[j];
    var line := Entry(j, values);
    var p := |key|;
    KeysPlain(j);
    forall k | 0 <= k < p
      ensures line[k] != '=' && line[k] != '#'
    {
      assert line[k] == key[k];
    }
    forall k | p < k < |line|
      ensures !IsLineTerminator(line[k])
    {
      assert line[k] == values[j][k - p - 1];
    }
    assert line[..p] == key;
  }

  /** A written entry reads back as its own variable, as long as the address stays on one line. */
  lemma KeyOfEntry(j: nat, values: seq<string>)
    requires j < |Keys| == |values|
    requires NoTerminators(values[j])
    ensures KeyOf(Entry(j, values)) == Some(Keys[j])
  {
    EntrySplits(j, values);
    KeyOfSpec(Entry(j, values));
    KeysPlain(j);
    TrimUntouched(Keys[j]);
  }

  /** The loop body: a managed variable's line becomes `KEY=value`, every other line stays. */
  function RewriteLine(line: string, values: seq<string>): (r: string)
    requires |values| == |Keys|
    ensures Managed(line) ==> exists j :: 0 <= j < |Keys| && KeyOf(line) == Some(Keys[j]) && r == Entry(j, values)
    ensures !Managed(line) ==> r == line
  {
    match KeyOf(line)
    case None => line
    case Some(key) =>
      match KeyIndex(key)
      case None => line
      case Some(j) => Entry(j, values)
  }

  function Rewritten(lines: seq<string>, values: seq<string>): (r: seq<string>)
    requires |values| == |Keys|
    ensures |r| == |lines|
  {
    seq(|lines|, i requires 0 <= i < |lines| => RewriteLine(lines[i], values))
  }

  /** The key each line names, None for a line the pattern does not match. */
  function Names(lines: seq<string>): (names: seq<Option<string>>)
    ensures |names| == |lines|
  {
    seq(|lines|, i requires 0 <= i < |lines| => KeyOf(lines[i]))
  }

  /** The `seen` set after the loop has visited lines naming `names`. */
  function Seen(names: seq<Option<string>>): set<string>
  {
    if names == [] then {}
    else
      var last := names[|names| - 1];
      Seen(names[..|names| - 1]) + (if last.Some? && last.value in Keys then {last.value} else {})
  }

  /** A variable is seen exactly when it is managed and some visited line names it. */
  lemma {:induction false} SeenSpec(names: seq<Option<string>>, key: string)
    ensures key in Seen(names) <==> key in Keys && exists i :: 0 <= i < |names| && names[i] == Some(key)
  {
    if names != [] {
      var init := names[..|names| - 1];
      SeenSpec(init, key);
      if exists i :: 0 <= i < |init| && init[i] == Some(key) {
        var i :| 0 <= i < |init| && init[i] == Some(key);
        assert names[i] == init[i];
      }
      if exists i :: 0 <= i < |names| && names[i] == Some(key) {
        var i :| 0 <= i < |names| && names[i] == Some(key);
        if i < |init| {
          assert init[i] == names[i];
        }
      }
    }
  }

  /** The `seen` set after the loop over `lines`. */
  function SeenIn(lines: seq<string>): set<string>
  {
    Seen(Names(lines))
  }

  /** A variable is seen exactly when it is managed and some line names it. */
  lemma SeenInSpec(lines: seq<string>, key: string)
    ensures key in SeenIn(lines) <==> key in Keys && exists i :: 0 <= i < |lines| && KeyOf(lines[i]) == Some(key)
  {
    var names := Names(lines);
    SeenSpec(names, key);
    if exists i :: 0 <= i < |names| && names[i] == Some(key) {
      var i :| 0 <= i < |names| && names[i] == Some(key);
      assert KeyOf(lines[i]) == Some(key);
    }
    if exists i :: 0 <= i < |lines| && KeyOf(lines[i]) == Some(key) {
      var i :| 0 <= i < |lines| && KeyOf(lines[i]) == Some(key);
      assert names[i] == Some(key);
    }
  }

  /** The lines pushed for the first `n` variables that were not seen. */
  function Appended(values: seq<string>, seen: set<string>, n: nat): seq<string>
    requires n <= |Keys| == |values|
  {
    if n == 0 then []
    else Appended(values, seen, n - 1) + (if Keys[n - 1] in seen then [] else [Entry(n - 1, values)])
  }

  /** Every appended line is the entry of a variable that was not seen. */
  lemma {:induction false} AppendedOnlyMissing(values: seq<string>, seen: set<string>, n: nat)
    requires n <= |Keys| == |values|
    ensures forall a :: 0 <= a < |Appended(values, seen, n)| ==>
      exists j :: 0 <= j < n && Keys[j] !in seen && Appended(values, seen, n)[a] == Entry(j, values)
  {
    if n > 0 {
      AppendedOnlyMissing(values, seen, n - 1);
      var prev := Appended(values, seen, n - 1);
      var app := Appended(values, seen, n);
      forall a | 0 <= a < |app|
        ensures exists j :: 0 <= j < n && Keys[j] !in seen && app[a] == Entry(j, values)
      {
        if a < |prev| {
          assert app[a] == prev[a];
          var j :| 0 <= j < n - 1 && Keys[j] !in seen && prev[a] == Entry(j, values);
          assert 0 <= j < n && Keys[j] !in seen && app[a] == Entry(j, values);
        } else {
          assert 0 <= n - 1 < n && Keys[n - 1] !in seen && app[a] == Entry(n - 1, values);
        }
      }
    } else {
      assert Appended(values, seen, n) == [];
    }
  }

  /** The entry of the `j`-th variable is appended exactly when that variable was not seen. */
  lemma {:induction false} AppendedHas(values: seq<string>, seen: set<string>, n: nat, j: nat)
    requires n <= |Keys| == |values| && j < |Keys|
    ensures Entry(j, values) in Appended(values, seen, n) <==> j < n && Keys[j] !in seen
  {
    if n > 0 {
      AppendedHas(values, seen, n - 1, j);
      if j != n - 1 {
        EntryDistinct(j, n - 1, values);
      }
    }
  }

  /** Appended entries follow the declaration order of their variables. */
  lemma {:induction false} AppendedInOrder(values: seq<string>, seen: set<string>, n: nat, a: nat, b: nat, ja: nat, jb: nat)
    requires n <= |Keys| == |values| && ja < |Keys| && jb < |Keys|
    requires a < b < |Appended(values, seen, n)|
    requires Appended(values, seen, n)[a] == Entry(ja, values) && Appended(values, seen, n)[b] == Entry(jb, values)
    ensures ja < jb
  {
    var prev := Appended(values, seen, n - 1);
    var app := Appended(values, seen, n);
    assert app[a] == prev[a];
    if b < |prev| {
      assert app[b] == prev[b];
      AppendedInOrder(values, seen, n - 1, a, b, ja, jb);
    } else {
      AppendedOnlyMissing(values, seen, n - 1);
      var j :| 0 <= j < n - 1 && Keys[j] !in seen && prev[a] == Entry(j, values);
      if ja != j {
        EntryDistinct(ja, j, values);
      }
      if jb != n - 1 {
        EntryDistinct(jb, n - 1, values);
      }
    }
  }

  /** The lines after the loop and the pushes. */
  function FinalLines(lines: seq<string>, values: seq<string>): seq<string>
    requires |values| == |Keys|
  {
    Rewritten(lines, values) + Appended(values, SeenIn(lines), |Keys|)
  }

  /** `lines.join("\n") + (lines.length ? "\n" : "")`. */
  function Render(lines: seq<string>): (text: string)
    ensures |lines| == 0 ==> text == ""
    ensures |lines| > 0 ==> |text| > 0 && text[|text| - 1] == '\n'
  {
    Join(lines, "\n") + (if |lines| > 0 then "\n" else "")
  }

  /** The lines of the existing file, none when there is no file. */
  function LinesOf(existing: Option<string>): seq<string>
  {
    if existing.None? then [] else Split(existing.value, '\n')
  }

  /** The content `updateEnvLocal` writes. */
  function Updated(existing: Option<string>, values: seq<string>): (text: string)
    requires |values| == |Keys|
    ensures |text| > 0 && text[|text| - 1] == '\n'
  {
    FinalLinesNonEmpty(LinesOf(existing), values);
    Render(FinalLines(LinesOf(existing), values))
  }

  /** The `for` loop: rewrite each managed variable's line in place and collect the variables seen. */
  method RewriteInPlace(original: seq<string>, values: seq<string>) returns (lines: seq<string>, seen: set<string>)
    requires |values| == |Keys|
    ensures lines == Rewritten(original, values)
    ensures seen == SeenIn(original)
  {
    lines := original;
    seen := {};
    var i := 0;
    while i < |lines|
      invariant i <= |lines| == |original|
      invariant forall k :: 0 <= k < i ==> lines[k] == RewriteLine(original[k], values)
      invariant forall k :: i <= k < |lines| ==> lines[k] == original[k]
      invariant seen == Seen(Names(original)[..i])
    {
      var line := lines[i];
      var m := KeyOf(line);
      if m.Some? {
        var key := m.value;
        var j := KeyIndex(key);
        if j.Some? {
          lines := lines[i := Entry(j.value, values)];
          seen := seen + {key};
        }
      }
      assert Names(original)[..i + 1][..i] == Names(original)[..i];
      i := i + 1;
    }
    assert Names(original)[..i] == Names(original);
  }

  /** Push the line of every variable not seen, in declaration order. */
  method AppendMissing(lines: seq<string>, values: seq<string>, seen: set<string>) returns (all: seq<string>)
    requires |values| == |Keys|
    ensures all == lines + Appended(values, seen, |Keys|)
  {
    all := lines;
    var n := 0;
    while n < |Keys|
      invariant n <= |Keys|
      invariant all == lines + Appended(values, seen, n)
    {
      if Keys[n] !in seen {
        all := all + [Entry(n, values)];
      }
      n := n + 1;
    }
  }

  /**
   * `updateEnvLocal(goalForgeAddress, nftAddress)`: rewrite the existing lines in place, remembering
   * which variables were seen, push the missing ones and return the content to write.
   */
  method UpdateEnvLocal(existing: Option<string>, goalForgeAddress: string, nftAddress: string) returns (written: string)
    ensures written == Updated(existing, [goalForgeAddress, nftAddress])
  {
    var values := [goalForgeAddress, nftAddress];
    var lines: seq<string> := [];
    var seen: set<string> := {};
    if existing.Some? {
      lines, seen := RewriteInPlace(Split(existing.value, '\n'), values);
    }
    lines := AppendMissing(lines, values, seen);
    written := Join(lines, "\n") + (if |lines| > 0 then "\n" else "");
  }

  /**
   * Every line naming a managed variable now carries its new address, every other line is
   * untouched and in place, and the appended lines follow them.
   */
  lemma FinalLinesKeep(lines: seq<string>, values: seq<string>)
    requires |values| == |Keys|
    ensures |FinalLines(lines, values)| >= |lines|
    ensures FinalLines(lines, values)[|lines|..] == Appended(values, SeenIn(lines), |Keys|)
    ensures forall i, j :: 0 <= i < |lines| && 0 <= j < |Keys| && KeyOf(lines[i]) == Some(Keys[j]) ==>
      FinalLines(lines, values)[i] == Entry(j, values)
    ensures forall i :: 0 <= i < |lines| && !Managed(lines[i]) ==> FinalLines(lines, values)[i] == lines[i]
  {
    var out := FinalLines(lines, values);
    assert out[|lines|..] == Appended(values, SeenIn(lines), |Keys|);
    forall i, j | 0 <= i < |lines| && 0 <= j < |Keys| && KeyOf(lines[i]) == Some(Keys[j])
      ensures out[i] == Entry(j, values)
    {
      assert out[i] == RewriteLine(lines[i], values);
      assert KeyIndex(Keys[j]) == Some(j);
    }
    forall i | 0 <= i < |lines| && !Managed(lines[i])
      ensures out[i] == lines[i]
    {
      assert out[i] == RewriteLine(lines[i], values);
    }
  }

  /** Afterwards the `j`-th variable has its `KEY=value` line, whether rewritten or appended. */
  lemma EveryKeyWritten(lines: seq<string>, values: seq<string>, j: nat)
    requires |values| == |Keys| && j < |Keys|
    ensures exists i :: 0 <= i < |FinalLines(lines, values)| && FinalLines(lines, values)[i] == Entry(j, values)
  {
    var out := FinalLines(lines, values);
    var app := Appended(values, SeenIn(lines), |Keys|);
    FinalLinesKeep(lines, values);
    SeenInSpec(lines, Keys[j]);
    if Keys[j] in SeenIn(lines) {
      var i :| 0 <= i < |lines| && KeyOf(lines[i]) == Some(Keys[j]);
      assert out[i] == Entry(j, values);
    } else {
      AppendedHas(values, SeenIn(lines), |Keys|, j);
      var a :| 0 <= a < |app| && app[a] == Entry(j, values);
      assert out[|lines| + a] == app[a];
    }
  }

  /** When every managed variable already had a line, nothing is appended. */
  lemma NothingAppendedWhenPresent(lines: seq<string>, values: seq<string>)
    requires |values| == |Keys|
    requires forall j :: 0 <= j < |Keys| ==> exists i :: 0 <= i < |lines| && KeyOf(lines[i]) == Some(Keys[j])
    ensures FinalLines(lines, values) == Rewritten(lines, values)
  {
    var app := Appended(values, SeenIn(lines), |Keys|);
    AppendedOnlyMissing(values, SeenIn(lines), |Keys|);
    if |app| > 0 {
      var j :| 0 <= j < |Keys| && Keys[j] !in SeenIn(lines) && app[0] == Entry(j, values);
      SeenInSpec(lines, Keys[j]);
    }
  }

  /** Every variable of `addrVars` missing from a file is appended, so even no file gets both lines. */
  lemma FinalLinesNonEmpty(lines: seq<string>, values: seq<string>)
    requires |values| == |Keys|
    ensures |FinalLines(lines, values)| >= 1
  {
    EveryKeyWritten(lines, values, 0);
  }

  /** Joining with `c` between pieces that hold no `c` and splitting on `c` gives the pieces back. */
  lemma {:induction false} SplitJoin(parts: seq<string>, c: char)
    requires |parts| >= 1
    requires forall k, i :: 0 <= k < |parts| && 0 <= i < |parts[k]| ==> parts[k][i] != c
    ensures Split(Join(parts, [c]), c) == parts
    decreases |parts|
  {
    if |parts| == 1 {
      SplitWhole(parts[0], c);
    } else {
      SplitJoin(parts[1..], c);
      SplitPiece(parts[0], Join(parts[1..], [c]), c);
      assert parts == [parts[0]] + parts[1..];
    }
  }

  /** A piece free of `c` splits into itself. */
  lemma {:induction false} SplitWhole(a: string, c: char)
    requires forall i :: 0 <= i < |a| ==> a[i] != c
    ensures Split(a, c) == [a]
    decreases |a|
  {
    if |a| > 0 {
      SplitWhole(a[1..], c);
      assert [a[0]] + a[1..] == a;
    }
  }

  /** A piece free of `c`, then `c`, splits off as the first piece. */
  lemma {:induction false} SplitPiece(a: string, t: string, c: char)
    requires forall i :: 0 <= i < |a| ==> a[i] != c
    ensures Split(a + [c] + t, c) == [a] + Split(t, c)
    decreases |a|
  {
    if |a| > 0 {
      SplitPiece(a[1..], t, c);
      assert (a + [c] + t)[1..] == a[1..] + [c] + t;
      assert [a[0]] + a[1..] == a;
    } else {
      assert ([c] + t)[1..] == t;
    }
  }

  /** `join` with one more piece at the end. */
  lemma {:induction false} JoinSnoc(parts: seq<string>, x: string, sep: string)
    requires |parts| >= 1
    ensures Join(parts + [x], sep) == Join(parts, sep) + sep + x
    decreases |parts|
  {
    if |parts| > 1 {
      JoinSnoc(parts[1..], x, sep);
      assert (parts + [x])[1..] == parts[1..] + [x];
    }
  }

  /** Splitting rendered lines recovers them, followed by the empty piece after the final newline. */
  lemma SplitRender(lines: seq<string>)
    requires |lines| >= 1
    requires forall k :: 0 <= k < |lines| ==> NoNewline(lines[k])
    ensures Split(Render(lines), '\n') == lines + [""]
    ensures Split(Render(lines)[..|Render(lines)| - 1], '\n') == lines
  {
    JoinSnoc(lines, "", "\n");
    assert Render(lines) == Join(lines + [""], "\n");
    SplitJoin(lines + [""], '\n');
    assert Render(lines)[..|Render(lines)| - 1] == Join(lines, "\n");
    SplitJoin(lines, '\n');
  }

  /** An entry rewrites to itself and stays on one line. */
  lemma EntrySettled(j: nat, values: seq<string>)
    requires j < |Keys| == |values|
    requires NoTerminators(values[j])
    ensures RewriteLine(Entry(j, values), values) == Entry(j, values)
    ensures NoNewline(Entry(j, values))
  {
    KeyOfEntry(j, values);
    assert KeyIndex(Keys[j]) == Some(j);
    EntryOneLine(j, values);
  }

  lemma EntryOneLine(j: nat, values: seq<string>)
    requires j < |Keys| == |values|
    requires NoTerminators(values[j])
    ensures NoNewline(Entry(j, values))
  {
    var key := Keys[j];
    var line := Entry(j, values);
    KeysPlain(j);
    forall i | 0 <= i < |line|
      ensures line[i] != '\n'
    {
      if i < |key| {
        assert line[i] == key[i];
      } else if i > |key| {
        assert line[i] == values[j][i - |key| - 1];
      }
    }
  }

  /** Each line of a rewritten file rewrites to itself and holds no newline. */
  lemma LinesSettled(lines: seq<string>, values: seq<string>)
    requires |values| == |Keys|
    requires forall j :: 0 <= j < |Keys| ==> NoTerminators(values[j])
    requires forall k :: 0 <= k < |lines| ==> NoNewline(lines[k])
    ensures forall i :: 0 <= i < |FinalLines(lines, values)| ==>
      RewriteLine(FinalLines(lines, values)[i], values) == FinalLines(lines, values)[i] &&
      NoNewline(FinalLines(lines, values)[i])
  {
    var out := FinalLines(lines, values);
    var app := Appended(values, SeenIn(lines), |Keys|);
    FinalLinesKeep(lines, values);
    AppendedOnlyMissing(values, SeenIn(lines), |Keys|);
    forall i | 0 <= i < |out|
      ensures RewriteLine(out[i], values) == out[i] && NoNewline(out[i])
    {
      if i >= |lines| {
        assert out[i] == app[i - |lines|];
        var j :| 0 <= j < |Keys| && Keys[j] !in SeenIn(lines) && app[i - |lines|] == Entry(j, values);
        EntrySettled(j, values);
      } else if Managed(lines[i]) {
        var j :| 0 <= j < |Keys| && Keys[j] == KeyOf(lines[i]).value;
        EntrySettled(j, values);
      }
    }
  }

  /** A rewritten file names every managed variable, even with an empty line after it. */
  lemma AllSeen(lines: seq<string>, values: seq<string>, extra: seq<string>)
    requires |values| == |Keys|
    requires forall j :: 0 <= j < |Keys| ==> NoTerminators(values[j])
    ensures forall j :: 0 <= j < |Keys| ==> Keys[j] in SeenIn(FinalLines(lines, values) + extra)
  {
    var out := FinalLines(lines, values) + extra;
    forall j | 0 <= j < |Keys|
      ensures Keys[j] in SeenIn(out)
    {
      EveryKeyWritten(lines, values, j);
      var i :| 0 <= i < |FinalLines(lines, values)| && FinalLines(lines, values)[i] == Entry(j, values);
      KeyOfEntry(j, values);
      assert out[i] == Entry(j, values);
      SeenInSpec(out, Keys[j]);
    }
  }

  /** Nothing is appended for variables that were all seen. */
  lemma {:induction false} NothingAppendedWhenSeen(values: seq<string>, seen: set<string>, n: nat)
    requires n <= |Keys| == |values|
    requires forall j :: 0 <= j < n ==> Keys[j] in seen
    ensures Appended(values, seen, n) == []
  {
    if n > 0 {
      NothingAppendedWhenSeen(values, seen, n - 1);
    }
  }

  /** Lines that each rewrite to themselves and name every managed variable come back unchanged. */
  lemma SettledUnchanged(lines: seq<string>, values: seq<string>)
    requires |values| == |Keys|
    requires forall i :: 0 <= i < |lines| ==> RewriteLine(lines[i], values) == lines[i]
    requires forall j :: 0 <= j < |Keys| ==> Keys[j] in SeenIn(lines)
    ensures FinalLines(lines, values) == lines
  {
    NothingAppendedWhenSeen(values, SeenIn(lines), |Keys|);
    assert Rewritten(lines, values) == lines;
  }

  /** Rewriting the rewritten lines again, even with an empty line after them, changes nothing. */
  lemma RewriteTwice(lines: seq<string>, values: seq<string>, extra: seq<string>)
    requires |values| == |Keys|
    requires forall j :: 0 <= j < |Keys| ==> NoTerminators(values[j])
    requires forall k :: 0 <= k < |lines| ==> NoNewline(lines[k])
    requires extra == [] || extra == [""]
    ensures FinalLines(FinalLines(lines, values) + extra, values) == FinalLines(lines, values) + extra
  {
    var out := FinalLines(lines, values);
    LinesSettled(lines, values);
    AllSeen(lines, values, extra);
    forall i | 0 <= i < |out + extra|
      ensures RewriteLine((out + extra)[i], values) == (out + extra)[i]
    {
      if i < |out| {
        assert (out + extra)[i] == out[i];
      }
    }
    SettledUnchanged(out + extra, values);
  }

  /** Rendering one more, empty, line adds one newline. */
  lemma RenderBlank(lines: seq<string>)
    requires |lines| >= 1
    ensures Render(lines + [""]) == Render(lines) + "\n"
  {
    JoinSnoc(lines, "", "\n");
  }

  /**
   * As written, running the rewrite again on the file it just wrote, with the same addresses, adds
   * one more newline at the end: the final newline splits off an empty last line.
   */
  lemma RerunAddsNewline(existing: Option<string>, values: seq<string>)
    requires |values| == |Keys|
    requires forall j :: 0 <= j < |Keys| ==> NoTerminators(values[j])
    ensures Updated(Some(Updated(existing, values)), values) == Updated(existing, values) + "\n"
  {
    var lines := LinesOf(existing);
    var out := FinalLines(lines, values);
    LinesSettled(lines, values);
    FinalLinesNonEmpty(lines, values);
    SplitRender(out);
    assert LinesOf(Some(Render(out))) == out + [""];
    RewriteTwice(lines, values, [""]);
    RenderBlank(out);
  }

  /** The file's lines, without the empty piece that a final newline would split off. */
  function LinesOfCorrected(existing: Option<string>): seq<string>
  {
    if existing.None? then []
    else
      var s := existing.value;
      if |s| > 0 && s[|s| - 1] == '\n' then Split(s[..|s| - 1], '\n') else Split(s, '\n')
  }

  function UpdatedCorrected(existing: Option<string>, values: seq<string>): string
    requires |values| == |Keys|
  {
    Render(FinalLines(LinesOfCorrected(existing), values))
  }

  /** With the final newline dropped before splitting, running the rewrite twice writes the same file. */
  lemma UpdatedCorrectedIdempotent(existing: Option<string>, values: seq<string>)
    requires |values| == |Keys|
    requires forall j :: 0 <= j < |Keys| ==> NoTerminators(values[j])
    ensures UpdatedCorrected(Some(UpdatedCorrected(existing, values)), values) == UpdatedCorrected(existing, values)
  {
    var lines := LinesOfCorrected(existing);
    var out := FinalLines(lines, values);
    LinesSettled(lines, values);
    FinalLinesNonEmpty(lines, values);
    SplitRender(out);
    assert LinesOfCorrected(Some(Render(out))) == out;
    RewriteTwice(lines, values, []);
    assert out + [] == out;
  }
}

=== FILE: FitnessCheck.dfy ===
/**
 * The Google Fit check behind `POST /api/verify/fitness`: the per-habit policy table, the
 * session filter and sum, the minute threshold with the step alternative for Running, and the
 * read-out of the aggregate metrics. The two Google Fit replies are inputs; durations are whole
 * milliseconds, so "minutes ≥ threshold" is "milliseconds ≥ threshold × 60000".
 */
module FitnessCheck {
  import opened Wrappers
  import opened Text
  import HabitCatalog

  /** One row of the policy table: the reply's name for the habit, the threshold, the allow-list. */
  datatype Policy = Policy(name: string, minMinutes: nat, activityTypes: seq<int>)

  /** The table: Gym, Yoga and Running, keyed by habit code; every other code has no entry. */
  function PolicyFor(habitType: int): (p: Option<Policy>)
    ensures p.Some? <==> HabitCatalog.NeedsFitnessTracker(habitType)
    ensures p.Some? ==> p.value.name == HabitCatalog.HabitName(habitType)
  {
    if habitType == 2 then Some(Policy("Gym", 20, [13, 80, 97, 10, 35, 44, 48, 68, 74, 79, 88, 93, 98]))
    else if habitType == 3 then Some(Policy("Yoga", 15, [100, 29, 58]))
    else if habitType == 4 then Some(Policy("Running", 10, [8, 56, 95, 7]))
    else None
  }

  /** A session of the sessions reply, its times already read as integers. */
  datatype Session = Session(activityType: int, startMillis: int, endMillis: int)

  /** The sessions reply: a non-2xx status, or a body whose `session` list may be missing. */
  datatype SessionsReply = SessionsError(status: int) | SessionsOk(sessions: Option<seq<Session>>)

  /** The first value of a data point; either field may be missing. */
  datatype Point = Point(intVal: Option<int>, fpVal: Option<int>)

  /** A dataset of the first aggregate bucket: its source id and its first point, each possibly missing. */
  datatype Dataset = Dataset(sourceId: Option<string>, point: Option<Point>)

  /** The aggregate reply: unavailable (non-2xx), or a body whose first bucket's datasets may be missing. */
  datatype AggregateReply = AggregateUnavailable | Aggregate(datasets: Option<seq<Dataset>>)

  datatype Request = Request(accessToken: Option<string>, habitType: int)

  datatype Activity = Activity(sessions: nat, totalMinutes: int, requiredMinutes: nat)

  datatype Metrics = Metrics(steps: int, calories: int, distanceMeters: int, activeMinutes: int)

  datatype Response =
    | Measured(verified: bool, habitType: int, date: string, activity: Activity, fitness: Metrics, summary: string)
    | NoSource          // 400, with `useManualProof: true`
    | Unsupported       // 400
    | TokenExpired      // 401, with `needsReauth: true`
    | Failed(details: string)

  /** The HTTP status of each reply. */
  function Status(r: Response): (code: nat)
    ensures code == 200 <==> r.Measured?
    ensures code == 401 <==> r.TokenExpired?
  {
    match r
    case Measured(_, _, _, _, _, _) => 200
    case NoSource => 400
    case Unsupported => 400
    case TokenExpired => 401
    case Failed(_) => 500
  }

  /** The Google Fit calls the route makes, in order. */
  datatype Call = SessionsQuery(token: string) | AggregateQuery(token: string)

  predicate HasToken(t: Option<string>)
  {
    t.Some? && t.value != ""
  }

  // ---------------------------------------------------------------------------
  // Sessions

  /** The sessions whose activity type is on the allow-list, in reply order. */
  function Relevant(ss: seq<Session>, allowed: seq<int>): (r: seq<Session>)
    ensures |r| <= |ss|
    ensures forall s :: s in r <==> s in ss && s.activityType in allowed
  {
    if ss == [] then []
    else if ss[0].activityType in allowed then [ss[0]] + Relevant(ss[1..], allowed)
    else Relevant(ss[1..], allowed)
  }

  /** The summed duration of the sessions, in milliseconds. */
  function DurationMs(ss: seq<Session>): int
  {
    if ss == [] then 0 else ss[0].endMillis - ss[0].startMillis + DurationMs(ss[1..])
  }

  /** Sessions off the allow-list contribute nothing: the relevant duration is the allow-listed sum. */
  lemma {:induction false} DurationIgnoresOthers(ss: seq<Session>, allowed: seq<int>, extra: Session)
    requires extra.activityType !in allowed
    ensures DurationMs(Relevant(ss + [extra], allowed)) == DurationMs(Relevant(ss, allowed))
  {
    if ss == [] {
      assert [extra][1..] == [];
    } else {
      assert (ss + [extra])[1..] == ss[1..] + [extra];
      DurationIgnoresOthers(ss[1..], allowed, extra);
    }
  }

  /** `Math.round(ms / 60000)`: the nearest whole minute, halves rounded up. */
  function RoundMinutes(ms: int): (m: int)
    ensures m * 60000 - 30000 <= ms < m * 60000 + 30000
  {
    (ms + 30000) / 60000
  }

  /** The verdict: enough minutes of allow-listed activity, or for Running at least 3000 steps. */
  predicate Verdict(habitType: int, policy: Policy, durationMs: int, steps: int)
  {
    durationMs >= policy.minMinutes * 60000 || (habitType == 4 && steps >= 3000)
  }

  /**
   * The verdict against the route's own measure: the sum of the sessions' durations in minutes,
   * a fraction, reaches the threshold, or Running has at least 3000 steps.
   */
  lemma VerdictSpec(habitType: int, policy: Policy, durationMs: int, steps: int)
    ensures Verdict(habitType, policy, durationMs, steps) <==>
              (durationMs as real) / 60000.0 >= policy.minMinutes as real || (habitType == 4 && steps >= 3000)
  {
  }

  // ---------------------------------------------------------------------------
  // Aggregate metrics

  /** A point's value: the integer value if truthy, else the floating one if truthy, else 0. */
  function ValueOf(p: Point): (v: int)
    ensures p.intVal.Some? && p.intVal.value != 0 ==> v == p.intVal.value
    ensures v == 0 || p.intVal == Some(v) || p.fpVal == Some(v)
  {
    if p.intVal.Some? && p.intVal.value != 0 then p.intVal.value
    else if p.fpVal.Some? && p.fpVal.value != 0 then p.fpVal.value
    else 0
  }

  /** A dataset feeds the metric named `key` when it has a point and its source id mentions the key. */
  predicate Feeds(d: Dataset, key: string)
  {
    d.point.Some? && d.sourceId.Some? && Contains(d.sourceId.value, key)
  }

  /** The value the metric `key` ends up with after reading `ds` in order; 0 when nothing feeds it. */
  function LastValue(ds: seq<Dataset>, key: string): int
  {
    if ds == [] then 0
    else if Feeds(ds[|ds| - 1], key) then ValueOf(ds[|ds| - 1].point.value)
    else LastValue(ds[..|ds| - 1], key)
  }

  /** The last dataset that feeds a metric supplies its value. */
  lemma {:induction false} LastFeederWins(ds: seq<Dataset>, key: string, k: nat)
    requires k < |ds| && Feeds(ds[k], key)
    requires forall j :: k < j < |ds| ==> !Feeds(ds[j], key)
    ensures LastValue(ds, key) == ValueOf(ds[k].point.value)
  {
    if k < |ds| - 1 {
      var init := ds[..|ds| - 1];
      assert init[k] == ds[k];
      assert forall j :: k < j < |init| ==> init[j] == ds[j];
      LastFeederWins(init, key, k);
    }
  }

  /** With no dataset feeding a metric, the metric keeps its default 0. */
  lemma {:induction false} NoFeederZero(ds: seq<Dataset>, key: string)
    requires forall k :: 0 <= k < |ds| ==> !Feeds(ds[k], key)
    ensures LastValue(ds, key) == 0
  {
    if ds != [] {
      var init := ds[..|ds| - 1];
      assert forall k :: 0 <= k < |init| ==> init[k] == ds[k];
      NoFeederZero(init, key);
    }
  }

  const StepKey: string := "step_count"
  const CaloriesKey: string := "calories"
  const DistanceKey: string := "distance"
  const ActiveKey: string := "active_minutes"

  /** The datasets of the first bucket; none when the call failed or the body has no such list. */
  function DatasetsOf(a: AggregateReply): seq<Dataset>
  {
    if a.Aggregate? && a.datasets.Some? then a.datasets.value else []
  }

  /** The loop over the datasets: each metric is overwritten by every dataset that feeds it. */
  method ReadMetrics(ds: seq<Dataset>) returns (m: Metrics)
    ensures m == Metrics(LastValue(ds, StepKey), LastValue(ds, CaloriesKey), LastValue(ds, DistanceKey), LastValue(ds, ActiveKey))
  {
    var steps, calories, distanceMeters, activeMinutes := 0, 0, 0, 0;
    var i := 0;
    while i < |ds|
      invariant i <= |ds|
      invariant steps == LastValue(ds[..i], StepKey)
      invariant calories == LastValue(ds[..i], CaloriesKey)
      invariant distanceMeters == LastValue(ds[..i], DistanceKey)
      invariant activeMinutes == LastValue(ds[..i], ActiveKey)
    {
      var d := ds[i];
      assert ds[..i + 1][..i] == ds[..i];
      i := i + 1;
      if d.point.None? {
        continue;
      }
      var value := ValueOf(d.point.value);
      if d.sourceId.Some? && Contains(d.sourceId.value, StepKey) { steps := value; }
      if d.sourceId.Some? && Contains(d.sourceId.value, CaloriesKey) { calories := value; }
      if d.sourceId.Some? && Contains(d.sourceId.value, DistanceKey) { distanceMeters := value; }
      if d.sourceId.Some? && Contains(d.sourceId.value, ActiveKey) { activeMinutes := value; }
    }
    assert ds[..i] == ds;
    m := Metrics(steps, calories, distanceMeters, activeMinutes);
  }

  // ---------------------------------------------------------------------------
  // The route

  /** What a reply measured from the two Google Fit answers says. */
  predicate Measures(resp: Response, habitType: int, policy: Policy, sessions: seq<Session>, aggregate: AggregateReply)
  {
    var relevant := Relevant(sessions, policy.activityTypes);
    var ds := DatasetsOf(aggregate);
    && resp.Measured?
    && resp.habitType == habitType
    && resp.activity == Activity(|relevant|, RoundMinutes(DurationMs(relevant)), policy.minMinutes)
    && resp.fitness == Metrics(LastValue(ds, StepKey), LastValue(ds, CaloriesKey), LastValue(ds, DistanceKey), LastValue(ds, ActiveKey))
    && (resp.verified <==> Verdict(habitType, policy, DurationMs(relevant), resp.fitness.steps))
    && (resp.verified <==> !IsPrefix("Insufficient ", resp.summary))
  }

  /** A summary that reports success never reads as one that reports too little activity. */
  lemma VerifiedSummary(habitType: int, policy: Policy, rest: string)
    requires PolicyFor(habitType) == Some(policy)
    ensures !IsPrefix("Insufficient ", policy.name + " activity verified: " + rest)
  {
    assert policy.name[0] in {'G', 'Y', 'R'};
    assert (policy.name + " activity verified: " + rest)[0] == policy.name[0];
  }

  /**
   * The reply's summary line: the minutes and any steps when verified, the minutes against the
   * threshold otherwise. Only the second reads as too little activity.
   */
  function Summary(habitType: int, policy: Policy, verified: bool, minutes: int, steps: int): (s: string)
    requires PolicyFor(habitType) == Some(policy)
    ensures verified <==> !IsPrefix("Insufficient ", s)
  {
    if verified then
      var rest := IntToString(minutes) + " minutes of activity detected" +
                  (if steps > 0 then ", " + IntToString(steps) + " steps" else "");
      VerifiedSummary(habitType, policy, rest);
      policy.name + " activity verified: " + rest
    else
      "Insufficient " + policy.name + " activity: " + IntToString(minutes) + "/" +
      NatToString(policy.minMinutes) + " minutes required"
  }

  /**
   * `verifyWithGoogleFit` once the token is known and the habit has a policy: a 401 from the
   * sessions call asks for re-authorisation, any other failure is a 500, and otherwise the
   * allow-listed sessions and the aggregate metrics decide the verdict.
   */
  method CheckWithGoogleFit(token: string, habitType: int, policy: Policy, sessions: SessionsReply,
                            aggregate: AggregateReply, today: string)
    returns (resp: Response, calls: seq<Call>)
    requires PolicyFor(habitType) == Some(policy)
    ensures sessions.SessionsError? ==>
      && calls == [SessionsQuery(token)]
      && resp == (if sessions.status == 401 then TokenExpired
                  else Failed("Google Fit API error: " + IntToString(sessions.status)))
    ensures sessions.SessionsOk? ==>
      && calls == [SessionsQuery(token), AggregateQuery(token)]
      && Measures(resp, habitType, policy, if sessions.sessions.Some? then sessions.sessions.value else [], aggregate)
      && resp.date == today
  {
    calls := [SessionsQuery(token)];
    if sessions.SessionsError? {
      if sessions.status == 401 {
        return TokenExpired, calls;
      }
      return Failed("Google Fit API error: " + IntToString(sessions.status)), calls;
    }
    calls := calls + [AggregateQuery(token)];
    var list := if sessions.sessions.Some? then sessions.sessions.value else [];
    var relevant := Relevant(list, policy.activityTypes);
    var durationMs := DurationMs(relevant);
    var fitness := ReadMetrics(DatasetsOf(aggregate));
    var verified := Verdict(habitType, policy, durationMs, fitness.steps);
    var minutes := RoundMinutes(durationMs);
    var summary := Summary(habitType, policy, verified, minutes, fitness.steps);
    resp := Measured(verified, habitType, today, Activity(|relevant|, minutes, policy.minMinutes), fitness, summary);
  }

  /**
   * `POST /api/verify/fitness`. Without an access token it answers 400 with the manual-proof hint
   * and calls nothing; a habit outside Gym, Yoga and Running is unsupported, also before any call.
   */
  method Verify(req: Request, sessions: SessionsReply, aggregate: AggregateReply, today: string)
    returns (resp: Response, calls: seq<Call>)
    ensures !HasToken(req.accessToken) ==> resp == NoSource && calls == []
    ensures HasToken(req.accessToken) && !HabitCatalog.NeedsFitnessTracker(req.habitType) ==>
      resp == Unsupported && calls == []
    ensures HasToken(req.accessToken) && HabitCatalog.NeedsFitnessTracker(req.habitType) ==>
      var token := req.accessToken.value;
      var policy := PolicyFor(req.habitType).value;
      && |calls| >= 1 && calls[0] == SessionsQuery(token)
      && (Status(resp) == 401 <==> sessions.SessionsError? && sessions.status == 401)
      && (sessions.SessionsOk? ==>
            Measures(resp, req.habitType, policy, if sessions.sessions.Some? then sessions.sessions.value else [], aggregate))
  {
    if !HasToken(req.accessToken) {
      return NoSource, [];
    }
    var policy := PolicyFor(req.habitType);
    if policy.None? {
      return Unsupported, [];
    }
    resp, calls := CheckWithGoogleFit(req.accessToken.value, req.habitType, policy.value, sessions, aggregate, today);
  }
}

=== FILE: GitHubCheck.dfy ===
/**
 * The GitHub contribution check behind `POST /api/verify/github`: which of a user's public
 * events fall on the target day, how they are classified and counted, how the count is
 * reconciled with the contribution graph, and what the reply says. The two upstream replies
 * (the events feed and the contribution graph) are inputs.
 */
module GitHubCheck {
  import opened Wrappers
  import opened Text

  /**
   * One entry of the public events feed. `day` is the calendar date (YYYY-MM-DD) of its
   * `created_at`; `commits` is the length of `payload.commits` when present; `repo` is `repo.name`.
   */
  datatype Event = Event(kind: string, day: string, commits: Option<nat>, repo: Option<string>)

  /** The events feed: a list of events, or a non-2xx status. */
  datatype EventsReply = EventsOk(events: seq<Event>) | EventsError(status: int)

  /** One day of the contribution graph. */
  datatype DayCount = DayCount(date: string, count: int)

  /**
   * The contribution graph: unavailable (the fetch failed, threw or was not 2xx), or a reply
   * whose `contributions` list may be missing.
   */
  datatype GraphReply = GraphUnavailable | Graph(days: Option<seq<DayCount>>)

  /** The request: the `username` field and the target day already rendered as YYYY-MM-DD. */
  datatype Request = Request(username: Option<string>, day: string)

  datatype Tally = Tally(total: nat, commits: nat, pullRequests: nat, issues: nat, reviews: nat)

  datatype Response =
    | Checked(verified: bool, username: string, date: string, contributions: Tally,
              summary: string, recentRepos: seq<string>)
    | Rejected(status: nat, error: string, details: Option<string>)

  /** The upstream calls the route makes, in order. */
  datatype Upstream = EventsFeed(username: string) | ContributionGraph(username: string)

  /** A username JavaScript treats as present: defined and not empty. */
  predicate HasUsername(u: Option<string>)
  {
    u.Some? && u.value != ""
  }

  // ---------------------------------------------------------------------------
  // Classification and counting

  /** The events created on `day`, in feed order. */
  function OnDay(es: seq<Event>, day: string): (r: seq<Event>)
    ensures |r| <= |es|
    ensures forall e :: e in r <==> e in es && e.day == day
  {
    if es == [] then []
    else if es[|es| - 1].day == day then OnDay(es[..|es| - 1], day) + [es[|es| - 1]]
    else OnDay(es[..|es| - 1], day)
  }

  /** The number of events whose kind is one of `kinds`. */
  function Count(es: seq<Event>, kinds: set<string>): (n: nat)
    ensures n <= |es|
    ensures n == 0 <==> forall e :: e in es ==> e.kind !in kinds
  {
    if es == [] then 0
    else Count(es[..|es| - 1], kinds) + (if es[|es| - 1].kind in kinds then 1 else 0)
  }

  const PushKinds: set<string> := {"PushEvent"}
  const PullRequestKinds: set<string> := {"PullRequestEvent"}
  const IssueKinds: set<string> := {"IssuesEvent", "IssueCommentEvent"}
  const CreateKinds: set<string> := {"CreateEvent"}
  const ReviewKinds: set<string> := {"PullRequestReviewEvent"}

  /** The commits an event carries: the length of its commit list, 0 when it has none. */
  function CommitsOf(e: Event): nat
  {
    if e.commits.Some? then e.commits.value else 0
  }

  /** The commits of all push events. */
  function Commits(es: seq<Event>): (n: nat)
    ensures n > 0 <==> exists e :: e in es && e.kind in PushKinds && CommitsOf(e) > 0
  {
    if es == [] then 0
    else
      var init := es[..|es| - 1];
      var last := es[|es| - 1];
      assert forall e :: e in init ==> e in es;
      Commits(init) + (if last.kind in PushKinds then CommitsOf(last) else 0)
  }

  /** The commits of two stretches of the feed add up. */
  lemma {:induction false} CommitsAppend(a: seq<Event>, b: seq<Event>)
    ensures Commits(a + b) == Commits(a) + Commits(b)
    decreases |b|
  {
    if b != [] {
      var init := b[..|b| - 1];
      CommitsAppend(a, init);
      assert (a + b)[..|a + b| - 1] == a + init;
      assert (a + b)[|a + b| - 1] == b[|b| - 1];
    } else {
      assert a + b == a;
    }
  }

  /** An event contributes when it is a push with commits or one of the other counted kinds. */
  predicate Contributes(e: Event)
  {
    (e.kind in PushKinds && CommitsOf(e) > 0) ||
    e.kind in PullRequestKinds || e.kind in IssueKinds || e.kind in CreateKinds || e.kind in ReviewKinds
  }

  /** Commits, pull requests, issue interactions, creations and reviews, added up. */
  function Contributions(es: seq<Event>): (n: nat)
    ensures n == 0 <==> forall e :: e in es ==> !Contributes(e)
  {
    Commits(es) + Count(es, PullRequestKinds) + Count(es, IssueKinds) + Count(es, CreateKinds) + Count(es, ReviewKinds)
  }

  /** The count of the first graph entry for `day`, if the graph has one. */
  function GraphCount(days: seq<DayCount>, day: string): (r: Option<int>)
    ensures r.Some? <==> exists k :: 0 <= k < |days| && days[k].date == day
    ensures r.Some? ==> exists k :: 0 <= k < |days| && days[k].date == day && days[k].count == r.value &&
                                    forall j :: 0 <= j < k ==> days[j].date != day
  {
    if days == [] then None
    else if days[0].date == day then Some(days[0].count)
    else
      var r := GraphCount(days[1..], day);
      assert forall k :: 1 <= k < |days| ==> days[k] == days[1..][k - 1];
      r
  }

  /** The day's count once the contribution graph is consulted: the larger of the two sources. */
  function Reconciled(own: nat, graph: GraphReply, day: string): (n: nat)
    ensures n >= own
    ensures graph.Graph? && graph.days.Some? && GraphCount(graph.days.value, day).Some? ==>
              n >= GraphCount(graph.days.value, day).value
    ensures n == own || (graph.Graph? && graph.days.Some? && GraphCount(graph.days.value, day) == Some(n))
  {
    if graph.Graph? && graph.days.Some? then
      match GraphCount(graph.days.value, day)
      case Some(c) => if c > own then c else own
      case None => own
    else own
  }

  // ---------------------------------------------------------------------------
  // The repository list

  /** The repository names the events carry that JavaScript treats as present (not empty). */
  function RepoNames(es: seq<Event>): (names: seq<string>)
    ensures forall n :: n in names <==> n != "" && exists e :: e in es && e.repo == Some(n)
  {
    if es == [] then []
    else
      var init := es[..|es| - 1];
      var last := es[|es| - 1];
      assert es == init + [last];
      if last.repo.Some? && last.repo.value != "" then RepoNames(init) + [last.repo.value] else RepoNames(init)
  }

  /** Each distinct element once, in the order of its first occurrence. */
  function Dedup(xs: seq<string>): (d: seq<string>)
    ensures forall x :: x in d <==> x in xs
    ensures forall i, j :: 0 <= i < j < |d| ==> d[i] != d[j]
  {
    if xs == [] then []
    else
      var d := Dedup(xs[..|xs| - 1]);
      if xs[|xs| - 1] in d then d else d + [xs[|xs| - 1]]
  }

  /** The position of the first occurrence of `x`. */
  function FirstIndex(xs: seq<string>, x: string): (i: nat)
    requires x in xs
    ensures i < |xs| && xs[i] == x
    ensures forall j :: 0 <= j < i ==> xs[j] != x
  {
    if xs[0] == x then 0 else FirstIndex(xs[1..], x) + 1
  }

  lemma FirstIndexAppend(xs: seq<string>, y: string, x: string)
    requires x in xs
    ensures FirstIndex(xs + [y], x) == FirstIndex(xs, x)
  {
    var i := FirstIndex(xs, x);
    var k := FirstIndex(xs + [y], x);
    assert (xs + [y])[i] == x;
    assert k <= i;
    assert xs[k] == (xs + [y])[k];
  }

  /** `[...new Set(xs)]` keeps the elements in the order of their first occurrence. */
  lemma {:induction false} DedupOrder(xs: seq<string>)
    ensures forall i, j :: 0 <= i < j < |Dedup(xs)| ==>
      FirstIndex(xs, Dedup(xs)[i]) < FirstIndex(xs, Dedup(xs)[j])
  {
    if xs != [] {
      var init := xs[..|xs| - 1];
      var last := xs[|xs| - 1];
      assert xs == init + [last];
      DedupOrder(init);
      var d := Dedup(init);
      forall x | x in init
        ensures FirstIndex(xs, x) == FirstIndex(init, x)
      {
        FirstIndexAppend(init, last, x);
      }
      if last !in d {
        assert last !in init;
        assert FirstIndex(xs, last) == |init|;
      }
    }
  }

  /** The reply's `recentRepos`: distinct names in first-seen order, at most five. */
  function RecentRepos(es: seq<Event>): (r: seq<string>)
    ensures |r| <= 5
    ensures forall n :: n in r ==> n in RepoNames(es)
  {
    var d := Dedup(RepoNames(es));
    if |d| <= 5 then d else d[..5]
  }

  /**
   * `recentRepos` lists at most five distinct, present repository names of the events, in the
   * order they first appear; when it lists fewer than five, it lists all of them.
   */
  lemma RecentReposSpec(es: seq<Event>)
    ensures |RecentRepos(es)| <= 5
    ensures forall i, j :: 0 <= i < j < |RecentRepos(es)| ==> RecentRepos(es)[i] != RecentRepos(es)[j]
    ensures forall n :: n in RecentRepos(es) ==> n != "" && exists e :: e in es && e.repo == Some(n)
    ensures |RecentRepos(es)| < 5 ==> forall e :: e in es && e.repo.Some? && e.repo.value != "" ==> e.repo.value in RecentRepos(es)
    ensures forall i, j :: 0 <= i < j < |RecentRepos(es)| ==>
      FirstIndex(RepoNames(es), RecentRepos(es)[i]) < FirstIndex(RepoNames(es), RecentRepos(es)[j])
  {
    var names := RepoNames(es);
    DedupOrder(names);
    var d := Dedup(names);
    var r := RecentRepos(es);
    assert forall k :: 0 <= k < |r| ==> r[k] == d[k];
    assert forall n :: n in r ==> n in d;
  }

  /**
   * Which names `slice(0, 5)` keeps: all of them when there are at most five, otherwise five; and
   * every name first seen before a listed one is listed too, so the list is the first five seen.
   */
  lemma RecentReposFirstSeen(es: seq<Event>)
    ensures |RecentRepos(es)| == if |Dedup(RepoNames(es))| <= 5 then |Dedup(RepoNames(es))| else 5
    ensures forall n, m ::
      m in RecentRepos(es) && n in RepoNames(es) && FirstIndex(RepoNames(es), n) < FirstIndex(RepoNames(es), m) ==>
        n in RecentRepos(es)
  {
    var names := RepoNames(es);
    var d := Dedup(names);
    var r := RecentRepos(es);
    DedupOrder(names);
    forall n, m | m in r && n in names && FirstIndex(names, n) < FirstIndex(names, m)
      ensures n in r
    {
      if |d| > 5 {
        var b :| 0 <= b < 5 && r[b] == m;
        assert d[b] == m;
        assert n in d;
        var a :| 0 <= a < |d| && d[a] == n;
        if a >= b {
          assert false;
        }
        assert r[a] == n;
      }
    }
  }

  // ---------------------------------------------------------------------------
  // The route

  const NothingFound: string := "No contributions found on "

  /** A summary that reports something found never reads as one that reports nothing. */
  lemma FoundIsNotNothing(rest: string)
    ensures !IsPrefix(NothingFound, "Found " + rest)
  {
    assert ("Found " + rest)[0] == 'F' != NothingFound[0];
  }

  /** What a successfully fetched reply reports for a user's events on one day. */
  predicate Reports(resp: Response, username: string, day: string, today: seq<Event>, graph: GraphReply)
  {
    && resp.Checked?
    && resp.username == username && resp.date == day
    && resp.contributions.commits == Commits(today)
    && resp.contributions.pullRequests == Count(today, PullRequestKinds)
    && resp.contributions.issues == Count(today, IssueKinds)
    && resp.contributions.reviews == Count(today, ReviewKinds)
    && resp.contributions.total == Reconciled(Contributions(today), graph, day)
    && resp.contributions.total >= Contributions(today) >= resp.contributions.commits
    && (resp.verified <==> resp.contributions.total > 0)
    && (resp.verified <==> !IsPrefix(NothingFound, resp.summary))
    && resp.recentRepos == RecentRepos(today)
  }

  /**
   * The counting part of the route: classify the day's events, build the summary fragments,
   * let the contribution graph raise the count, and phrase the reply.
   */
  method CountDay(username: string, day: string, today: seq<Event>, graph: GraphReply) returns (resp: Response)
    ensures Reports(resp, username, day, today, graph)
  {
    var commits := Commits(today);
    var prs := Count(today, PullRequestKinds);
    var issues := Count(today, IssueKinds);
    var creates := Count(today, CreateKinds);
    var reviews := Count(today, ReviewKinds);
    var total := commits + prs + issues + creates + reviews;
    var hasContributed := total > 0;

    var summary: seq<string> := [];
    if commits > 0 { summary := summary + [NatToString(commits) + " commit(s)"]; }
    if prs > 0 { summary := summary + [NatToString(prs) + " PR(s)"]; }
    if issues > 0 { summary := summary + [NatToString(issues) + " issue interaction(s)"]; }
    if creates > 0 { summary := summary + [NatToString(creates) + " repo/branch creation(s)"]; }
    if reviews > 0 { summary := summary + [NatToString(reviews) + " code review(s)"]; }

    var contributionCount := total;
    if graph.Graph? && graph.days.Some? {
      var found := GraphCount(graph.days.value, day);
      if found.Some? && found.value > contributionCount {
        contributionCount := found.value;
      }
    }
    var verified := hasContributed || contributionCount > 0;

    var summaryText;
    if |summary| > 0 {
      summaryText := "Found " + (Join(summary, ", ") + " on " + day);
      FoundIsNotNothing(Join(summary, ", ") + " on " + day);
    } else if contributionCount > 0 {
      summaryText := "Found " + (NatToString(contributionCount) + " contribution(s) on " + day);
      FoundIsNotNothing(NatToString(contributionCount) + " contribution(s) on " + day);
    } else {
      summaryText := NothingFound + day;
    }
    var shown := if total >= contributionCount then total else contributionCount;
    resp := Checked(verified, username, day, Tally(shown, commits, prs, issues, reviews),
                    summaryText, RecentRepos(today));
  }

  /**
   * `POST /api/verify/github`. Without a username it answers 400 and calls nothing; a 404 from
   * the events feed is "user not found"; any other feed failure is a 500. Otherwise it counts the
   * day's events, takes the larger of that count and the contribution graph's, and is verified
   * exactly when that is positive.
   */
  method Verify(req: Request, feed: EventsReply, graph: GraphReply) returns (resp: Response, calls: seq<Upstream>)
    ensures !HasUsername(req.username) ==> resp == Rejected(400, "GitHub username is required", None) && calls == []
    ensures HasUsername(req.username) && feed.EventsError? ==>
      && calls == [EventsFeed(req.username.value)]
      && resp == (if feed.status == 404 then Rejected(404, "GitHub user not found", None)
                  else Rejected(500, "Failed to verify GitHub activity", Some("GitHub API error: " + IntToString(feed.status))))
    ensures HasUsername(req.username) && feed.EventsOk? ==>
      && calls == [EventsFeed(req.username.value), ContributionGraph(req.username.value)]
      && Reports(resp, req.username.value, req.day, OnDay(feed.events, req.day), graph)
  {
    if !HasUsername(req.username) {
      return Rejected(400, "GitHub username is required", None), [];
    }
    var username := req.username.value;
    calls := [EventsFeed(username)];
    if feed.EventsError? {
      if feed.status == 404 {
        return Rejected(404, "GitHub user not found", None), calls;
      }
      return Rejected(500, "Failed to verify GitHub activity", Some("GitHub API error: " + IntToString(feed.status))), calls;
    }
    var today := OnDay(feed.events, req.day);
    calls := calls + [ContributionGraph(username)];
    resp := CountDay(username, req.day, today, graph);
  }
}

=== FILE: GoalLedger.dfy ===
/**
 * GoalForge: the GOAL token ledger and goal state machine. Users are onboarded once with a
 * starter grant, stake tokens on a habit goal, and check in daily; a goal ends Completed
 * (stake returned with a 10% minted bonus and an achievement token) or Failed (stake burned).
 *
 * Token amounts are in the token's smallest unit (18 decimals).
 */
module GoalLedger {
  import opened Wrappers
  import opened Chain
  import opened HabitCatalog
  import AchievementMinter

  const Ether: nat := 1_000_000_000_000_000_000
  const InitialSupply: nat := 1_000_000 * Ether
  const OnboardingTokens: nat := 100 * Ether
  const BonusRate: nat := 10
  const MaxLives: nat := 5

  datatype Goal = Goal(
    habitType: Habit,
    title: string,
    username: string,
    stake: nat,
    totalDays: nat,
    progress: nat,
    livesLeft: nat,
    currentStreak: nat,
    startDate: int,
    endDate: int,
    completed: bool,
    verified: bool)

  /** `verified` marks a terminal goal; `completed` tells which terminal state it reached. */
  datatype Status = Active | Completed | Failed

  function StatusOf(g: Goal): Status
  {
    if !g.verified then Active else if g.completed then Completed else Failed
  }

  /** An entry of `getAllGoals`: a goal tagged with its owner. */
  datatype UserGoal = UserGoal(user: Address, goal: Goal)

  datatype LedgerError =
    | AlreadyOnboarded
    | ZeroDays
    | TooManyLives
    | ZeroStake
    | InsufficientBalance
    | InvalidGoalIndex
    | MintRejected(cause: AchievementMinter.MinterError)
    | ERC20InvalidReceiver(receiver: Address)
    | ERC20InsufficientBalance(sender: Address)

  /**
   * The revert reason string of a check, for the checks that revert with one; the other errors
   * are custom errors, identified by their constructor.
   */
  function Reason(e: LedgerError): Option<string>
  {
    match e
    case AlreadyOnboarded => Some("User has already onboarded")
    case ZeroDays => Some("Days must be greater than 0")
    case TooManyLives => Some("Maximum 5 lives allowed")
    case ZeroStake => Some("Stake must be greater than 0")
    case InsufficientBalance => Some("Insufficient balance")
    case InvalidGoalIndex => Some("Invalid goal index")
    case _ => None
  }

  datatype LedgerEvent =
    | UserOnboarded(user: Address)
    | GoalCreated(user: Address, goalId: nat, title: string, stake: nat, habitType: Habit)
    | GoalProgress(user: Address, goalId: nat, progress: nat)
    | GoalCompleted(user: Address, goalId: nat, stake: nat, bonus: nat)
    | GoalFailed(user: Address, goalId: nat, stake: nat)

  /** The bonus minted on completion: 10% of the stake, rounded down. */
  function Bonus(stake: nat): (b: nat)
    ensures 10 * b <= stake < 10 * b + 10
  {
    stake * BonusRate / 100
  }

  // ---------------------------------------------------------------------------
  // The goal record and its transitions

  /** What every stored goal satisfies. */
  predicate GoalOk(g: Goal)
  {
    && g.totalDays > 0
    && g.stake > 0
    && g.livesLeft <= MaxLives
    && g.progress <= g.totalDays
    && g.currentStreak <= g.progress
    && g.title == Title(g.habitType)
    && (g.completed <==> g.progress == g.totalDays)
    && (g.completed ==> g.verified)
  }

  /** The record `createHabit` appends. */
  function NewGoal(habitType: Habit, totalDays: nat, lives: nat, stake: nat, username: string, now: Timestamp): (g: Goal)
    requires totalDays > 0 && lives <= MaxLives && stake > 0
    ensures GoalOk(g) && StatusOf(g) == Active
    ensures g.progress == 0 && g.currentStreak == 0 && g.livesLeft == lives
    ensures g.stake == stake && g.totalDays == totalDays && g.title == Title(habitType)
    ensures g.habitType == habitType && g.username == username && g.startDate == now
    ensures g.endDate - g.startDate == totalDays * SecondsPerDay
  {
    Goal(habitType, Title(habitType), username, stake, totalDays, 0, lives, 0,
         now, now + totalDays * SecondsPerDay, false, false)
  }

  /**
   * `checkInHabit(i, success)` on an active goal. A success advances progress and streak and
   * completes the goal at `totalDays`; a miss spends a life, or fails the goal when none is left.
   * Whether a miss resets the streak is the ledger's `resetStreakOnMiss` policy.
   */
  function AfterCheckIn(g: Goal, success: bool, resetStreakOnMiss: bool): (g': Goal)
    requires GoalOk(g) && StatusOf(g) == Active
    ensures GoalOk(g')
    ensures g'.habitType == g.habitType && g'.title == g.title && g'.username == g.username
    ensures g'.stake == g.stake && g'.totalDays == g.totalDays
    ensures g'.startDate == g.startDate && g'.endDate == g.endDate
  {
    if success then
      var p := g.progress + 1;
      if p == g.totalDays then g.(progress := p, currentStreak := g.currentStreak + 1, completed := true, verified := true)
      else g.(progress := p, currentStreak := g.currentStreak + 1)
    else if g.livesLeft > 0 then
      g.(livesLeft := g.livesLeft - 1, currentStreak := if resetStreakOnMiss then 0 else g.currentStreak)
    else
      g.(verified := true)
  }

  /** A successful check-in raises progress and streak by exactly one and spends no life. */
  lemma SuccessAdvances(g: Goal, reset: bool)
    requires GoalOk(g) && StatusOf(g) == Active
    ensures var g' := AfterCheckIn(g, true, reset);
      && g'.progress == g.progress + 1
      && g'.currentStreak == g.currentStreak + 1
      && g'.livesLeft == g.livesLeft
      && (StatusOf(g') == Completed <==> g.progress + 1 == g.totalDays)
      && StatusOf(g') != Failed
  {
  }

  /** A miss with a life left spends exactly one life and keeps the goal active with its progress. */
  lemma MissSpendsLife(g: Goal, reset: bool)
    requires GoalOk(g) && StatusOf(g) == Active && g.livesLeft > 0
    ensures var g' := AfterCheckIn(g, false, reset);
      && g'.livesLeft == g.livesLeft - 1
      && g'.progress == g.progress
      && StatusOf(g') == Active
  {
  }

  /** A miss with no life left fails the goal: verified but not completed. */
  lemma MissWithoutLifeFails(g: Goal, reset: bool)
    requires GoalOk(g) && StatusOf(g) == Active && g.livesLeft == 0
    ensures var g' := AfterCheckIn(g, false, reset);
      StatusOf(g') == Failed && !g'.completed && g'.verified && g'.progress == g.progress
  {
  }

  /** The goal after `k` successful check-ins in a row (while it stays active). */
  function Successes(g: Goal, k: nat, reset: bool): Goal
    requires GoalOk(g) && StatusOf(g) == Active
    requires g.progress + k <= g.totalDays
    decreases k
  {
    if k == 0 then g
    else
      var g1 := AfterCheckIn(g, true, reset);
      if StatusOf(g1) == Active then Successes(g1, k - 1, reset) else g1
  }

  /** Starting from a new goal, `totalDays` successes complete it and none earlier does. */
  lemma {:induction false} SuccessesComplete(g: Goal, k: nat, reset: bool)
    requires GoalOk(g) && StatusOf(g) == Active
    requires g.progress + k <= g.totalDays
    ensures Successes(g, k, reset).progress == g.progress + k
    ensures Successes(g, k, reset).currentStreak == g.currentStreak + k
    ensures Successes(g, k, reset).livesLeft == g.livesLeft
    ensures StatusOf(Successes(g, k, reset)) == (if g.progress + k == g.totalDays then Completed else Active)
    decreases k
  {
    if k > 0 {
      var g1 := AfterCheckIn(g, true, reset);
      SuccessAdvances(g, reset);
      if StatusOf(g1) == Active {
        SuccessesComplete(g1, k - 1, reset);
      }
    }
  }

  // ---------------------------------------------------------------------------
  // Sums over goal lists and users

  /** A goal's stake is in escrow while it is active. */
  function Escrowed(g: Goal): nat
  {
    if g.verified then 0 else g.stake
  }

  function CompletedMark(g: Goal): nat
  {
    if g.completed then 1 else 0
  }

  /** The stake a user has in escrow: the stakes of the user's active goals. */
  function ActiveStake(gs: seq<Goal>): nat
  {
    if gs == [] then 0 else ActiveStake(gs[..|gs| - 1]) + Escrowed(gs[|gs| - 1])
  }

  /** How many of the goals are completed. */
  function CompletedCount(gs: seq<Goal>): nat
  {
    if gs == [] then 0 else CompletedCount(gs[..|gs| - 1]) + CompletedMark(gs[|gs| - 1])
  }

  lemma SumsAppend(gs: seq<Goal>, g: Goal)
    ensures ActiveStake(gs + [g]) == ActiveStake(gs) + Escrowed(g)
    ensures CompletedCount(gs + [g]) == CompletedCount(gs) + CompletedMark(g)
  {
    assert (gs + [g])[..|gs|] == gs;
  }

  /** Replacing one goal changes each sum by the difference of the two goals' weights. */
  lemma {:induction false} SumsUpdate(gs: seq<Goal>, i: nat, g: Goal)
    requires i < |gs|
    ensures ActiveStake(gs[i := g]) + Escrowed(gs[i]) == ActiveStake(gs) + Escrowed(g)
    ensures CompletedCount(gs[i := g]) + CompletedMark(gs[i]) == CompletedCount(gs) + CompletedMark(g)
  {
    var n := |gs|;
    if i == n - 1 {
      assert gs[i := g][..n - 1] == gs[..n - 1];
    } else {
      assert gs[i := g][..n - 1] == gs[..n - 1][i := g];
      SumsUpdate(gs[..n - 1], i, g);
    }
  }

  /** No active goal holds more than the user's whole escrowed stake. */
  lemma {:induction false} ActiveStakeCovers(gs: seq<Goal>, i: nat)
    requires i < |gs|
    ensures ActiveStake(gs) >= Escrowed(gs[i])
  {
    if i < |gs| - 1 {
      ActiveStakeCovers(gs[..|gs| - 1], i);
    }
  }

  /** A user without active goals has nothing in escrow. */
  lemma {:induction false} NoActiveNoStake(gs: seq<Goal>)
    requires forall k :: 0 <= k < |gs| ==> gs[k].verified
    ensures ActiveStake(gs) == 0
  {
    if gs != [] {
      NoActiveNoStake(gs[..|gs| - 1]);
    }
  }

  function GoalsIn(gs: map<Address, seq<Goal>>, u: Address): seq<Goal>
  {
    if u in gs then gs[u] else []
  }

  /** No address is listed twice. */
  ghost predicate Distinct(us: seq<Address>)
  {
    forall a :: multiset(us)[a] <= 1
  }

  /** Everything the ledger holds in escrow for the listed users. */
  function TotalEscrow(us: seq<Address>, gs: map<Address, seq<Goal>>): nat
  {
    if us == [] then 0 else TotalEscrow(us[..|us| - 1], gs) + ActiveStake(GoalsIn(gs, us[|us| - 1]))
  }

  lemma TotalEscrowAppend(us: seq<Address>, u: Address, gs: map<Address, seq<Goal>>)
    ensures TotalEscrow(us + [u], gs) == TotalEscrow(us, gs) + ActiveStake(GoalsIn(gs, u))
  {
    assert (us + [u])[..|us|] == us;
  }

  /** Changing the goals of a user outside the list does not change its escrow. */
  lemma {:induction false} TotalEscrowFrame(us: seq<Address>, gs: map<Address, seq<Goal>>, u: Address, goals: seq<Goal>)
    requires u !in us
    ensures TotalEscrow(us, gs[u := goals]) == TotalEscrow(us, gs)
  {
    if us != [] {
      TotalEscrowFrame(us[..|us| - 1], gs, u, goals);
    }
  }

  /** Changing one listed user's goals changes the escrow by the change of that user's stake. */
  lemma {:induction false} TotalEscrowUpdate(us: seq<Address>, gs: map<Address, seq<Goal>>, u: Address, goals: seq<Goal>)
    requires Distinct(us) && u in us
    ensures TotalEscrow(us, gs[u := goals]) + ActiveStake(GoalsIn(gs, u)) == TotalEscrow(us, gs) + ActiveStake(goals)
  {
    var n := |us|;
    var init := us[..n - 1];
    assert us == init + [us[n - 1]];
    assert multiset(us) == multiset(init) + multiset{us[n - 1]};
    forall a
      ensures multiset(init)[a] <= 1
    {
      assert multiset(us)[a] == multiset(init)[a] + multiset{us[n - 1]}[a];
    }
    if us[n - 1] == u {
      var before: multiset<Address> := multiset(init);
      assert multiset(us)[u] == before[u] + 1;
      TotalEscrowFrame(init, gs, u, goals);
    } else {
      assert u in init;
      TotalEscrowUpdate(init, gs, u, goals);
    }
  }

  /** Each listed user's stake is part of the escrow. */
  lemma {:induction false} TotalEscrowCovers(us: seq<Address>, gs: map<Address, seq<Goal>>, u: Address)
    requires u in us
    ensures TotalEscrow(us, gs) >= ActiveStake(GoalsIn(gs, u))
  {
    var n := |us|;
    if us[n - 1] != u {
      assert u in us[..n - 1];
      TotalEscrowCovers(us[..n - 1], gs, u);
    }
  }

  /** `getAllGoals`: every listed user's goals in order, tagged with the user. */
  function AllGoalsOf(us: seq<Address>, gs: map<Address, seq<Goal>>): seq<UserGoal>
  {
    if us == [] then []
    else AllGoalsOf(us[..|us| - 1], gs) + Tagged(us[|us| - 1], GoalsIn(gs, us[|us| - 1]))
  }

  function Tagged(u: Address, goals: seq<Goal>): (r: seq<UserGoal>)
    ensures |r| == |goals|
    ensures forall k :: 0 <= k < |r| ==> r[k] == UserGoal(u, goals[k])
  {
    if goals == [] then [] else Tagged(u, goals[..|goals| - 1]) + [UserGoal(u, goals[|goals| - 1])]
  }

  /** An entry is in `getAllGoals` exactly when its goal belongs to its (listed) user. */
  lemma {:induction false} AllGoalsMembership(us: seq<Address>, gs: map<Address, seq<Goal>>, e: UserGoal)
    ensures e in AllGoalsOf(us, gs) <==> e.user in us && e.goal in GoalsIn(gs, e.user)
  {
    if us != [] {
      var n := |us|;
      AllGoalsMembership(us[..n - 1], gs, e);
      var last := Tagged(us[n - 1], GoalsIn(gs, us[n - 1]));
      assert us == us[..n - 1] + [us[n - 1]];
      if e in last {
        var k :| 0 <= k < |last| && last[k] == e;
        assert e.goal == GoalsIn(gs, us[n - 1])[k];
      }
      if e.user == us[n - 1] && e.goal in GoalsIn(gs, e.user) {
        var k :| 0 <= k < |GoalsIn(gs, e.user)| && GoalsIn(gs, e.user)[k] == e.goal;
        assert last[k] == e;
      }
    }
  }

  /** `getAllGoals` has one entry per goal of every listed user. */
  lemma {:induction false} AllGoalsLength(us: seq<Address>, gs: map<Address, seq<Goal>>)
    ensures |AllGoalsOf(us, gs)| == GoalCount(us, gs)
  {
    if us != [] {
      AllGoalsLength(us[..|us| - 1], gs);
    }
  }

  function GoalCount(us: seq<Address>, gs: map<Address, seq<Goal>>): nat
  {
    if us == [] then 0 else GoalCount(us[..|us| - 1], gs) + |GoalsIn(gs, us[|us| - 1])|
  }

  // ---------------------------------------------------------------------------
  // The ledger's bookkeeping, on values

  function Lookup(m: map<Address, nat>, a: Address): nat
  {
    if a in m then m[a] else 0
  }

  function TokensIn(m: map<Address, seq<nat>>, a: Address): seq<nat>
  {
    if a in m then m[a] else []
  }

  /** The registry lists exactly the users with goals, once each, and never the ledger itself. */
  ghost predicate Registry(self: Address, users: seq<Address>, goals: map<Address, seq<Goal>>)
  {
    && self !in goals
    && Distinct(users)
    && (forall u :: u in goals <==> u in users)
  }

  ghost predicate WellFormed(goals: map<Address, seq<Goal>>)
  {
    forall u, k :: u in goals && 0 <= k < |goals[u]| ==> GoalOk(goals[u][k])
  }

  /** A user's recorded stake is the stake of the user's active goals. */
  ghost predicate StakesAgree(goals: map<Address, seq<Goal>>, stakes: map<Address, nat>)
  {
    forall u {:trigger Lookup(stakes, u)} :: Lookup(stakes, u) == ActiveStake(GoalsIn(goals, u))
  }

  /** A user holds one achievement token per completed goal. */
  ghost predicate TokensAgree(goals: map<Address, seq<Goal>>, nfts: map<Address, seq<nat>>)
  {
    forall u {:trigger TokensIn(nfts, u)} :: |TokensIn(nfts, u)| == CompletedCount(GoalsIn(goals, u))
  }

  /** The minter records each user's achievement tokens as owned by that user. */
  ghost predicate TokensOwned(nfts: map<Address, seq<nat>>, owners: map<nat, Address>)
  {
    forall u, k {:trigger TokensIn(nfts, u)[k]} :: 0 <= k < |TokensIn(nfts, u)| ==>
      TokensIn(nfts, u)[k] in owners && owners[TokensIn(nfts, u)[k]] == u
  }

  /** The ledger's books agree with each other and with the minter. */
  ghost predicate Books(self: Address, users: seq<Address>, goals: map<Address, seq<Goal>>,
                        stakes: map<Address, nat>, nfts: map<Address, seq<nat>>, owners: map<nat, Address>)
  {
    && Registry(self, users, goals)
    && WellFormed(goals)
    && StakesAgree(goals, stakes)
    && TokensAgree(goals, nfts)
    && TokensOwned(nfts, owners)
  }

  lemma RegistryAfterSet(self: Address, users: seq<Address>, goals: map<Address, seq<Goal>>, u: Address, gs: seq<Goal>)
    requires Registry(self, users, goals) && u != self
    ensures Registry(self, if u in users then users else users + [u], goals[u := gs])
  {
    if u !in users {
      assert Distinct(users + [u]);
    }
  }

  lemma WellFormedAfterSet(goals: map<Address, seq<Goal>>, u: Address, gs: seq<Goal>)
    requires WellFormed(goals)
    requires forall k :: 0 <= k < |gs| ==> GoalOk(gs[k])
    ensures WellFormed(goals[u := gs])
  {
  }

  lemma StakesAfterSet(goals: map<Address, seq<Goal>>, stakes: map<Address, nat>, u: Address, gs: seq<Goal>,
                       stakes': map<Address, nat>)
    requires StakesAgree(goals, stakes)
    requires forall v {:trigger Lookup(stakes', v)} ::
      Lookup(stakes', v) == if v == u then ActiveStake(gs) else Lookup(stakes, v)
    ensures StakesAgree(goals[u := gs], stakes')
  {
    var goals' := goals[u := gs];
    forall v
      ensures Lookup(stakes', v) == ActiveStake(GoalsIn(goals', v))
    {
      if v != u {
        assert Lookup(stakes, v) == ActiveStake(GoalsIn(goals, v));
      }
    }
  }

  lemma TokensAfterSet(goals: map<Address, seq<Goal>>, nfts: map<Address, seq<nat>>, u: Address, gs: seq<Goal>,
                       nfts': map<Address, seq<nat>>)
    requires TokensAgree(goals, nfts)
    requires forall v :: v != u ==> TokensIn(nfts', v) == TokensIn(nfts, v)
    requires |TokensIn(nfts', u)| == CompletedCount(gs)
    ensures TokensAgree(goals[u := gs], nfts')
  {
    forall v
      ensures |TokensIn(nfts', v)| == CompletedCount(GoalsIn(goals[u := gs], v))
    {
      if v != u {
        assert TokensIn(nfts', v) == TokensIn(nfts, v);
      }
    }
  }

  /** Tokens minted to `u` on a minter that only added owners keep every user's tokens owned. */
  lemma TokensOwnedAfterMint(nfts: map<Address, seq<nat>>, owners: map<nat, Address>, u: Address,
                             minted: seq<nat>, nfts': map<Address, seq<nat>>, owners': map<nat, Address>)
    requires TokensOwned(nfts, owners)
    requires forall v :: v != u ==> TokensIn(nfts', v) == TokensIn(nfts, v)
    requires TokensIn(nfts', u) == TokensIn(nfts, u) + minted
    requires forall id :: id in owners ==> id in owners' && owners'[id] == owners[id]
    requires forall k :: 0 <= k < |minted| ==> minted[k] in owners' && owners'[minted[k]] == u
    ensures TokensOwned(nfts', owners')
  {
    forall v, k | 0 <= k < |TokensIn(nfts', v)|
      ensures TokensIn(nfts', v)[k] in owners' && owners'[TokensIn(nfts', v)[k]] == v
    {
      if v == u && k >= |TokensIn(nfts, v)| {
        assert TokensIn(nfts', v)[k] == minted[k - |TokensIn(nfts, v)|];
      } else {
        assert TokensIn(nfts', v)[k] == TokensIn(nfts, v)[k];
      }
    }
  }

  /**
   * Replacing one user's goal list by `gs`, with the user's stake and tokens brought in line,
   * keeps the books; a user seen for the first time joins the registry at its end.
   */
  lemma BooksAfterSet(self: Address, users: seq<Address>, goals: map<Address, seq<Goal>>,
                      stakes: map<Address, nat>, nfts: map<Address, seq<nat>>, owners: map<nat, Address>,
                      u: Address, gs: seq<Goal>, minted: seq<nat>, stakes': map<Address, nat>,
                      nfts': map<Address, seq<nat>>, owners': map<nat, Address>)
    requires Books(self, users, goals, stakes, nfts, owners) && u != self
    requires forall k :: 0 <= k < |gs| ==> GoalOk(gs[k])
    requires forall v {:trigger Lookup(stakes', v)} ::
      Lookup(stakes', v) == if v == u then ActiveStake(gs) else Lookup(stakes, v)
    requires forall v :: v != u ==> TokensIn(nfts', v) == TokensIn(nfts, v)
    requires TokensIn(nfts', u) == TokensIn(nfts, u) + minted
    requires |TokensIn(nfts', u)| == CompletedCount(gs)
    requires forall id :: id in owners ==> id in owners' && owners'[id] == owners[id]
    requires forall k :: 0 <= k < |minted| ==> minted[k] in owners' && owners'[minted[k]] == u
    ensures Books(self, if u in users then users else users + [u], goals[u := gs], stakes', nfts', owners')
  {
    RegistryAfterSet(self, users, goals, u, gs);
    WellFormedAfterSet(goals, u, gs);
    StakesAfterSet(goals, stakes, u, gs, stakes');
    TokensAfterSet(goals, nfts, u, gs, nfts');
    TokensOwnedAfterMint(nfts, owners, u, minted, nfts', owners');
  }

  /** Replacing one user's goal list changes the escrow by the change of that user's stake. */
  lemma EscrowAfterSet(users: seq<Address>, goals: map<Address, seq<Goal>>, u: Address, gs: seq<Goal>)
    requires Distinct(users)
    ensures TotalEscrow(if u in users then users else users + [u], goals[u := gs]) + ActiveStake(GoalsIn(goals, u))
            == TotalEscrow(users, goals) + ActiveStake(gs) + (if u in users then 0 else ActiveStake(GoalsIn(goals, u)))
  {
    if u in users {
      TotalEscrowUpdate(users, goals, u, gs);
    } else {
      TotalEscrowFrame(users, goals, u, gs);
      TotalEscrowAppend(users, u, goals[u := gs]);
    }
  }

  /** The books agree with each other and with the minter's owners, and `reserve` covers every active stake. */
  ghost predicate LedgerOk(self: Address, users: seq<Address>, goals: map<Address, seq<Goal>>,
                           stakes: map<Address, nat>, nfts: map<Address, seq<nat>>, owners: map<nat, Address>,
                           reserve: nat)
  {
    Books(self, users, goals, stakes, nfts, owners) && reserve >= TotalEscrow(users, goals)
  }

  /** The reserve still covers the escrow when it moves with the active stake of the replaced goals. */
  lemma ReserveAfterSet(users: seq<Address>, goals: map<Address, seq<Goal>>, u: Address, gs: seq<Goal>,
                        reserve: nat, reserve': nat)
    requires Distinct(users) && (forall v :: v in goals <==> v in users)
    requires reserve >= TotalEscrow(users, goals)
    requires reserve' + ActiveStake(GoalsIn(goals, u)) == reserve + ActiveStake(gs)
    ensures reserve' >= TotalEscrow(if u in users then users else users + [u], goals[u := gs])
  {
    EscrowAfterSet(users, goals, u, gs);
    if u !in users {
      assert GoalsIn(goals, u) == [];
    }
  }

  /**
   * Replacing the goals of one user keeps the ledger sound, when that user's stake record
   * follows the new goals, the reserve moves with their active stake, and any newly minted
   * tokens are the user's.
   */
  lemma SetKeepsLedger(self: Address, users: seq<Address>, goals: map<Address, seq<Goal>>,
                       stakes: map<Address, nat>, nfts: map<Address, seq<nat>>, owners: map<nat, Address>,
                       reserve: nat, u: Address, gs: seq<Goal>, minted: seq<nat>, stakes': map<Address, nat>,
                       nfts': map<Address, seq<nat>>, owners': map<nat, Address>, reserve': nat)
    requires LedgerOk(self, users, goals, stakes, nfts, owners, reserve) && u != self
    requires forall k :: 0 <= k < |gs| ==> GoalOk(gs[k])
    requires forall v {:trigger Lookup(stakes', v)} :: Lookup(stakes', v) == if v == u then ActiveStake(gs) else Lookup(stakes, v)
    requires forall v :: v != u ==> TokensIn(nfts', v) == TokensIn(nfts, v)
    requires TokensIn(nfts', u) == TokensIn(nfts, u) + minted
    requires |TokensIn(nfts', u)| == CompletedCount(gs)
    requires forall id :: id in owners ==> id in owners' && owners'[id] == owners[id]
    requires forall k :: 0 <= k < |minted| ==> minted[k] in owners' && owners'[minted[k]] == u
    requires reserve' + ActiveStake(GoalsIn(goals, u)) == reserve + ActiveStake(gs)
    ensures LedgerOk(self, if u in users then users else users + [u], goals[u := gs], stakes', nfts', owners', reserve')
  {
    BooksAfterSet(self, users, goals, stakes, nfts, owners, u, gs, minted, stakes', nfts', owners');
    ReserveAfterSet(users, goals, u, gs, reserve, reserve');
  }

  /** The same, on the contract's storage: `st'` replaces the goals of `u` in `st` by `gs`. */
  lemma SetKeepsSound(self: Address, st: Storage, owners: map<nat, Address>, u: Address, gs: seq<Goal>,
                      minted: seq<nat>, st': Storage, owners': map<nat, Address>)
    requires Sound(self, st, owners) && u != self
    requires forall k :: 0 <= k < |gs| ==> GoalOk(gs[k])
    requires st'.users == if u in st.users then st.users else st.users + [u]
    requires st'.goals == st.goals[u := gs]
    requires forall v {:trigger Lookup(st'.userStakes, v)} ::
      Lookup(st'.userStakes, v) == if v == u then ActiveStake(gs) else Lookup(st.userStakes, v)
    requires forall v :: v != u ==> TokensIn(st'.userNFTs, v) == TokensIn(st.userNFTs, v)
    requires TokensIn(st'.userNFTs, u) == TokensIn(st.userNFTs, u) + minted
    requires |TokensIn(st'.userNFTs, u)| == CompletedCount(gs)
    requires forall id :: id in owners ==> id in owners' && owners'[id] == owners[id]
    requires forall k :: 0 <= k < |minted| ==> minted[k] in owners' && owners'[minted[k]] == u
    requires Lookup(st'.balances, self) + ActiveStake(GoalsIn(st.goals, u)) == Lookup(st.balances, self) + ActiveStake(gs)
    ensures Sound(self, st', owners')
  {
    SetKeepsLedger(self, st.users, st.goals, st.userStakes, st.userNFTs, owners, Lookup(st.balances, self),
                   u, gs, minted, st'.userStakes, st'.userNFTs, owners', Lookup(st'.balances, self));
  }

  /** The contract's storage. */
  datatype Storage = Storage(
    balances: map<Address, nat>,
    onboarded: set<Address>,
    goals: map<Address, seq<Goal>>,
    users: seq<Address>,
    userStakes: map<Address, nat>,
    userNFTs: map<Address, seq<nat>>,
    events: seq<LedgerEvent>)

  /** The ledger is sound, with its own token balance as the reserve. */
  ghost predicate Sound(self: Address, st: Storage, owners: map<nat, Address>)
  {
    LedgerOk(self, st.users, st.goals, st.userStakes, st.userNFTs, owners, Lookup(st.balances, self))
  }

  /** A user's active stake is part of the escrow the ledger holds. */
  lemma StakeInEscrow(users: seq<Address>, goals: map<Address, seq<Goal>>, u: Address, i: nat)
    requires forall v :: v in goals <==> v in users
    requires i < |GoalsIn(goals, u)|
    ensures Escrowed(GoalsIn(goals, u)[i]) <= ActiveStake(GoalsIn(goals, u)) <= TotalEscrow(users, goals)
  {
    ActiveStakeCovers(GoalsIn(goals, u), i);
    TotalEscrowCovers(users, goals, u);
  }

  /**
   * The events a check-in emits: progress whenever a success raised it, then completion;
   * failure alone when a miss ends the goal.
   */
  function CheckInEvents(user: Address, id: nat, g: Goal, g': Goal): seq<LedgerEvent>
  {
    var progress := if g'.progress != g.progress then [GoalProgress(user, id, g'.progress)] else [];
    match StatusOf(g')
    case Completed => progress + [GoalCompleted(user, id, g.stake, Bonus(g.stake))]
    case Failed => [GoalFailed(user, id, g.stake)]
    case Active => progress
  }

  // ---------------------------------------------------------------------------
  // The contract's state transitions, on values

  /** An accepted `onboard()`: 100 GOAL minted to the user, who is marked as onboarded. */
  function Granted(st: Storage, u: Address): Storage
  {
    st.(balances := st.balances[u := Lookup(st.balances, u) + OnboardingTokens],
        onboarded := st.onboarded + {u},
        events := st.events + [UserOnboarded(u)])
  }

  lemma GrantKeepsSound(self: Address, st: Storage, owners: map<nat, Address>, u: Address)
    requires Sound(self, st, owners) && u != self
    ensures Sound(self, Granted(st, u), owners)
  {
  }

  /** An accepted ERC-20 transfer. */
  function Moved(st: Storage, from: Address, to: Address, amount: nat): Storage
    requires amount <= Lookup(st.balances, from)
  {
    var debited := st.balances[from := Lookup(st.balances, from) - amount];
    st.(balances := debited[to := Lookup(debited, to) + amount])
  }

  /** A transfer moves `amount` from sender to receiver, touches no other balance, and keeps the ledger sound. */
  lemma MoveKeepsSound(self: Address, st: Storage, owners: map<nat, Address>, from: Address, to: Address, amount: nat)
    requires Sound(self, st, owners) && from != self
    requires amount <= Lookup(st.balances, from)
    ensures Sound(self, Moved(st, from, to, amount), owners)
    ensures from != to ==>
      && Lookup(Moved(st, from, to, amount).balances, from) + amount == Lookup(st.balances, from)
      && Lookup(Moved(st, from, to, amount).balances, to) == Lookup(st.balances, to) + amount
    ensures from == to ==> Lookup(Moved(st, from, to, amount).balances, from) == Lookup(st.balances, from)
    ensures forall a :: a != from && a != to ==> Lookup(Moved(st, from, to, amount).balances, a) == Lookup(st.balances, a)
  {
  }

  /** An accepted `createHabit`: the goal is appended and its stake moves from the user into the ledger. */
  function Opened(st: Storage, self: Address, u: Address, g: Goal): Storage
    requires u != self && g.stake <= Lookup(st.balances, u)
  {
    var debited := st.balances[u := Lookup(st.balances, u) - g.stake];
    st.(users := if u in st.users then st.users else st.users + [u],
        goals := st.goals[u := GoalsIn(st.goals, u) + [g]],
        userStakes := st.userStakes[u := Lookup(st.userStakes, u) + g.stake],
        balances := debited[self := Lookup(debited, self) + g.stake],
        events := st.events + [GoalCreated(u, |GoalsIn(st.goals, u)|, g.title, g.stake, g.habitType)])
  }

  /** Opening an active goal keeps the ledger sound: its stake is now escrowed and covered. */
  lemma OpenKeepsSound(self: Address, st: Storage, owners: map<nat, Address>, u: Address, g: Goal)
    requires Sound(self, st, owners)
    requires u != self && GoalOk(g) && StatusOf(g) == Active && g.stake <= Lookup(st.balances, u)
    ensures Sound(self, Opened(st, self, u, g), owners)
  {
    var st' := Opened(st, self, u, g);
    var gs := GoalsIn(st.goals, u) + [g];
    SumsAppend(GoalsIn(st.goals, u), g);
    assert TokensIn(st.userNFTs, u) + [] == TokensIn(st.userNFTs, u);
    SetKeepsSound(self, st, owners, u, gs, [], st', owners);
  }

  /** Opening a goal moves exactly its stake from the user to the ledger and records it as the user's stake. */
  lemma OpenEscrowsStake(st: Storage, self: Address, u: Address, g: Goal)
    requires u != self && g.stake <= Lookup(st.balances, u)
    ensures var st' := Opened(st, self, u, g);
      && Lookup(st'.balances, u) + g.stake == Lookup(st.balances, u)
      && Lookup(st'.balances, self) == Lookup(st.balances, self) + g.stake
      && (forall a :: a != u && a != self ==> Lookup(st'.balances, a) == Lookup(st.balances, a))
      && Lookup(st'.userStakes, u) == Lookup(st.userStakes, u) + g.stake
      && GoalsIn(st'.goals, u) == GoalsIn(st.goals, u) + [g]
      && (forall v :: v != u ==> GoalsIn(st'.goals, v) == GoalsIn(st.goals, v))
  {
  }

  /**
   * A check-in settling goal `i` of `u` into `g'` can pay out: a goal that ends releases a stake
   * that is both recorded for the user and held by the ledger.
   */
  predicate Payable(st: Storage, self: Address, u: Address, i: nat, g': Goal)
  {
    && i < |GoalsIn(st.goals, u)|
    && (StatusOf(g') != Active ==>
          && GoalsIn(st.goals, u)[i].stake <= Lookup(st.userStakes, u)
          && GoalsIn(st.goals, u)[i].stake <= Lookup(st.balances, self))
  }

  /**
   * An accepted `checkInHabit`: goal `i` of `u` becomes `g'`; a completed goal releases its stake
   * to the user with the bonus and records the minted token; a failed goal burns its stake.
   */
  function Settled(st: Storage, self: Address, u: Address, i: nat, g': Goal, minted: seq<nat>): Storage
    requires Payable(st, self, u, i, g')
  {
    var g := GoalsIn(st.goals, u)[i];
    var recorded := st.(goals := st.goals[u := GoalsIn(st.goals, u)[i := g']],
                        events := st.events + CheckInEvents(u, i, g, g'));
    match StatusOf(g')
    case Active => recorded
    case Failed =>
      recorded.(userStakes := st.userStakes[u := Lookup(st.userStakes, u) - g.stake],
                balances := st.balances[self := Lookup(st.balances, self) - g.stake])
    case Completed =>
      var burned := st.balances[self := Lookup(st.balances, self) - g.stake];
      recorded.(userStakes := st.userStakes[u := Lookup(st.userStakes, u) - g.stake],
                userNFTs := st.userNFTs[u := TokensIn(st.userNFTs, u) + minted],
                balances := burned[u := Lookup(burned, u) + g.stake + Bonus(g.stake)])
  }

  /** In a sound ledger the settlement of every active goal is payable. */
  lemma SoundIsPayable(self: Address, st: Storage, owners: map<nat, Address>, u: Address, i: nat, g': Goal)
    requires Sound(self, st, owners)
    requires i < |GoalsIn(st.goals, u)| && StatusOf(GoalsIn(st.goals, u)[i]) == Active
    ensures Payable(st, self, u, i, g')
  {
    StakeInEscrow(st.users, st.goals, u, i);
  }

  /**
   * Settling an active goal into its successor keeps the ledger sound, given the tokens minted
   * for it (one for a completed goal, none otherwise) on a minter that only added owners.
   */
  lemma SettleKeepsSound(self: Address, st: Storage, owners: map<nat, Address>, u: Address, i: nat,
                         g': Goal, minted: seq<nat>, owners': map<nat, Address>)
    requires Sound(self, st, owners) && u != self
    requires i < |GoalsIn(st.goals, u)| && StatusOf(GoalsIn(st.goals, u)[i]) == Active
    requires GoalOk(g') && g'.stake == GoalsIn(st.goals, u)[i].stake
    requires |minted| == CompletedMark(g')
    requires forall id :: id in owners ==> id in owners' && owners'[id] == owners[id]
    requires forall k :: 0 <= k < |minted| ==> minted[k] in owners' && owners'[minted[k]] == u
    ensures Payable(st, self, u, i, g')
    ensures Sound(self, Settled(st, self, u, i, g', minted), owners')
  {
    SoundIsPayable(self, st, owners, u, i, g');
    var mine := GoalsIn(st.goals, u);
    var gs := mine[i := g'];
    var st' := Settled(st, self, u, i, g', minted);
    var reserve := Lookup(st.balances, self);
    SumsUpdate(mine, i, g');
    assert mine[i] in mine;
    assert u in st.users;
    if minted == [] {
      assert TokensIn(st.userNFTs, u) + minted == TokensIn(st.userNFTs, u);
    }
    SetKeepsSound(self, st, owners, u, gs, minted, st', owners');
  }

  /**
   * What a settlement pays: completion returns the stake plus the bonus to the user and releases
   * it from the ledger; failure burns the stake from the ledger; an active goal moves no tokens.
   */
  lemma SettlePays(st: Storage, self: Address, u: Address, i: nat, g': Goal, minted: seq<nat>)
    requires u != self && Payable(st, self, u, i, g')
    requires StatusOf(GoalsIn(st.goals, u)[i]) == Active
    ensures var g := GoalsIn(st.goals, u)[i];
      var st' := Settled(st, self, u, i, g', minted);
      && GoalsIn(st'.goals, u) == GoalsIn(st.goals, u)[i := g']
      && (StatusOf(g') == Active ==> st'.balances == st.balances && Lookup(st'.userStakes, u) == Lookup(st.userStakes, u))
      && (StatusOf(g') != Active ==> Lookup(st'.userStakes, u) + g.stake == Lookup(st.userStakes, u))
      && (StatusOf(g') != Active ==> Lookup(st'.balances, self) + g.stake == Lookup(st.balances, self))
      && (StatusOf(g') == Failed ==> Lookup(st'.balances, u) == Lookup(st.balances, u))
      && (StatusOf(g') == Completed ==>
            && Lookup(st'.balances, u) == Lookup(st.balances, u) + g.stake + Bonus(g.stake)
            && TokensIn(st'.userNFTs, u) == TokensIn(st.userNFTs, u) + minted)
      && (StatusOf(g') != Completed ==> st'.userNFTs == st.userNFTs)
      && (forall a :: a != u && a != self ==> Lookup(st'.balances, a) == Lookup(st.balances, a))
  {
  }

  // ---------------------------------------------------------------------------
  // The contract

  class GoalForge {
    const self: Address
    const resetStreakOnMiss: bool
    const nft: AchievementMinter.GoalForgeNFT
    var s: Storage

    /** `balanceOf(a)`. */
    function BalanceOf(a: Address): nat
      reads this
    {
      Lookup(s.balances, a)
    }

    /** `getUserGoals(u)`. */
    function GoalsOf(u: Address): seq<Goal>
      reads this
    {
      GoalsIn(s.goals, u)
    }

    /** `userStakes(u)`. */
    function StakeOf(u: Address): nat
      reads this
    {
      Lookup(s.userStakes, u)
    }

    /** `getUserNFTs(u)`. */
    function NFTsOf(u: Address): seq<nat>
      reads this
    {
      TokensIn(s.userNFTs, u)
    }

    /** `getAllGoals()`: an entry belongs to it exactly when its goal belongs to its registered user. */
    function AllGoals(): (all: seq<UserGoal>)
      reads this
      ensures forall e :: e in all <==> e.user in s.users && e.goal in GoalsOf(e.user)
      ensures |all| == GoalCount(s.users, s.goals)
    {
      var all := AllGoalsOf(s.users, s.goals);
      assert forall e :: e in all <==> e.user in s.users && e.goal in GoalsOf(e.user) by {
        forall e
          ensures e in all <==> e.user in s.users && e.goal in GoalsOf(e.user)
        {
          AllGoalsMembership(s.users, s.goals, e);
        }
      }
      AllGoalsLength(s.users, s.goals);
      all
    }

    /** The ledger's invariant. */
    ghost predicate Valid()
      reads this, nft
    {
      && nft.Valid()
      && self != ZeroAddress
      && Sound(self, s, nft.owners)
    }

    /** An externally owned account calling in: never the zero address, never the ledger itself. */
    predicate IsExternal(a: Address)
    {
      a != ZeroAddress && a != self
    }

    /** Deployment: the initial supply goes to the deployer; no user, goal or stake exists. */
    constructor (deployer: Address, ledgerAddress: Address, minter: AchievementMinter.GoalForgeNFT, resetStreak: bool)
      requires deployer != ZeroAddress && ledgerAddress != ZeroAddress && deployer != ledgerAddress
      requires minter.Valid()
      ensures Valid()
      ensures self == ledgerAddress && nft == minter && resetStreakOnMiss == resetStreak
      ensures s == Storage(map[deployer := InitialSupply], {}, map[], [], map[], map[], [])
    {
      self := ledgerAddress;
      resetStreakOnMiss := resetStreak;
      nft := minter;
      s := Storage(map[deployer := InitialSupply], {}, map[], [], map[], map[], []);
    }

    /** `onboard()`: a one-time grant of 100 GOAL to the caller. */
    method Onboard(caller: Address) returns (r: Result<(), LedgerError>)
      requires Valid() && IsExternal(caller)
      modifies this`s
      ensures Valid()
      ensures caller in old(s.onboarded) ==> r == Err(AlreadyOnboarded) && s == old(s)
      ensures caller !in old(s.onboarded) ==> r == Ok(()) && s == Granted(old(s), caller)
    {
      if caller in s.onboarded {
        return Err(AlreadyOnboarded);
      }
      GrantKeepsSound(self, s, nft.owners, caller);
      s := Granted(s, caller);
      r := Ok(());
    }

    /** ERC-20 `transfer(to, amount)` from the caller. */
    method Transfer(caller: Address, to: Address, amount: nat) returns (r: Result<(), LedgerError>)
      requires Valid() && IsExternal(caller)
      modifies this`s
      ensures Valid()
      ensures to == ZeroAddress ==> r == Err(ERC20InvalidReceiver(to))
      ensures to != ZeroAddress && amount > old(BalanceOf(caller)) ==> r == Err(ERC20InsufficientBalance(caller))
      ensures r.Ok? <==> to != ZeroAddress && amount <= old(BalanceOf(caller))
      ensures r.Err? ==> s == old(s)
      ensures r.Ok? ==> s == Moved(old(s), caller, to, amount)
    {
      if to == ZeroAddress {
        return Err(ERC20InvalidReceiver(to));
      }
      if BalanceOf(caller) < amount {
        return Err(ERC20InsufficientBalance(caller));
      }
      MoveKeepsSound(self, s, nft.owners, caller, to, amount);
      s := Moved(s, caller, to, amount);
      r := Ok(());
    }

    /**
     * `createHabit(habitType, totalDays, lives, stake, username)`: validates its arguments in
     * this order, then escrows the stake and appends the goal.
     */
    method CreateHabit(caller: Address, habitType: Habit, totalDays: nat, lives: nat, stake: nat,
                       username: string, now: Timestamp)
      returns (r: Result<nat, LedgerError>)
      requires Valid() && IsExternal(caller)
      modifies this`s
      ensures Valid()
      ensures totalDays == 0 ==> r == Err(ZeroDays)
      ensures totalDays > 0 && lives > MaxLives ==> r == Err(TooManyLives)
      ensures totalDays > 0 && lives <= MaxLives && stake == 0 ==> r == Err(ZeroStake)
      ensures totalDays > 0 && lives <= MaxLives && stake > 0 && stake > old(BalanceOf(caller)) ==>
                r == Err(InsufficientBalance)
      ensures r.Ok? <==> totalDays > 0 && lives <= MaxLives && stake > 0 && stake <= old(BalanceOf(caller))
      ensures r.Err? ==> s == old(s)
      ensures r.Ok? ==>
        && r.value == old(|GoalsOf(caller)|)
        && s == Opened(old(s), self, caller, NewGoal(habitType, totalDays, lives, stake, username, now))
    {
      if totalDays == 0 {
        return Err(ZeroDays);
      }
      if lives > MaxLives {
        return Err(TooManyLives);
      }
      if stake == 0 {
        return Err(ZeroStake);
      }
      if BalanceOf(caller) < stake {
        return Err(InsufficientBalance);
      }
      var g := NewGoal(habitType, totalDays, lives, stake, username, now);
      r := Ok(|GoalsOf(caller)|);
      OpenKeepsSound(self, s, nft.owners, caller, g);
      s := Opened(s, self, caller, g);
    }

    /**
     * `checkInHabit(i, success)`. A completing check-in mints the achievement token first, so a
     * minter that refuses the ledger reverts the whole call. What a check-in on an already settled
     * goal does is not fixed by the contract's tests, so such calls are excluded by the precondition.
     */
    method CheckInHabit(caller: Address, i: nat, success: bool, now: Timestamp)
      returns (r: Result<Status, LedgerError>)
      requires Valid() && IsExternal(caller)
      requires i < |GoalsOf(caller)| ==> StatusOf(GoalsOf(caller)[i]) == Active
      modifies this`s, nft
      ensures Valid()
      ensures i >= old(|GoalsOf(caller)|) ==> r == Err(InvalidGoalIndex)
      ensures r.Err? ==> s == old(s) && unchanged(nft)
      ensures i < old(|GoalsOf(caller)|) ==>
        var g' := AfterCheckIn(old(GoalsOf(caller))[i], success, resetStreakOnMiss);
        if StatusOf(g') == Completed && old(nft.owner) != self then
          r == Err(MintRejected(AchievementMinter.OwnableUnauthorizedAccount(self)))
        else
          && r == Ok(StatusOf(g'))
          && Payable(old(s), self, caller, i, g')
          && s == Settled(old(s), self, caller, i, g',
                          if StatusOf(g') == Completed then [old(nft.nextTokenId)] else [])
          && (StatusOf(g') != Completed ==> unchanged(nft))
          && (StatusOf(g') == Completed ==>
                && nft.owner == old(nft.owner)
                && nft.nextTokenId == old(nft.nextTokenId) + 1
                && nft.owners == old(nft.owners)[old(nft.nextTokenId) := caller]
                && nft.metadata == old(nft.metadata)[old(nft.nextTokenId) :=
                     AchievementMinter.Metadata(g'.habitType, g'.totalDays, now)]
                && nft.log == old(nft.log) + [AchievementMinter.NFTMinted(caller, old(nft.nextTokenId), g'.habitType)])
    {
      var mine := GoalsOf(caller);
      if i >= |mine| {
        return Err(InvalidGoalIndex);
      }
      var g' := AfterCheckIn(mine[i], success, resetStreakOnMiss);
      var status := StatusOf(g');
      var minted: seq<nat> := [];
      ghost var owners := nft.owners;
      if status == Completed {
        var m := nft.Mint(self, caller, g'.habitType, g'.totalDays, now);
        if m.Err? {
          return Err(MintRejected(m.error));
        }
        minted := [m.value];
      }
      SettleKeepsSound(self, s, owners, caller, i, g', minted, nft.owners);
      s := Settled(s, self, caller, i, g', minted);
      r := Ok(status);
    }
  }
}

=== FILE: HabitCatalog.dfy ===
/**
 * The fixed habit enumeration shared by the ledger and the verification routes
 * (0 = Coding, 1 = DSA, 2 = Gym, 3 = Yoga, 4 = Running), the client-side lookup
 * tables of src/lib/verification.js, and the goal titles the ledger derives from a habit.
 */
module HabitCatalog {
  import opened Wrappers
  import opened Text

  datatype Habit = Coding | DSA | Gym | Yoga | Running

  /** The on-chain / JSON code of a habit. */
  function Code(h: Habit): (t: nat)
    ensures t <= 4
  {
    match h
    case Coding => 0
    case DSA => 1
    case Gym => 2
    case Yoga => 3
    case Running => 4
  }

  /** Decoding a habit code; codes outside 0..4 name no habit. */
  function FromCode(t: int): (r: Option<Habit>)
    ensures r.Some? <==> 0 <= t <= 4
    ensures r.Some? ==> Code(r.value) == t
  {
    if t == 0 then Some(Coding)
    else if t == 1 then Some(DSA)
    else if t == 2 then Some(Gym)
    else if t == 3 then Some(Yoga)
    else if t == 4 then Some(Running)
    else None
  }

  lemma CodeRoundTrip(h: Habit)
    ensures FromCode(Code(h)) == Some(h)
  {
  }

  const HabitNames: seq<string> := ["Coding", "DSA", "Gym", "Yoga", "Running"]

  const ProofHints: seq<string> := [
    "Your GitHub contributions will be automatically checked. You can also describe what you coded today.",
    "Share a link to your solved problem or describe which problems you worked on (e.g., LeetCode #123).",
    "Connect Google Fit for auto-tracking, or describe your workout (exercises, duration, etc.).",
    "Connect Google Fit for auto-tracking, or describe your yoga session (poses, duration, app used).",
    "Connect Google Fit for auto-tracking, or share your run details (distance, time, route)."
  ]

  const ProofPlaceholders: seq<string> := [
    "e.g., Worked on GoalForge project - added verification API, committed 3 times to main branch...",
    "e.g., Solved LeetCode #217 (Two Sum) and #49 (Group Anagrams) using hash maps...",
    "e.g., 45 min session: bench press 4x8, squats 4x10, deadlift 3x5, 15 min cardio...",
    "e.g., 30 min Vinyasa flow session using Down Dog app - included sun salutations, warrior poses...",
    "e.g., Ran 5km in 28 minutes around Central Park, tracked with Strava..."
  ]

  const DefaultHint: string := "Describe how you completed this task."
  const DefaultPlaceholder: string := "Describe your progress..."

  /** `getHabitName`: the table entry for a known code, "Unknown" for every other value. */
  function HabitName(t: int): (name: string)
    ensures name != "Unknown" <==> 0 <= t <= 4
    ensures 0 <= t <= 4 ==> name == HabitNames[t]
  {
    if 0 <= t < |HabitNames| then HabitNames[t] else "Unknown"
  }

  /** `getProofHint`: the table entry for a known code, the generic hint otherwise. */
  function ProofHint(t: int): (hint: string)
    ensures hint != DefaultHint <==> 0 <= t <= 4
    ensures 0 <= t <= 4 ==> hint == ProofHints[t]
  {
    if 0 <= t < |ProofHints| then ProofHints[t] else DefaultHint
  }

  /** `getProofPlaceholder`: the table entry for a known code, the generic placeholder otherwise. */
  function ProofPlaceholder(t: int): (text: string)
    ensures text != DefaultPlaceholder <==> 0 <= t <= 4
    ensures 0 <= t <= 4 ==> text == ProofPlaceholders[t]
  {
    if 0 <= t < |ProofPlaceholders| then ProofPlaceholders[t] else DefaultPlaceholder
  }

  /** `isAutoVerifiable`: only Coding is verified from GitHub without a judge. */
  predicate IsAutoVerifiable(t: int)
  {
    t == 0
  }

  /** `needsFitnessTracker`: Gym, Yoga and Running. */
  predicate NeedsFitnessTracker(t: int)
  {
    2 <= t <= 4
  }

  /** No habit type is both auto-verifiable and fitness-tracked, and each of them is a known habit. */
  lemma AutoAndFitnessDisjoint(t: int)
    ensures !(IsAutoVerifiable(t) && NeedsFitnessTracker(t))
    ensures (IsAutoVerifiable(t) || NeedsFitnessTracker(t)) ==> FromCode(t).Some?
  {
  }

  /** The two kinds, read on the habit enumeration: Coding, and Gym, Yoga or Running. */
  lemma VerificationKinds(t: int)
    ensures IsAutoVerifiable(t) <==> FromCode(t) == Some(Coding)
    ensures NeedsFitnessTracker(t) <==> FromCode(t) in {Some(Gym), Some(Yoga), Some(Running)}
  {
  }

  const FitAuthPrefix: string := "/api/verify/fitness?action=auth&wallet="

  /** `getGoogleFitAuthUrl`: the fixed route followed by the wallet ("" when there is none). */
  function GoogleFitAuthUrl(wallet: string): (url: string)
    ensures IsPrefix(FitAuthPrefix, url)
    ensures url[|FitAuthPrefix|..] == wallet
  {
    FitAuthPrefix + wallet
  }

  /** The wallet can be read back from the URL, so distinct wallets give distinct URLs. */
  lemma AuthUrlInjective(w1: string, w2: string)
    requires GoogleFitAuthUrl(w1) == GoogleFitAuthUrl(w2)
    ensures w1 == w2
  {
    assert w1 == GoogleFitAuthUrl(w1)[|FitAuthPrefix|..];
  }

  /** The title the ledger gives a new goal of each habit. */
  function Title(h: Habit): (title: string)
    ensures |title| > 0
  {
    match h
    case Coding => "Level Up Your Coding Skills!"
    case DSA => "Master DSA Skills"
    case Gym => "Gym Training Goal"
    case Yoga => "Daily Yoga Practice"
    case Running => "Running Challenge"
  }

  /** Titles tell habits apart. */
  lemma TitleInjective(h1: Habit, h2: Habit)
    requires Title(h1) == Title(h2)
    ensures h1 == h2
  {
  }
}

=== FILE: JsValues.dfy ===
/**
 * The few JavaScript values the verification routes pass around untyped (fields of parsed JSON
 * bodies), with JavaScript's truthiness and the `a || b` default.
 */
module JsValues {
  import opened Text

  /** A JSON-derived value; numbers are whole numbers, and every object is `Compound`. */
  datatype JsValue = Undefined | Null | Bool(b: bool) | Num(n: int) | Str(s: string) | Arr(items: seq<JsValue>) | Compound

  /** JavaScript truthiness: `false`, `0`, `""`, `null` and `undefined` are falsy. */
  predicate Truthy(v: JsValue)
  {
    match v
    case Bool(b) => b
    case Num(n) => n != 0
    case Str(s) => s != ""
    case Arr(_) => true
    case Compound => true
    case _ => false
  }

  /** `v || fallback`. */
  function Or(v: JsValue, fallback: JsValue): (r: JsValue)
    ensures Truthy(v) ==> r == v
    ensures !Truthy(v) ==> r == fallback
    ensures Truthy(fallback) ==> Truthy(r)
  {
    if Truthy(v) then v else fallback
  }

  /**
   * `String(v)`, as a template literal writes it: an array joins its elements with commas, an
   * element that is `null` or `undefined` printing as nothing, and an object prints as a plain
   * object does.
   */
  function ToJsString(v: JsValue): (s: string)
    ensures v.Str? ==> s == v.s
    ensures v == Arr([]) ==> s == ""
    ensures v.Arr? && |v.items| == 1 ==> s == ElementString(v.items[0])
    ensures !v.Str? && !v.Arr? ==> |s| > 0
    decreases v, 0
  {
    match v
    case Undefined => "undefined"
    case Null => "null"
    case Bool(b) => if b then "true" else "false"
    case Num(n) => IntToString(n)
    case Str(t) => t
    case Arr(items) => Elements(items)
    case Compound => "[object Object]"
  }

  /** The elements of an array, each as `join` prints it, separated by commas. */
  function Elements(items: seq<JsValue>): (s: string)
    decreases items, 2
  {
    if items == [] then ""
    else if |items| == 1 then ElementString(items[0])
    else ElementString(items[0]) + "," + Elements(items[1..])
  }

  /** One element of an array as `Array.prototype.join` prints it. */
  function ElementString(v: JsValue): (s: string)
    ensures v.Null? || v.Undefined? ==> s == ""
    ensures !v.Null? && !v.Undefined? ==> s == ToJsString(v)
    decreases v, 1
  {
    if v.Null? || v.Undefined? then "" else ToJsString(v)
  }

  /** `v >= bound` for a number; every other kind of value compares false here. */
  predicate AtLeast(v: JsValue, bound: int)
  {
    v.Num? && v.n >= bound
  }

  /** An array prints as `join(",")` of its elements' strings. */
  lemma {:induction false} ArrayJoin(items: seq<JsValue>)
    ensures ToJsString(Arr(items)) == Join(seq(|items|, i requires 0 <= i < |items| => ElementString(items[i])), ",")
    decreases |items|
  {
    if |items| > 1 {
      ArrayJoin(items[1..]);
      var parts := seq(|items|, i requires 0 <= i < |items| => ElementString(items[i]));
      assert parts[1..] == seq(|items[1..]|, i requires 0 <= i < |items[1..]| => ElementString(items[1..][i]));
    }
  }
}

=== FILE: LlmJudge.dfy ===
/**
 * The LLM judge behind `POST /api/verify/llm`: configuration and habit checks, assembly of the
 * evidence bundle, the provider call, recovery of a JSON object from the model's text, and
 * normalisation of the verdict. The provider's reply and `JSON.parse` are inputs.
 */
module LlmJudge {
  import opened Wrappers
  import opened Text
  import opened JsValues
  import HabitCatalog

  const Model: string := "openai/gpt-4o-mini"
  const PartSeparator: string := "\n\n---\n\n"

  /**
   * The request body. `githubData` and `fitnessData` are the pretty-printed JSON of those fields
   * (None when the field is falsy); `proofText` and `proofImageUrl` are the strings sent.
   */
  datatype Request = Request(habitType: int, proofText: Option<string>, proofImageUrl: Option<string>,
                             githubData: Option<string>, fitnessData: Option<string>)

  /** A field JavaScript treats as present: defined and not empty. */
  predicate Present(o: Option<string>)
  {
    o.Some? && o.value != ""
  }

  /** The four kinds of evidence, in the order the bundle lists them. */
  datatype Evidence = GitHubEvidence | FitnessEvidence | TextEvidence | ImageEvidence

  const EvidenceOrder: seq<Evidence> := [GitHubEvidence, FitnessEvidence, TextEvidence, ImageEvidence]

  /** The request field behind each kind of evidence. */
  function Field(req: Request, e: Evidence): Option<string>
  {
    match e
    case GitHubEvidence => req.githubData
    case FitnessEvidence => req.fitnessData
    case TextEvidence => req.proofText
    case ImageEvidence => req.proofImageUrl
  }

  /** How one present piece of evidence is written into the bundle. */
  function Render(e: Evidence, text: string): string
  {
    match e
    case GitHubEvidence => "GitHub Activity Data:\n" + text
    case FitnessEvidence => "Fitness Tracker Data:\n" + text
    case TextEvidence => "User's Proof Description:\n" + text
    case ImageEvidence => "User has also submitted a proof image (URL: " + text + ")"
  }

  /** The position of a kind in the bundle order. */
  function Rank(e: Evidence): (r: nat)
    ensures r < |EvidenceOrder| && EvidenceOrder[r] == e
  {
    match e
    case GitHubEvidence => 0
    case FitnessEvidence => 1
    case TextEvidence => 2
    case ImageEvidence => 3
  }

  /** How many of the first `r` kinds of the bundle order the request carries. */
  function PresentBelow(req: Request, r: nat): (n: nat)
    requires r <= |EvidenceOrder|
    ensures n <= r
  {
    if r == 0 then 0
    else PresentBelow(req, r - 1) + (if Present(Field(req, EvidenceOrder[r - 1])) then 1 else 0)
  }

  /** A kind that comes later in the bundle order and is present sits at a later position. */
  lemma {:induction false} PresentBelowGrows(req: Request, r1: nat, r2: nat)
    requires r1 < r2 <= |EvidenceOrder| && Present(Field(req, EvidenceOrder[r1]))
    ensures PresentBelow(req, r1) < PresentBelow(req, r2)
  {
    if r2 > r1 + 1 {
      PresentBelowGrows(req, r1, r2 - 1);
    }
  }

  /** The parts written for the first `r` kinds of the bundle order. */
  function PartsBelow(req: Request, r: nat): seq<string>
    requires r <= |EvidenceOrder|
  {
    if r == 0 then []
    else
      var e := EvidenceOrder[r - 1];
      PartsBelow(req, r - 1) + (if Present(Field(req, e)) then [Render(e, Field(req, e).value)] else [])
  }

  /**
   * The bundle holds one part per present kind, in bundle order (github, fitness, text, image):
   * the part for a present kind sits after the parts of the present kinds before it.
   */
  lemma {:induction false} PartsBelowSpec(req: Request, r: nat)
    requires r <= |EvidenceOrder|
    ensures |PartsBelow(req, r)| == PresentBelow(req, r)
    ensures forall e :: Rank(e) < r && Present(Field(req, e)) ==>
      PresentBelow(req, Rank(e)) < |PartsBelow(req, r)| &&
      PartsBelow(req, r)[PresentBelow(req, Rank(e))] == Render(e, Field(req, e).value)
  {
    if r > 0 {
      PartsBelowSpec(req, r - 1);
      var before := PartsBelow(req, r - 1);
      forall e | Rank(e) < r && Present(Field(req, e))
        ensures PresentBelow(req, Rank(e)) < |PartsBelow(req, r)|
        ensures PartsBelow(req, r)[PresentBelow(req, Rank(e))] == Render(e, Field(req, e).value)
      {
        if Rank(e) < r - 1 {
          assert PartsBelow(req, r)[PresentBelow(req, Rank(e))] == before[PresentBelow(req, Rank(e))];
        }
      }
    }
  }

  /** The conditional pushes that build `proofParts`. */
  method BuildParts(req: Request) returns (parts: seq<string>)
    ensures parts == PartsBelow(req, |EvidenceOrder|)
  {
    parts := [];
    if Present(req.githubData) {
      parts := parts + [Render(GitHubEvidence, req.githubData.value)];
    }
    assert parts == PartsBelow(req, 1);
    if Present(req.fitnessData) {
      parts := parts + [Render(FitnessEvidence, req.fitnessData.value)];
    }
    assert parts == PartsBelow(req, 2);
    if Present(req.proofText) {
      parts := parts + [Render(TextEvidence, req.proofText.value)];
    }
    assert parts == PartsBelow(req, 3);
    if Present(req.proofImageUrl) {
      parts := parts + [Render(ImageEvidence, req.proofImageUrl.value)];
    }
  }

  /** The bundle is empty exactly when the request carries no evidence at all. */
  lemma {:induction false} NoPartsNoEvidence(req: Request)
    ensures PartsBelow(req, |EvidenceOrder|) == [] <==> forall e :: !Present(Field(req, e))
  {
    PartsBelowSpec(req, |EvidenceOrder|);
    forall e | Present(Field(req, e))
      ensures PartsBelow(req, |EvidenceOrder|) != []
    {
      assert Rank(e) < |EvidenceOrder|;
    }
    if forall e :: !Present(Field(req, e)) {
      assert !Present(Field(req, EvidenceOrder[0])) && !Present(Field(req, EvidenceOrder[1]));
      assert !Present(Field(req, EvidenceOrder[2])) && !Present(Field(req, EvidenceOrder[3]));
    }
  }

  /** The message sent as the user turn. */
  function UserMessage(habitName: string, today: string, parts: seq<string>): string
  {
    "Please verify the following proof for a " + habitName + " task completion on " + today + ":\n\n" +
    Join(parts, PartSeparator)
  }

  // ---------------------------------------------------------------------------
  // Recovering the JSON object

  /** The first position of `c` in `s`. */
  function IndexOf(s: string, c: char): (r: Option<nat>)
    ensures r.Some? <==> c in s
    ensures r.Some? ==> r.value < |s| && s[r.value] == c && forall k :: 0 <= k < r.value ==> s[k] != c
  {
    if s == [] then None
    else if s[0] == c then Some(0)
    else
      var r := IndexOf(s[1..], c);
      assert forall k :: 1 <= k < |s| ==> s[k] == s[1..][k - 1];
      if r.Some? then Some(r.value + 1) else None
  }

  /** The last position of `c` in `s`. */
  function LastIndexOf(s: string, c: char): (r: Option<nat>)
    ensures r.Some? <==> c in s
    ensures r.Some? ==> r.value < |s| && s[r.value] == c && forall k :: r.value < k < |s| ==> s[k] != c
  {
    if s == [] then None
    else if s[|s| - 1] == c then Some(|s| - 1)
    else
      var r := LastIndexOf(s[..|s| - 1], c);
      assert forall k :: 0 <= k < |s| - 1 ==> s[k] == s[..|s| - 1][k];
      r
  }

  /**
   * `content.match(/\{[\s\S]*\}/)`: the piece of the content from its first `{` to its last `}`.
   * There is none exactly when no `{` is followed by a `}`; otherwise the piece starts at the
   * first `{`, closes with `}`, and no `}` follows it.
   */
  function Extract(content: string): (r: Option<string>)
    ensures r.None? <==> forall a, b :: 0 <= a < b < |content| && content[a] == '{' ==> content[b] != '}'
    ensures r.Some? ==>
      && IndexOf(content, '{').Some?
      && var i := IndexOf(content, '{').value;
         && |r.value| >= 2 && r.value[0] == '{' && r.value[|r.value| - 1] == '}'
         && i + |r.value| <= |content| && content[i..i + |r.value|] == r.value
         && (forall k :: i + |r.value| <= k < |content| ==> content[k] != '}')
  {
    match (IndexOf(content, '{'), LastIndexOf(content, '}'))
    case (Some(i), Some(j)) =>
      if i < j then
        var x := content[i..j + 1];
        assert content[i..i + |x|] == x;
        Some(x)
      else None
    case _ => None
  }

  // ---------------------------------------------------------------------------
  // The verdict

  /**
   * What `JSON.parse` gave back: `null` (reading a field of it throws), or a value whose three
   * fields read as given (all `Undefined` for anything that is not an object).
   */
  datatype Parsed = ParsedNull | ParsedValue(verified: JsValue, confidence: JsValue, reason: JsValue)

  datatype Verdict = Verdict(verified: bool, confidence: JsValue, reason: JsValue)

  const NoReason: string := "No reason provided"

  /** `verified === true`, `confidence || 0`, `reason || "No reason provided"`. */
  function Normalise(p: Parsed): (v: Verdict)
    requires p.ParsedValue?
    ensures v.verified <==> p.verified == Bool(true)
    ensures Truthy(v.reason) && (v.reason == p.reason || v.reason == Str(NoReason))
    ensures Truthy(p.reason) ==> v.reason == p.reason
    ensures Truthy(p.confidence) ==> v.confidence == p.confidence
    ensures !Truthy(p.confidence) ==> v.confidence == Num(0)
  {
    Verdict(p.verified == Bool(true), Or(p.confidence, Num(0)), Or(p.reason, Str(NoReason)))
  }

  /** The provider's reply: a non-2xx status with its error message if any, or the first choice's content. */
  datatype ProviderReply = ProviderError(status: int, message: Option<string>) | ProviderOk(content: Option<string>)

  datatype Response =
    | Judged(verdict: Verdict, model: string, habitType: int, habitName: string)
    | NotConfigured                   // 501
    | InvalidHabit                    // 400
    | NoProof                         // 400
    | Failed(details: Option<string>) // 500; None stands for the runtime's own error text

  /** The chat completion request: the habit whose system prompt is used, and the user turn. */
  datatype Call = Completion(habitName: string, userMessage: string)

  /** The text read back from a successful reply, or why there is none. */
  function ReadVerdict(content: string, parse: string -> Option<Parsed>): (r: Result<Verdict, Option<string>>)
    ensures r.Ok? ==> Truthy(r.value.reason)
    ensures parse(content).Some? ==> (r.Ok? <==> parse(content).value.ParsedValue?)
    ensures parse(content).Some? && parse(content).value.ParsedValue? ==> r == Ok(Normalise(parse(content).value))
    ensures (r.Err? && r.error.Some?) <==> parse(content).None? && Extract(content).None?
    ensures parse(content).None? && Extract(content).Some? ==>
      var fallback := parse(Extract(content).value);
      && (fallback.None? ==> r == Err(None))
      && (fallback.Some? && fallback.value.ParsedValue? ==> r == Ok(Normalise(fallback.value)))
      && (fallback.Some? && fallback.value.ParsedNull? ==> r == Err(None))
  {
    var direct := parse(content);
    var parsed :=
      if direct.Some? then Ok(direct.value)
      else match Extract(content)
        case None => Err(Some("Failed to parse verification response"))
        case Some(x) => if parse(x).Some? then Ok(parse(x).value) else Err(None);
    match parsed
    case Err(e) => Err(e)
    case Ok(p) => if p.ParsedNull? then Err(None) else Ok(Normalise(p))
  }

  /**
   * `POST /api/verify/llm`. Without an API key it answers 501 and reads nothing; an unknown habit is
   * 400; an empty bundle is 400 "No proof provided"; otherwise it calls the provider once, and
   * every provider failure, empty answer or unreadable answer becomes a 500.
   */
  method Judge(configured: bool, req: Request, today: string, reply: ProviderReply,
               parse: string -> Option<Parsed>)
    returns (resp: Response, calls: seq<Call>)
    ensures !configured ==> resp == NotConfigured && calls == []
    ensures configured && HabitCatalog.FromCode(req.habitType).None? ==> resp == InvalidHabit && calls == []
    ensures configured && HabitCatalog.FromCode(req.habitType).Some? && (forall e :: !Present(Field(req, e))) ==>
      resp == NoProof && calls == []
    ensures configured && HabitCatalog.FromCode(req.habitType).Some? && (exists e :: Present(Field(req, e))) ==>
      && calls == [Completion(HabitCatalog.HabitName(req.habitType),
                              UserMessage(HabitCatalog.HabitName(req.habitType), today, PartsBelow(req, |EvidenceOrder|)))]
      && (reply.ProviderError? ==>
            resp == Failed(Some("OpenRouter API error: " + IntToString(reply.status) + " - " +
                                (if Present(reply.message) then reply.message.value else "Unknown error"))))
      && (reply.ProviderOk? && !Present(reply.content) ==> resp == Failed(Some("No response from verification model")))
      && (reply.ProviderOk? && Present(reply.content) ==>
            match ReadVerdict(reply.content.value, parse)
            case Ok(v) => resp == Judged(v, Model, req.habitType, HabitCatalog.HabitName(req.habitType))
            case Err(e) => resp == Failed(e))
    ensures resp.Judged? ==> Truthy(resp.verdict.reason)
  {
    if !configured {
      return NotConfigured, [];
    }
    var habit := HabitCatalog.FromCode(req.habitType);
    if habit.None? {
      return InvalidHabit, [];
    }
    var name := HabitCatalog.HabitName(req.habitType);
    var parts := BuildParts(req);
    NoPartsNoEvidence(req);
    if |parts| == 0 {
      return NoProof, [];
    }
    calls := [Completion(name, UserMessage(name, today, parts))];
    if reply.ProviderError? {
      var message := if Present(reply.message) then reply.message.value else "Unknown error";
      return Failed(Some("OpenRouter API error: " + IntToString(reply.status) + " - " + message)), calls;
    }
    if !Present(reply.content) {
      return Failed(Some("No response from verification model")), calls;
    }
    var read := ReadVerdict(reply.content.value, parse);
    if read.Err? {
      return Failed(read.error), calls;
    }
    resp := Judged(read.value, Model, req.habitType, name);
  }
}

=== FILE: PrivateKey.dfy ===
/**
 * The deployer key handling of the Hardhat configuration: the `PRIVATE_KEY` environment value is
 * trimmed, given a `0x` prefix when it has none, and accepted only as 32 bytes of hex; the live
 * network gets one account for an accepted key and none otherwise.
 */
module PrivateKey {
  import opened Wrappers
  import opened Text

  /** The value the example environment file ships with. */
  const Placeholder: string := "your_private_key_here"

  predicate IsHexDigit(c: char)
  {
    '0' <= c <= '9' || 'a' <= c <= 'f' || 'A' <= c <= 'F'
  }

  /** `/^0x[0-9a-fA-F]{64}$/.test(k)`. */
  predicate IsKeyText(k: string)
  {
    |k| == 66 && k[0] == '0' && k[1] == 'x' && forall i :: 2 <= i < |k| ==> IsHexDigit(k[i])
  }

  /** `normalizePrivateKey(process.env.PRIVATE_KEY)`; an unset variable is None. */
  function Normalize(raw: Option<string>): Option<string>
  {
    if raw.None? || raw.value == "" then None
    else if raw.value == Placeholder then None
    else
      var trimmed := Trim(raw.value);
      var with0x := if IsPrefix("0x", trimmed) then trimmed else "0x" + trimmed;
      if IsKeyText(with0x) then Some(with0x) else None
  }

  /**
   * A value is accepted, as `k`, exactly when it is set, is not the placeholder, and once trimmed
   * is `k` itself or `k` without its `0x`.
   */
  lemma NormalizeSpec(raw: Option<string>, k: string)
    ensures Normalize(raw) == Some(k) <==>
      raw.Some? && raw.value != "" && raw.value != Placeholder && IsKeyText(k) &&
      (Trim(raw.value) == k || "0x" + Trim(raw.value) == k)
  {
    if raw.Some? && IsKeyText(k) && "0x" + Trim(raw.value) == k {
      var t := Trim(raw.value);
      assert !IsPrefix("0x", t) by {
        assert k[3] == t[1] && IsHexDigit(k[3]);
        assert t[..2][1] == t[1];
      }
    }
  }

  /** Whatever is accepted is a `0x` and 64 hex digits. */
  lemma AcceptedIsKey(raw: Option<string>)
    requires Normalize(raw).Some?
    ensures |Normalize(raw).value| == 66
    ensures Normalize(raw).value[..2] == "0x"
    ensures forall i :: 2 <= i < 66 ==> IsHexDigit(Normalize(raw).value[i])
  {
  }

  /** An accepted key normalises to itself. */
  lemma NormalizeIdempotent(raw: Option<string>)
    requires Normalize(raw).Some?
    ensures Normalize(Normalize(raw)) == Normalize(raw)
  {
    var k := Normalize(raw).value;
    assert k != "" && k != Placeholder by {
      assert |k| == 66 && |Placeholder| == 21;
    }
    TrimUntouched(k);
    assert IsPrefix("0x", k);
  }

  /** Hex digits normalise the same with and without the `0x` prefix. */
  lemma PrefixOptional(h: string)
    requires forall i :: 0 <= i < |h| ==> IsHexDigit(h[i])
    ensures Normalize(Some("0x" + h)) == Normalize(Some(h))
  {
    var p := "0x" + h;
    TrimUntouched(p);
    assert IsPrefix("0x", p);
    if h != "" {
      TrimUntouched(h);
      assert !IsPrefix("0x", h) by {
        if |h| >= 2 {
          assert h[..2][1] == h[1] && IsHexDigit(h[1]);
        }
      }
      assert h != Placeholder by {
        assert !IsHexDigit(Placeholder[0]);
      }
    }
  }

  /** The accounts of the live network: the accepted key, or none. */
  function Accounts(raw: Option<string>): seq<string>
  {
    var k := Normalize(raw);
    if k.Some? && k.value != "" then [k.value] else []
  }

  /** There is an account exactly when the key was accepted, and it is that key. */
  lemma AccountsSpec(raw: Option<string>)
    ensures Accounts(raw) == [] <==> Normalize(raw).None?
    ensures Normalize(raw).Some? ==> Accounts(raw) == [Normalize(raw).value]
  {
  }

  /** The configuration warns about a key that is set, is not the placeholder, and was refused. */
  predicate Warns(raw: Option<string>)
  {
    raw.Some? && raw.value != "" && Normalize(raw).None? && raw.value != Placeholder
  }

  /**
   * A warning is given exactly when a real value was set and the network gets no account: an
   * unset value or the placeholder is ignored silently.
   */
  lemma WarnsSpec(raw: Option<string>)
    ensures Warns(raw) <==> raw.Some? && raw.value != "" && raw.value != Placeholder && Accounts(raw) == []
  {
    AccountsSpec(raw);
  }
}

=== FILE: RecentActivity.dfy ===
/**
 * The dashboard's recent-activity list: each goal classified as created, checked in, completed or
 * failed, labelled, and listed most recent first.
 */
module RecentActivity {
  import opened HabitCatalog
  import opened GoalLedger

  datatype TxType = CompletedTx | FailedTx | CheckInTx | CreatedTx

  /** The type's name as the component writes it. */
  function TypeName(t: TxType): string
  {
    match t
    case CompletedTx => "completed"
    case FailedTx => "failed"
    case CheckInTx => "checkin"
    case CreatedTx => "created"
  }

  /** `getTransactionType`: finished goals by outcome, open goals by whether any day is checked in. */
  function TransactionType(g: Goal): (t: TxType)
    ensures t == CompletedTx <==> g.completed && g.verified
    ensures t == FailedTx <==> !g.completed && g.verified
    ensures t == CheckInTx <==> !g.verified && g.progress > 0
    ensures t == CreatedTx <==> !g.verified && g.progress == 0
  {
    if g.completed && g.verified then CompletedTx
    else if !g.completed && g.verified then FailedTx
    else if g.progress > 0 then CheckInTx
    else CreatedTx
  }

  /** On goals the ledger can hold, the type follows the ledger's own status. */
  lemma TypeFollowsStatus(g: Goal)
    requires GoalOk(g)
    ensures TransactionType(g) == CompletedTx <==> StatusOf(g) == Completed
    ensures TransactionType(g) == FailedTx <==> StatusOf(g) == Failed
    ensures TransactionType(g) in {CheckInTx, CreatedTx} <==> StatusOf(g) == Active
  {
  }

  /** `getTransactionLabel`: a label per type name, "Transaction" for anything else. */
  function Label(typeName: string): (text: string)
    ensures text == "Transaction" <==> typeName !in {"completed", "failed", "checkin", "created"}
  {
    if typeName == "completed" then "Goal Completed"
    else if typeName == "failed" then "Goal Failed"
    else if typeName == "checkin" then "Check-In"
    else if typeName == "created" then "Goal Created"
    else "Transaction"
  }

  /** Different types get different labels, none of them the fallback. */
  lemma LabelsDistinct(t1: TxType, t2: TxType)
    requires Label(TypeName(t1)) == Label(TypeName(t2))
    ensures t1 == t2
  {
  }

  /**
   * An entry of the list. `date` is the goal's start in seconds (the component compares the
   * same instants in milliseconds); `stake` stays in the token's smallest unit.
   */
  datatype Transaction = Transaction(id: nat, txType: TxType, title: string, habitType: Habit, stake: nat,
                                     date: int, progress: nat, totalDays: nat)

  function Entry(g: Goal, index: nat): Transaction
  {
    Transaction(index, TransactionType(g), g.title, g.habitType, g.stake, g.startDate, g.progress, g.totalDays)
  }

  /** `habits.map((habit, index) => …)`: one entry per goal, its id the goal's position. */
  function Entries(gs: seq<Goal>): (ts: seq<Transaction>)
    ensures |ts| == |gs|
    ensures forall k :: 0 <= k < |gs| ==> ts[k] == Entry(gs[k], k)
  {
    if gs == [] then [] else Entries(gs[..|gs| - 1]) + [Entry(gs[|gs| - 1], |gs| - 1)]
  }

  /** Most recent first; among equal dates, the earlier position first. */
  predicate Before(a: Transaction, b: Transaction)
  {
    a.date > b.date || (a.date == b.date && a.id < b.id)
  }

  predicate Ordered(ts: seq<Transaction>)
  {
    forall i, j :: 0 <= i < j < |ts| ==> Before(ts[i], ts[j])
  }

  /** Places `x` after every entry at least as recent, keeping the rest in place. */
  function Insert(x: Transaction, s: seq<Transaction>): (r: seq<Transaction>)
    ensures multiset(r) == multiset(s) + multiset{x}
  {
    if s == [] then [x]
    else
      assert s == [s[0]] + s[1..];
      if s[0].date >= x.date then [s[0]] + Insert(x, s[1..]) else [x] + s
  }

  /**
   * The comparator sort `(a, b) => b.date - a.date`. JavaScript's sort is stable, so this is an
   * insertion sort that keeps equal dates in their original order.
   */
  function SortByDate(ts: seq<Transaction>): (r: seq<Transaction>)
    ensures multiset(r) == multiset(ts)
  {
    if ts == [] then []
    else
      assert ts == ts[..|ts| - 1] + [ts[|ts| - 1]];
      Insert(ts[|ts| - 1], SortByDate(ts[..|ts| - 1]))
  }

  /** The component's `transactions`. */
  function Transactions(gs: seq<Goal>): seq<Transaction>
  {
    SortByDate(Entries(gs))
  }

  lemma {:induction false} InsertOrdered(x: Transaction, s: seq<Transaction>)
    requires Ordered(s)
    requires forall t :: t in s ==> t.id < x.id
    ensures Ordered(Insert(x, s))
  {
    if s != [] && s[0].date >= x.date {
      var tail := s[1..];
      assert forall t :: t in tail ==> t in s;
      InsertOrdered(x, tail);
      var r := Insert(x, s);
      assert r == [s[0]] + Insert(x, tail);
      forall j | 0 < j < |r|
        ensures Before(r[0], r[j])
      {
        var t := r[j];
        assert t in multiset(Insert(x, tail));
        if t == x {
        } else {
          assert t in multiset(tail);
          var k :| 0 <= k < |tail| && tail[k] == t;
          assert s[k + 1] == t;
        }
      }
    }
  }

  lemma {:induction false} SortOrdered(ts: seq<Transaction>)
    requires forall i, j :: 0 <= i < j < |ts| ==> ts[i].id < ts[j].id
    ensures Ordered(SortByDate(ts))
  {
    if ts != [] {
      var init := ts[..|ts| - 1];
      var last := ts[|ts| - 1];
      SortOrdered(init);
      forall t | t in SortByDate(init)
        ensures t.id < last.id
      {
        assert t in multiset(SortByDate(init));
        assert t in init;
      }
      InsertOrdered(last, SortByDate(init));
    }
  }

  /**
   * The list holds exactly one entry per goal, the entry for the goal at position k having id k,
   * ordered most recent first and, for equal start dates, by position.
   */
  lemma TransactionsSpec(gs: seq<Goal>)
    ensures |Transactions(gs)| == |gs|
    ensures multiset(Transactions(gs)) == multiset(Entries(gs))
    ensures forall k :: 0 <= k < |gs| ==> Entry(gs[k], k) in Transactions(gs)
    ensures forall t :: t in Transactions(gs) ==> t.id < |gs| && t == Entry(gs[t.id], t.id)
    ensures Ordered(Transactions(gs))
  {
    var es := Entries(gs);
    var r := Transactions(gs);
    assert |multiset(r)| == |multiset(es)|;
    SortOrdered(es);
    forall k | 0 <= k < |gs|
      ensures Entry(gs[k], k) in r
    {
      assert es[k] in multiset(es);
    }
    forall t | t in r
      ensures t.id < |gs| && t == Entry(gs[t.id], t.id)
    {
      assert t in multiset(es);
      var k :| 0 <= k < |es| && es[k] == t;
    }
  }
}

=== FILE: TaskPipeline.dfy ===
/**
 * The task verification orchestrator behind `POST /api/verify/task`. It runs the GitHub stage
 * (Coding and DSA), then the Google Fit stage (Gym, Yoga, Running), then the LLM judge, stopping
 * at the first automatic acceptance and recording one step per stage that ran. The three stage
 * replies (or the error each stage's fetch threw) are inputs.
 */
module TaskPipeline {
  import opened Wrappers
  import opened Text
  import opened JsValues

  /** The request body fields the orchestrator reads; the `cookie` header is a separate input. */
  datatype Request = Request(habitType: int, username: Option<string>, proofText: Option<string>,
                             proofImageUrl: Option<string>)

  /** The fields of a stage's JSON reply the orchestrator reads. */
  datatype Body = Body(verified: JsValue, summary: JsValue, confidence: JsValue, reason: JsValue)

  /** A stage's outcome: its fetch or JSON parse threw, or it answered with a body (of any status). */
  datatype Reply = Threw(message: string) | Replied(body: Body)

  datatype Service = GitHubService | FitService | LlmService

  /** An entry of `results.steps`. */
  datatype Step =
    | Checked(service: Service, verified: JsValue, summary: JsValue)
    | Judged(verified: JsValue, confidence: JsValue, reason: JsValue)
    | StageError(service: Service, message: string)

  function ServiceOf(s: Step): Service
  {
    match s
    case Checked(service, _, _) => service
    case Judged(_, _, _) => LlmService
    case StageError(service, _) => service
  }

  /** The calls the orchestrator makes to the other verification routes, with what it sends. */
  datatype StageCall =
    | GitHubCall(username: string)
    | FitnessCall(accessToken: string, habitType: int)
    | LlmCall(habitType: int, proofText: Option<string>, proofImageUrl: Option<string>,
              githubData: Option<Body>, fitnessData: Option<Body>)

  function CalledService(c: StageCall): Service
  {
    match c
    case GitHubCall(_) => GitHubService
    case FitnessCall(_, _) => FitService
    case LlmCall(_, _, _, _, _) => LlmService
  }

  /** The reply object. `summary` is `Undefined` while unset. */
  datatype Results = Results(steps: seq<Step>, finalVerified: bool, verificationMethod: Option<string>,
                             summary: JsValue, github: Option<Body>, fitness: Option<Body>, llm: Option<Body>)

  const NoProofSummary: string := "No proof submitted. Please provide proof of task completion."
  const RejectedSummary: string := "Verification failed - insufficient proof"

  predicate Present(o: Option<string>)
  {
    o.Some? && o.value != ""
  }

  // ---------------------------------------------------------------------------
  // The access-token cookie

  const TokenKey: string := "google_fit_access_token="

  /** The length of the run of characters other than `;` that starts at `i`. */
  function RunLength(c: string, i: nat): (n: nat)
    requires i <= |c|
    ensures i + n <= |c|
    ensures forall k :: i <= k < i + n ==> c[k] != ';'
    ensures i + n == |c| || c[i + n] == ';'
    decreases |c| - i
  {
    if i == |c| || c[i] == ';' then 0 else 1 + RunLength(c, i + 1)
  }

  /** The key occurs at `p` and is followed by at least one character other than `;`. */
  predicate KeyAt(c: string, p: nat)
  {
    p + |TokenKey| < |c| && c[p..p + |TokenKey|] == TokenKey && c[p + |TokenKey|] != ';'
  }

  /**
   * `cookie.match(/google_fit_access_token=([^;]+)/)[1]`, searching from position `from`: the
   * longest run of non-`;` characters right after the first occurrence of the key that is followed
   * by at least one such character; none when there is no such occurrence.
   */
  function TokenFrom(c: string, from: nat): (r: Option<string>)
    ensures r.None? <==> forall p :: from <= p ==> !KeyAt(c, p)
    ensures r.Some? ==> |r.value| > 0 && forall k :: 0 <= k < |r.value| ==> r.value[k] != ';'
    ensures r.Some? ==> exists p :: from <= p && KeyAt(c, p) && (forall q :: from <= q < p ==> !KeyAt(c, q)) &&
                                    r.value == c[p + |TokenKey|..p + |TokenKey| + RunLength(c, p + |TokenKey|)]
    decreases |c| - from
  {
    if from + |TokenKey| >= |c| then None
    else if KeyAt(c, from) then
      var start := from + |TokenKey|;
      Some(c[start..start + RunLength(c, start)])
    else TokenFrom(c, from + 1)
  }

  function AccessToken(cookie: string): Option<string>
  {
    TokenFrom(cookie, 0)
  }

  // ---------------------------------------------------------------------------
  // When each stage runs and accepts

  /** The GitHub stage runs for Coding and DSA when a username is given. */
  predicate GitHubRuns(req: Request)
  {
    (req.habitType == 0 || req.habitType == 1) && Present(req.username)
  }

  /** The Google Fit stage runs for Gym, Yoga and Running when the cookie carries a token. */
  predicate FitRuns(req: Request, cookie: string)
  {
    2 <= req.habitType <= 4 && AccessToken(cookie).Some?
  }

  /** Only a Coding habit is accepted on GitHub evidence alone. */
  predicate GitHubAccepts(req: Request, github: Reply)
  {
    GitHubRuns(req) && req.habitType == 0 && github.Replied? && Truthy(github.body.verified)
  }

  predicate FitAccepts(req: Request, cookie: string, fitness: Reply)
  {
    FitRuns(req, cookie) && fitness.Replied? && Truthy(fitness.body.verified)
  }

  /** Something for the judge to look at: proof text, an image, or a stored stage reply. */
  predicate HasEvidence(req: Request, cookie: string, github: Reply, fitness: Reply)
  {
    Present(req.proofText) || Present(req.proofImageUrl) ||
    (GitHubRuns(req) && github.Replied?) || (FitRuns(req, cookie) && fitness.Replied?)
  }

  /** The judge accepts when its verdict is truthy and its confidence is at least 60. */
  predicate LlmAccepts(llm: Reply)
  {
    llm.Replied? && Truthy(llm.body.verified) && AtLeast(llm.body.confidence, 60)
  }

  /** The two automatic stages never both run: their habit ranges are disjoint. */
  lemma StagesExclusive(req: Request, cookie: string)
    ensures !(GitHubRuns(req) && FitRuns(req, cookie))
  {
  }

  /** Steps name their services in the order github, google_fit, llm, each at most once. */
  function Rank(s: Service): nat
  {
    match s
    case GitHubService => 0
    case FitService => 1
    case LlmService => 2
  }

  predicate InStageOrder(steps: seq<Step>)
  {
    forall i, j :: 0 <= i < j < |steps| ==> Rank(ServiceOf(steps[i])) < Rank(ServiceOf(steps[j]))
  }

  /**
   * The step trail so far: one step per call, naming the called service, in stage order, with
   * every service ranked below `below`.
   */
  predicate Trail(steps: seq<Step>, calls: seq<StageCall>, below: nat)
  {
    && |steps| == |calls|
    && (forall k :: 0 <= k < |calls| ==> ServiceOf(steps[k]) == CalledService(calls[k]))
    && (forall k :: 0 <= k < |steps| ==> Rank(ServiceOf(steps[k])) < below)
    && InStageOrder(steps)
  }

  /** Recording a later stage's step and call extends the trail. */
  lemma TrailExtend(steps: seq<Step>, calls: seq<StageCall>, st: Step, c: StageCall)
    requires Trail(steps, calls, Rank(ServiceOf(st))) && ServiceOf(st) == CalledService(c)
    ensures Trail(steps + [st], calls + [c], Rank(ServiceOf(st)) + 1)
  {
    var s' := steps + [st];
    assert forall k :: 0 <= k < |steps| ==> s'[k] == steps[k];
  }

  /** The step recorded for the GitHub or Google Fit stage. */
  function CheckStep(service: Service, r: Reply): Step
  {
    match r
    case Threw(m) => StageError(service, m)
    case Replied(b) => Checked(service, b.verified, b.summary)
  }

  /** Nothing accepted yet and no judge consulted. */
  predicate Open(r: Results)
  {
    !r.finalVerified && r.verificationMethod.None? && r.summary == Undefined && r.llm.None?
  }

  /** The GitHub stage, from the empty reply object; `done` when it returns early. */
  method GitHubStage(req: Request, reply: Reply) returns (results: Results, calls: seq<StageCall>, done: bool)
    ensures Trail(results.steps, calls, 1)
    ensures done <==> GitHubAccepts(req, reply)
    ensures calls == if GitHubRuns(req) then [GitHubCall(req.username.value)] else []
    ensures results.steps == if GitHubRuns(req) then [CheckStep(GitHubService, reply)] else []
    ensures results.github == if GitHubRuns(req) && reply.Replied? then Some(reply.body) else None
    ensures results.fitness.None? && results.llm.None?
    ensures done ==> results.finalVerified && results.verificationMethod == Some("github_auto") &&
                     results.summary == Str("Verified via GitHub: " + ToJsString(reply.body.summary))
    ensures !done ==> Open(results)
  {
    results := Results([], false, None, Undefined, None, None, None);
    calls := [];
    done := false;
    if req.habitType == 0 || req.habitType == 1 {
      if Present(req.username) {
        calls := calls + [GitHubCall(req.username.value)];
        results := results.(steps := results.steps + [CheckStep(GitHubService, reply)]);
        if reply.Replied? {
          results := results.(github := Some(reply.body));
          if req.habitType == 0 && Truthy(reply.body.verified) {
            results := results.(finalVerified := true, verificationMethod := Some("github_auto"),
                                summary := Str("Verified via GitHub: " + ToJsString(reply.body.summary)));
            done := true;
          }
        }
      }
    }
  }

  /** The Google Fit stage, continuing from the reply object `before`; `done` when it returns early. */
  method FitStage(req: Request, cookie: string, reply: Reply, before: Results, callsBefore: seq<StageCall>)
    returns (results: Results, calls: seq<StageCall>, done: bool)
    requires Open(before) && before.fitness.None?
    requires Trail(before.steps, callsBefore, 1)
    ensures Trail(results.steps, calls, 2)
    ensures done <==> FitAccepts(req, cookie, reply)
    ensures !FitRuns(req, cookie) ==> results == before && calls == callsBefore
    ensures FitRuns(req, cookie) ==>
      && calls == callsBefore + [FitnessCall(AccessToken(cookie).value, req.habitType)]
      && results.steps == before.steps + [CheckStep(FitService, reply)]
      && results.github == before.github
      && results.fitness == (if reply.Replied? then Some(reply.body) else None)
    ensures results.llm.None?
    ensures done ==> results.finalVerified && results.verificationMethod == Some("google_fit_auto") &&
                     results.summary == Str("Verified via Google Fit: " + ToJsString(reply.body.summary))
    ensures !done ==> Open(results)
  {
    results, calls, done := before, callsBefore, false;
    if 2 <= req.habitType <= 4 {
      var token := AccessToken(cookie);
      if token.Some? {
        TrailExtend(results.steps, calls, CheckStep(FitService, reply), FitnessCall(token.value, req.habitType));
        calls := calls + [FitnessCall(token.value, req.habitType)];
        results := results.(steps := results.steps + [CheckStep(FitService, reply)]);
        if reply.Replied? {
          results := results.(fitness := Some(reply.body));
          if Truthy(reply.body.verified) {
            results := results.(finalVerified := true, verificationMethod := Some("google_fit_auto"),
                                summary := Str("Verified via Google Fit: " + ToJsString(reply.body.summary)));
            done := true;
          }
        }
      }
    }
  }

  /** The summary a judge's reply leads to. */
  function JudgedSummary(b: Body): JsValue
  {
    if Truthy(b.verified) && AtLeast(b.confidence, 60) then
      Str("Verified by AI (" + ToJsString(b.confidence) + "% confidence): " + ToJsString(b.reason))
    else Or(b.reason, Str(RejectedSummary))
  }

  /** The LLM stage, or the "no proof" summary when there is nothing to judge. */
  method JudgeStage(req: Request, reply: Reply, before: Results, callsBefore: seq<StageCall>)
    returns (results: Results, calls: seq<StageCall>)
    requires Open(before)
    requires Trail(before.steps, callsBefore, 2)
    ensures Trail(results.steps, calls, 3)
    ensures var evidence := Present(req.proofText) || Present(req.proofImageUrl) || before.github.Some? || before.fitness.Some?;
      && (!evidence ==> results == before.(summary := Str(NoProofSummary)) && calls == callsBefore)
      && (evidence ==>
            && calls == callsBefore + [LlmCall(req.habitType, req.proofText, req.proofImageUrl, before.github, before.fitness)]
            && results.github == before.github && results.fitness == before.fitness
            && (reply.Threw? ==> results == before.(steps := before.steps + [StageError(LlmService, reply.message)]))
            && (reply.Replied? ==>
                  && results.steps == before.steps + [Judged(reply.body.verified, reply.body.confidence, reply.body.reason)]
                  && (results.finalVerified <==> LlmAccepts(reply))
                  && results.verificationMethod == Some("llm")
                  && results.summary == JudgedSummary(reply.body)))
  {
    results, calls := before, callsBefore;
    if Present(req.proofText) || Present(req.proofImageUrl) || results.github.Some? || results.fitness.Some? {
      var call := LlmCall(req.habitType, req.proofText, req.proofImageUrl, results.github, results.fitness);
      TrailExtend(results.steps, calls, if reply.Threw? then StageError(LlmService, reply.message)
                                        else Judged(reply.body.verified, reply.body.confidence, reply.body.reason), call);
      calls := calls + [call];
      match reply {
        case Threw(m) =>
          results := results.(steps := results.steps + [StageError(LlmService, m)]);
        case Replied(b) =>
          results := results.(llm := Some(b),
                              steps := results.steps + [Judged(b.verified, b.confidence, b.reason)]);
          if Truthy(b.verified) && AtLeast(b.confidence, 60) {
            results := results.(finalVerified := true, verificationMethod := Some("llm"),
                                summary := Str("Verified by AI (" + ToJsString(b.confidence) + "% confidence): " +
                                               ToJsString(b.reason)));
          } else {
            results := results.(finalVerified := false, verificationMethod := Some("llm"),
                                summary := Or(b.reason, Str(RejectedSummary)));
          }
      }
    } else {
      results := results.(summary := Str(NoProofSummary));
    }
  }

  /** The two automatic stages in turn; `done` when either accepted and the route returns early. */
  method AutomaticStages(req: Request, cookie: string, githubReply: Reply, fitnessReply: Reply)
    returns (results: Results, calls: seq<StageCall>, done: bool)
    ensures Trail(results.steps, calls, 2) && |calls| <= 1
    ensures GitHubRuns(req) <==> |calls| > 0 && calls[0].GitHubCall?
    ensures FitRuns(req, cookie) <==> |calls| > 0 && calls[0].FitnessCall?
    ensures done <==> GitHubAccepts(req, githubReply) || FitAccepts(req, cookie, fitnessReply)
    ensures GitHubAccepts(req, githubReply) ==>
      && calls == [GitHubCall(req.username.value)]
      && results.finalVerified
      && results.verificationMethod == Some("github_auto")
      && results.summary == Str("Verified via GitHub: " + ToJsString(githubReply.body.summary))
    ensures FitAccepts(req, cookie, fitnessReply) ==>
      && calls == [FitnessCall(AccessToken(cookie).value, req.habitType)]
      && results.finalVerified
      && results.verificationMethod == Some("google_fit_auto")
      && results.summary == Str("Verified via Google Fit: " + ToJsString(fitnessReply.body.summary))
    ensures !done ==>
      && Open(results)
      && results.github == (if GitHubRuns(req) && githubReply.Replied? then Some(githubReply.body) else None)
      && results.fitness == (if FitRuns(req, cookie) && fitnessReply.Replied? then Some(fitnessReply.body) else None)
  {
    StagesExclusive(req, cookie);
    results, calls, done := GitHubStage(req, githubReply);
    if done {
      return;
    }
    results, calls, done := FitStage(req, cookie, fitnessReply, results, calls);
  }

  /**
   * `POST /api/verify/task`. Returns the reply object and the calls made to the other routes.
   * `finalVerified` becomes true only at the three acceptance points: a Coding habit verified on
   * GitHub, a fitness habit verified on Google Fit, or a judge's verdict with confidence at least 60.
   */
  method Post(req: Request, cookie: string, githubReply: Reply, fitnessReply: Reply, llmReply: Reply)
    returns (results: Results, calls: seq<StageCall>)
    // the step trail: one step per call made, in stage order, never both automatic stages
    ensures Trail(results.steps, calls, 3) && |calls| <= 2
    ensures GitHubRuns(req) <==> |calls| > 0 && calls[0].GitHubCall?
    ensures FitRuns(req, cookie) <==> |calls| > 0 && calls[0].FitnessCall?
    // the three acceptance points
    ensures results.finalVerified <==>
      GitHubAccepts(req, githubReply) || FitAccepts(req, cookie, fitnessReply) ||
      (HasEvidence(req, cookie, githubReply, fitnessReply) && LlmAccepts(llmReply))
    ensures GitHubAccepts(req, githubReply) ==>
      && calls == [GitHubCall(req.username.value)]
      && results.verificationMethod == Some("github_auto")
      && results.summary == Str("Verified via GitHub: " + ToJsString(githubReply.body.summary))
    ensures FitAccepts(req, cookie, fitnessReply) ==>
      && calls == [FitnessCall(AccessToken(cookie).value, req.habitType)]
      && results.verificationMethod == Some("google_fit_auto")
      && results.summary == Str("Verified via Google Fit: " + ToJsString(fitnessReply.body.summary))
    // the judge
    ensures !GitHubAccepts(req, githubReply) && !FitAccepts(req, cookie, fitnessReply) ==>
      && (HasEvidence(req, cookie, githubReply, fitnessReply) <==> |calls| > 0 && calls[|calls| - 1].LlmCall?)
      && (!HasEvidence(req, cookie, githubReply, fitnessReply) ==>
            results.verificationMethod.None? && results.summary == Str(NoProofSummary))
      && (HasEvidence(req, cookie, githubReply, fitnessReply) ==>
            && calls[|calls| - 1] == LlmCall(req.habitType, req.proofText, req.proofImageUrl,
                                             if GitHubRuns(req) && githubReply.Replied? then Some(githubReply.body) else None,
                                             if FitRuns(req, cookie) && fitnessReply.Replied? then Some(fitnessReply.body) else None)
            && (llmReply.Threw? ==> results.verificationMethod.None? && results.summary == Undefined)
            && (llmReply.Replied? ==>
                  && results.verificationMethod == Some("llm")
                  && results.summary == JudgedSummary(llmReply.body)))
  {
    var done;
    results, calls, done := AutomaticStages(req, cookie, githubReply, fitnessReply);
    if done {
      return;
    }
    assert HasEvidence(req, cookie, githubReply, fitnessReply) <==>
      Present(req.proofText) || Present(req.proofImageUrl) || results.github.Some? || results.fitness.Some?;
    results, calls := JudgeStage(req, llmReply, results, calls);
  }
}

=== FILE: Text.dfy ===
/** String helpers with the meaning JavaScript gives them (a string here is a sequence of Unicode scalar values, one `char` each). */
module Text {

  predicate IsPrefix(p: string, s: string)
  {
    |p| <= |s| && s[..|p|] == p
  }

  /** `s.includes(key)`: `key` occurs somewhere in `s`. */
  predicate Contains(s: string, key: string)
    decreases |s|
  {
    IsPrefix(key, s) || (|s| > 0 && Contains(s[1..], key))
  }

  lemma {:induction false} ContainsAt(s: string, key: string, i: nat)
    requires i + |key| <= |s| && s[i..i + |key|] == key
    ensures Contains(s, key)
    decreases i
  {
    if i > 0 {
      assert s[1..][i - 1..i - 1 + |key|] == key;
      ContainsAt(s[1..], key, i - 1);
    }
  }

  /** The characters that `String.prototype.trim` removes: WhiteSpace and LineTerminator of ECMA-262. */
  predicate IsJsWhitespace(c: char)
  {
    c == '\t' || c == '\n' || c == '\U{000B}' || c == '\U{000C}' || c == '\r' || c == ' ' ||
    c == '\U{00A0}' || c == '\U{1680}' || ('\U{2000}' <= c <= '\U{200A}') ||
    c == '\U{2028}' || c == '\U{2029}' || c == '\U{202F}' || c == '\U{205F}' ||
    c == '\U{3000}' || c == '\U{FEFF}'
  }

  /** Number of leading whitespace characters. */
  function LeadingWhitespace(s: string): (n: nat)
    ensures n <= |s|
    ensures forall i :: 0 <= i < n ==> IsJsWhitespace(s[i])
    ensures n < |s| ==> !IsJsWhitespace(s[n])
  {
    if |s| > 0 && IsJsWhitespace(s[0]) then 1 + LeadingWhitespace(s[1..]) else 0
  }

  /** Number of trailing whitespace characters. */
  function TrailingWhitespace(s: string): (n: nat)
    ensures n <= |s|
    ensures forall i :: |s| - n <= i < |s| ==> IsJsWhitespace(s[i])
    ensures n < |s| ==> !IsJsWhitespace(s[|s| - n - 1])
  {
    if |s| > 0 && IsJsWhitespace(s[|s| - 1]) then 1 + TrailingWhitespace(s[..|s| - 1]) else 0
  }

  /** `s.trim()`: the middle of `s` between its leading and its trailing whitespace. */
  function Trim(s: string): string
  {
    var t := s[LeadingWhitespace(s)..];
    t[..|t| - TrailingWhitespace(t)]
  }

  /** The trimmed string is a slice of the original that neither starts nor ends with whitespace. */
  lemma TrimSpec(s: string)
    ensures LeadingWhitespace(s) + |Trim(s)| <= |s|
    ensures |Trim(s)| > 0 ==> !IsJsWhitespace(Trim(s)[0]) && !IsJsWhitespace(Trim(s)[|Trim(s)| - 1])
    ensures forall i :: 0 <= i < |Trim(s)| ==> Trim(s)[i] == s[LeadingWhitespace(s) + i]
  {
  }

  /** Trimming a string without surrounding whitespace gives it back. */
  lemma TrimUntouched(s: string)
    requires |s| > 0 ==> !IsJsWhitespace(s[0]) && !IsJsWhitespace(s[|s| - 1])
    ensures Trim(s) == s
  {
    assert LeadingWhitespace(s) == 0;
    assert TrailingWhitespace(s) == 0;
  }

  /** `parts.join(sep)`. */
  function Join(parts: seq<string>, sep: string): string
  {
    if |parts| == 0 then ""
    else if |parts| == 1 then parts[0]
    else parts[0] + sep + Join(parts[1..], sep)
  }

  /** `s.split(c)` for a one-character separator: never empty, and no piece holds `c`. */
  function Split(s: string, c: char): (parts: seq<string>)
    ensures |parts| >= 1
    ensures forall k, i :: 0 <= k < |parts| && 0 <= i < |parts[k]| ==> parts[k][i] != c
  {
    if |s| == 0 then [""]
    else
      var rest := Split(s[1..], c);
      if s[0] == c then [""] + rest
      else [[s[0]] + rest[0]] + rest[1..]
  }

  /** Joining the pieces of a split with the separator gives the string back. */
  lemma {:induction false} JoinSplit(s: string, c: char)
    ensures Join(Split(s, c), [c]) == s
    decreases |s|
  {
    if |s| > 0 {
      JoinSplit(s[1..], c);
      var rest := Split(s[1..], c);
      if s[0] != c {
        assert Join([[s[0]] + rest[0]] + rest[1..], [c]) == [s[0]] + Join(rest, [c]);
      }
      assert s == [s[0]] + s[1..];
    }
  }

  function DigitChar(d: nat): (c: char)
    requires d < 10
    ensures '0' <= c <= '9'
  {
    "0123456789"[d]
  }

  /** Decimal rendering of a natural number, as JavaScript prints integers. */
  function NatToString(n: nat): (s: string)
    ensures |s| > 0
    ensures forall i :: 0 <= i < |s| ==> '0' <= s[i] <= '9'
  {
    if n < 10 then [DigitChar(n)] else NatToString(n / 10) + [DigitChar(n % 10)]
  }

  /** The number a string of decimal digits denotes. */
  function DigitsValue(s: string): nat
    requires forall i :: 0 <= i < |s| ==> '0' <= s[i] <= '9'
  {
    if s == [] then 0 else 10 * DigitsValue(s[..|s| - 1]) + (s[|s| - 1] as int - '0' as int)
  }

  /** Reading the rendering of `n` back as decimal digits gives `n`. */
  lemma {:induction false} NatToStringValue(n: nat)
    ensures DigitsValue(NatToString(n)) == n
  {
    if n >= 10 {
      NatToStringValue(n / 10);
      var s := NatToString(n);
      assert s[..|s| - 1] == NatToString(n / 10);
    }
  }

  /** Distinct numbers render differently. */
  lemma NatToStringInjective(m: nat, n: nat)
    requires NatToString(m) == NatToString(n)
    ensures m == n
  {
    NatToStringValue(m);
    NatToStringValue(n);
  }

  function IntToString(n: int): (s: string)
    ensures |s| > 0
  {
    if n < 0 then "-" + NatToString(-n) else NatToString(n)
  }
}

=== FILE: Wrappers.dfy ===
/** Optional values and success-or-error results, shared by every module of the model. */
module Wrappers {

  datatype Option<+T> = None | Some(value: T)

  datatype Result<+T, +E> = Ok(value: T) | Err(error: E)
}
